=== FILE: README.md ===
# ImageRegistration core, modelled in Dafny

This project models the decision logic of the ImageRegistration prostate
MRI preprocessing package. That logic sits around its SimpleITK and elastix
calls. It covers:

- **The pipeline engine** (`BasePipeline.execute`), in `engine.dfy`.
  - A fold over an ordered list of steps. Each step is a `Slot` holding its
    name, status and error message.
  - Each step's `validate`/`execute`/`cleanup` is an oracle given as a
    `Behaviour`.
  - Step outputs are merged into a context map. Per-step records,
    `steps_executed`, `errors` and the run status are kept.
  - An event trace records the order in which steps start and are cleaned
    up.
- **The comprehensive preprocessing pipeline**, in `preprocessing.dfy`: its
  step list and the execute logic of the standardization, segmentation,
  ROI-extraction and registration steps. The context is a
  `map<string, Value>` (`context.dfy`); images are opaque.
- **The batch preprocessing pipeline**:
  - `discovery.dfy`: patient discovery over an abstract directory listing.
  - `batch.dfy`: training on the first 20 patients.
  - `batch_processing.dfy`: per-patient processing with success/failure
    accounting. The thread pool becomes an arbitrary completion order,
    built in `orders.dfy`.
  - `batch_report.dfy`: the report.
- **The elastix-based registration engine and batch processor**:
  - `elastix.dfy`: executable paths, library environment, command lines
    and outcome classification.
  - `elastix_batch.dfy`: the directory filter and the accounting.
- **Intensity standardization**:
  - `nyul.dfy`: the Nyul landmark formula and piecewise-linear map.
  - `zscore.dfy`: the z-score map.
  - `standardizers.dfy`: the trained/parameters lifecycle shared by both
    standardizers.
  - `stats.dfy`: percentiles, median, mean and deviations over `real`,
    computed from sorted sequences.
- **Small utilities**:
  - `roi.dfy`: the ROI bounding-box padding arithmetic.
  - `param_file.dfy`: the elastix parameter-file line parser, overrides,
    `int()`/`float()` conversions of the additional parameters and the
    multi-resolution schedule.
  - `factory.dfy`: the case-insensitive registration factory.
  - `pystr.dfy`: Python string operations.
  - `wrappers.dfy`: `Option`/`Result` and Python exceptions as
    `Error(kind, message)`.

The model is side-effect free, which changes how effects appear:

- A Python exception is an `Err` value. Its kind is the exception class
  name.
- A step that mutates itself (a standardizer that trains) returns its new
  state.
- File reads, directory listings, `mkdir`, subprocess runs and SimpleITK
  operations are function parameters: the `Library`, `Toolkit`, `Io` and
  `Tools` records.

Some behaviours of the code that the model keeps as they are:

- `load_parameters` restores only the parameters dictionary and the
  trained flag, so a loaded standardizer cannot transform (second finding
  below).
- The reporting step raises `KeyError` on a missing `output_directory` or
  `total_patients`, and an error from creating the reports directory
  escapes (`BatchReport.Build`).
- A failed input validation raises `ValueError` (`Engine.Attempt`).

## Model

| member | source | states |
|---|---|---|
| Engine.NewPipeline | ImageRegistration/src/image_registration/pipeline/base_pipeline.py:45-68 | a new pipeline has no steps, no results and no recorded errors; its status is initialized and continue-on-error is off |
| Engine.AddStep | ImageRegistration/src/image_registration/pipeline/base_pipeline.py:70-73 | exactly one pending step is appended at the end; earlier steps and every other field are unchanged |
| Engine.Merge | ImageRegistration/src/image_registration/pipeline/base_pipeline.py:119-121 | a None or empty step result leaves the context unchanged; otherwise the keys are the union, the step's values win, and untouched keys keep their values |
| Engine.Attempt | ImageRegistration/src/image_registration/pipeline/base_pipeline.py:111-117 | failed validation raises ValueError "Input validation failed for step: <name>" without executing the step; otherwise the outcome is the step's own |
| Engine.ValidationIsRaise | ImageRegistration/src/image_registration/pipeline/base_pipeline.py:111-164 | attempting a step that fails validation has exactly the outcome of attempting a step whose execute raises that ValueError, with the same cleanup |
| Engine.RunStep | ImageRegistration/src/image_registration/pipeline/base_pipeline.py:104-171 | one iteration: only the current step's slot changes, it ends completed or failed, its cleanup follows its start in the trace, and a success is appended to steps_executed while a failure is appended to errors with the context untouched; the step ends completed exactly when its execute returned, and then its output is merged into the context and recorded as its result with success true, while a raised error is the one the step raised |
| Engine.RunFrom | ImageRegistration/src/image_registration/pipeline/base_pipeline.py:102-171 | the loop runs to the end of the list unless a step raises without continue-on-error; a raise is only possible with continue-on-error off |
| Engine.RunFromInOrder | ImageRegistration/src/image_registration/pipeline/base_pipeline.py:104-171 | the trace of the remaining steps is each step started then cleaned up, strictly in list order, none twice |
| Engine.RunFromSlots | ImageRegistration/src/image_registration/pipeline/base_pipeline.py:104-171 | step names never change; steps not reached keep their state; every reached step ends completed or failed |
| Engine.RunFromStopsAtFailure | ImageRegistration/src/image_registration/pipeline/base_pipeline.py:163-164 | without continue-on-error, a raising run has every earlier step completed and the last started step failed; a run that does not raise completed every step |
| Engine.RunFromAccounting | ImageRegistration/src/image_registration/pipeline/base_pipeline.py:133-153 | the appended steps_executed are exactly the completed steps in order, and the number of new errors is the number of started steps minus the successes |
| Engine.RunFromFailureRecord | ImageRegistration/src/image_registration/pipeline/base_pipeline.py:140-164 | the step that raised carries the exception message, and exactly one error entry with its name, index, message and type is appended |
| Engine.Execute | ImageRegistration/src/image_registration/pipeline/base_pipeline.py:75-194 | results hold the caller's input; status is completed iff the run returns and failed iff it raises; metadata status and errors are written either way; results['error'] is set exactly on failure; with continue-on-error the run always returns |
| Engine.ExecuteInOrder | ImageRegistration/src/image_registration/pipeline/base_pipeline.py:104-171 | steps run and are cleaned up strictly in list order, each at most once, and a returning run started every step |
| Engine.ExecuteStopsAtFirstFailure | ImageRegistration/src/image_registration/pipeline/base_pipeline.py:163-182 | without continue-on-error a raising run stopped at its first failed step: earlier steps completed, later steps untouched, one error appended and the exception's message recorded on the step |
| Engine.ExecuteContinueOnError | ImageRegistration/src/image_registration/pipeline/base_pipeline.py:156-174 | with continue-on-error every step runs and ends completed or failed, the pipeline still ends completed, steps_executed lists the successes, and each failure adds one error |
| Engine.ExecuteListsSuccesses | ImageRegistration/src/image_registration/pipeline/base_pipeline.py:133-138 | metadata steps_executed is exactly the completed steps, in order, with their indices |
| Engine.ExecuteAccumulatesErrors | ImageRegistration/src/image_registration/pipeline/base_pipeline.py:83-153 | execute never resets the error list: the errors of earlier runs remain its prefix |
| Engine.ExecuteIgnoresCleanup | ImageRegistration/src/image_registration/pipeline/base_pipeline.py:166-171 | what cleanup does, including raising, changes nothing but the trace |
| Engine.RunFromInvariant | ImageRegistration/src/image_registration/pipeline/base_pipeline.py:104-171 | a property of the context and of the step objects that every validated step execution preserves holds throughout the remaining loop |
| Engine.ExecuteInvariant | ImageRegistration/src/image_registration/pipeline/base_pipeline.py:91-171 | the same invariant holds of the final context and of every step object after a whole run |
| Preprocessing.NewStandardizationStep | ImageRegistration/src/image_registration/pipeline/comprehensive_pipeline.py:43-52 | only "nyul" (default Nyul model) and "zscore" (default robust z-score model) are accepted; anything else raises ValueError "Unknown standardization method: <method>" |
| Preprocessing.NewPreprocessingPipeline | ImageRegistration/src/image_registration/pipeline/comprehensive_pipeline.py:21-38 | the steps are standardization, then segmentation and ROI extraction (padding 10) only when segmentation is enabled, then registration; an unknown method raises before any step exists |
| Preprocessing.Standardize | ImageRegistration/src/image_registration/pipeline/comprehensive_pipeline.py:54-77 | on success, t2w_standardized is emitted iff t2w_image is present and not None, through the step's model, which is trained on that image only if untrained, and adc_standardized iff adc_image is present, through a fresh z-score model; the step succeeds whenever each present input is an image, the model trains if it must and both transforms succeed |
| Preprocessing.StandardizeTrainsOnce | ImageRegistration/src/image_registration/pipeline/comprehensive_pipeline.py:64-68 | once the step's model is trained, later runs never retrain it |
| Preprocessing.SegmentationInput | ImageRegistration/src/image_registration/pipeline/comprehensive_pipeline.py:90 | segmentation reads t2w_standardized whenever that key exists, even holding None, and only otherwise t2w_image |
| Preprocessing.FixedInput | ImageRegistration/src/image_registration/pipeline/comprehensive_pipeline.py:141-143 | the fixed image is t2w_standardized_roi whenever that key exists, even holding None, else t2w_standardized when it exists, else t2w_image, else None |
| Preprocessing.MovingInput | ImageRegistration/src/image_registration/pipeline/comprehensive_pipeline.py:144-146 | the moving image is adc_standardized_roi whenever that key exists, even holding None, else adc_standardized when it exists, else adc_image, else None |
| Preprocessing.Segment | ImageRegistration/src/image_registration/pipeline/comprehensive_pipeline.py:86-98 | a None input raises ValueError "No T2W image available for segmentation"; otherwise the only output is prostate_segmentation |
| Preprocessing.Crop | ImageRegistration/src/image_registration/pipeline/comprehensive_pipeline.py:121-123 | an image is cropped by the segmentation with the bounding-box extractor; non-image values raise |
| Preprocessing.RoiLoopFailure | ImageRegistration/src/image_registration/pipeline/comprehensive_pipeline.py:119-124 | the cropping loop fails iff the crop of some present key fails, and then with the first such error |
| Preprocessing.RoiLoopOutputs | ImageRegistration/src/image_registration/pipeline/comprehensive_pipeline.py:119-124 | on success the loop writes <key>_roi exactly for the present, non-None keys |
| Preprocessing.RoiLoopImages | ImageRegistration/src/image_registration/pipeline/comprehensive_pipeline.py:119-124 | on success <key>_roi holds the cropped image of that key |
| Preprocessing.ExtractRoi | ImageRegistration/src/image_registration/pipeline/comprehensive_pipeline.py:108-128 | no segmentation gives {}; with a segmentation and no image key present, roi_mask is unbound (UnboundLocalError); a successful run always has roi_mask |
| Preprocessing.ExtractRoiImages | ImageRegistration/src/image_registration/pipeline/comprehensive_pipeline.py:119-124 | each of the four fixed keys that is present and not None gets its cropped image under <key>_roi, and no other does |
| Preprocessing.ExtractRoiMask | ImageRegistration/src/image_registration/pipeline/comprehensive_pipeline.py:121-126 | roi_mask is the mask cropped with the last cropped key, and the output holds only roi_mask and <key>_roi names |
| Preprocessing.Register | ImageRegistration/src/image_registration/pipeline/comprehensive_pipeline.py:137-169 | a None fixed or moving input raises ValueError "Both fixed and moving images required for registration"; an unknown registration type raises the factory's error; on success the output is exactly registered_adc, registration_transform and registration_type, holding what the toolkit's register returned for the fixed and moving inputs with roi_mask as fixed mask; once the inputs and the registration type are accepted, the step succeeds exactly when the toolkit's register does and otherwise raises its error |
| Preprocessing.RegisterPrefersRoi | ImageRegistration/src/image_registration/pipeline/comprehensive_pipeline.py:141-150 | when both ROI images and roi_mask exist, a successful registration is the toolkit's registration of the two ROI images with that mask; an unknown registration type raises ValueError "Unknown registration type: <name>" |
| Preprocessing.Run | ImageRegistration/src/image_registration/pipeline/comprehensive_pipeline.py:40-169 | each step kind runs its own operation (standardization, segmentation, ROI extraction with the step's padding, registration with the step's type) and its error is raised; only the standardization step changes state (its model may train); the other steps are unchanged by running |
| Preprocessing.Behaviour | ImageRegistration/src/image_registration/pipeline/base_pipeline.py:31-37 | the concrete steps accept every input and their cleanup does nothing |
| Discovery.FirstMatch | ImageRegistration/src/image_registration/pipeline/batch_preprocessing.py:91-96 | the first file name matching a pattern, or none exactly when no name matches |
| Discovery.FindPair | ImageRegistration/src/image_registration/pipeline/batch_preprocessing.py:90-97 | pattern pairs are tried in priority order; the first pair with a match for both modalities wins, taking the first candidate of each |
| Discovery.ExactFallbackRedundant | ImageRegistration/src/image_registration/pipeline/batch_preprocessing.py:99-106 | the exact-name fallback never finds a pair that the first pattern pair missed, so the result is the pattern search alone |
| Discovery.DiscoverMembership | ImageRegistration/src/image_registration/pipeline/batch_preprocessing.py:77-114 | a patient is found iff some listed entry is a non-hidden directory holding a file pair, with patient_id the directory name |
| Discovery.DiscoverSkips | ImageRegistration/src/image_registration/pipeline/batch_preprocessing.py:77-82 | plain files and directories whose name starts with '.' are never patients |
| Discovery.DiscoverDistinct | ImageRegistration/src/image_registration/pipeline/batch_preprocessing.py:108-114 | every directory is included at most once: distinct names give distinct patient ids |
| Discovery.DiscoverPatients | ImageRegistration/src/image_registration/pipeline/batch_preprocessing.py:61-124 | a missing base_directory raises KeyError; the step succeeds iff base_directory is a path whose listing can be read, a listing error escapes as it is, and the output is exactly patients and total_patients = len(patients) |
| Batch.MaxWorkers | ImageRegistration/src/image_registration/pipeline/batch_preprocessing.py:40 | max_workers or cpu_count: a given non-zero worker count is kept; None or 0 falls back to the CPU count |
| Batch.NewBatchPipeline | ImageRegistration/src/image_registration/pipeline/batch_preprocessing.py:24-51 | the pipeline is named BatchPreprocessingPipeline and its steps are discovery, standardization, processing and reporting, all pending, with the configuration passed through |
| Batch.TrainingSet | ImageRegistration/src/image_registration/pipeline/batch_preprocessing.py:148 | training uses a prefix of the patients of at most 20, all of them when there are at most 20 |
| Batch.Loaded | ImageRegistration/src/image_registration/pipeline/batch_preprocessing.py:147-153 | unreadable images are skipped: every loaded image was read successfully, all are kept when all reads succeed, and none when all fail |
| Batch.StandardizeBatch | ImageRegistration/src/image_registration/pipeline/batch_preprocessing.py:135-172 | a missing patients key raises KeyError; any method other than nyul returns only standardization_trained false; nyul trains a default Nyul model on the loaded images, saves its parameters to <output>/nyul_parameters.json and returns the model, true and the number of images loaded; no loadable image means an error; nyul with a patient list succeeds whenever the model trains on the loaded images and output_directory is a path |
| Batch.StandardizeNyul | ImageRegistration/src/image_registration/pipeline/batch_preprocessing.py:141-166 | the nyul branch trains on the first twenty loadable T2W images, saves the parameters and returns the model; a training error is raised as is, and training plus an output_directory path is enough to succeed |
| Batch.Processing | ImageRegistration/src/image_registration/pipeline/batch_preprocessing.py:216-220 | the batch result is the patient loop's; a worker pool, created only when parallel with more than one patient, raises ValueError for a worker count below one |
| Batch.Run | ImageRegistration/src/image_registration/pipeline/batch_preprocessing.py:53-426 | each batch step returns only its own keys and keeps its kind; discovery and processing never change, and a raising step is left as it was; each kind runs its own operation: discovery returns or raises what patient discovery does, standardization keeps the parameter files it saved, processing returns or raises the patient loop's result, and reporting keeps the report it wrote |
| Batch.Behaviour | ImageRegistration/src/image_registration/pipeline/base_pipeline.py:31-37 | the batch steps accept every input and their cleanup does nothing |
| Batch.StepKeepsUnkeyed | ImageRegistration/src/image_registration/pipeline/base_pipeline.py:119-121 | no batch step's merged output ever creates the key 'BatchProcessingStep' |
| Batch.AsWrittenReportsNothing | ImageRegistration/src/image_registration/pipeline/batch_preprocessing.py:364-383 | over a whole run of the batch pipeline as written, the report step only ever reports zero successes, zero failures and no rows |
| Batch.ReportMatchesProcessing | ImageRegistration/src/image_registration/pipeline/batch_preprocessing.py:364-403 | reading the processing step's own keys, the report counts exactly the patients processing put in successful and failed, and its rows are their records in order |
| BatchProcessing.SavedOutputs | ImageRegistration/src/image_registration/pipeline/batch_preprocessing.py:311-326 | outputs_saved holds exactly the fixed outputs whose step recorded a result containing that key, in the fixed order: its i-th name is the output at the i-th of the strictly increasing positions that hold, and every held position is among them; a failed step's None result raises TypeError |
| BatchProcessing.PatientPipeline | ImageRegistration/src/image_registration/pipeline/batch_preprocessing.py:289-297 | a per-patient preprocessing pipeline uses nyul with the injected model iff one was passed, and otherwise a default z-score model |
| BatchProcessing.ProcessLoaded | ImageRegistration/src/image_registration/pipeline/batch_preprocessing.py:283-349 | a patient result is never a crash and carries the patient id; a failed T2W read, then a failed ADC read, gives success false with that error's message and type; an injected model that is not a standardizer fails with AttributeError; otherwise a pipeline error gives success false with that error's message and type, a completed pipeline whose saving loop succeeds is processed with outputs_saved and the patient directory, and a saving error fails with its message; success means both reads worked, the per-patient pipeline completed on the two images, and outputs_saved is what its step results hold |
| BatchProcessing.ProcessPatient | ImageRegistration/src/image_registration/pipeline/batch_preprocessing.py:279-282 | the patient directory <output>/<id> is created first, outside the try, and an error there escapes |
| BatchProcessing.Recorded | ImageRegistration/src/image_registration/pipeline/batch_preprocessing.py:251-264 | an escaped exception is recorded as a failure carrying its message; a returned result is kept as is |
| BatchProcessing.Outcome | ImageRegistration/src/image_registration/pipeline/batch_preprocessing.py:209-214 | every patient is processed with the same output directory and the same injected standardizer |
| BatchProcessing.Accumulate | ImageRegistration/src/image_registration/pipeline/batch_preprocessing.py:246-264 | each patient lands in exactly one of successful and failed, and detailed_results has no duplicate ids |
| BatchProcessing.AccumulatePartition | ImageRegistration/src/image_registration/pipeline/batch_preprocessing.py:250-264 | successful and failed are the ids of the succeeding and failing patients, in processing order |
| BatchProcessing.AccumulateKeys | ImageRegistration/src/image_registration/pipeline/batch_preprocessing.py:250-264 | detailed_results has an entry for exactly the processed patient ids |
| BatchProcessing.AccumulateLast | ImageRegistration/src/image_registration/pipeline/batch_preprocessing.py:257-264 | the detailed_results entry of a patient is its outcome (the last one written for that id) |
| BatchProcessing.Arrival | ImageRegistration/src/image_registration/pipeline/batch_preprocessing.py:217-229 | results arrive in a permutation of the patients; only a parallel run with more than one patient can reorder them |
| BatchProcessing.ArrivalAccounts | ImageRegistration/src/image_registration/pipeline/batch_preprocessing.py:217-264 | in any completion order each patient lands in exactly one list, and the lists hold the same ids as in sequential order |
| BatchProcessing.ArrivalKeys | ImageRegistration/src/image_registration/pipeline/batch_preprocessing.py:229-245 | parallel and sequential runs record the same set of ids in detailed_results |
| BatchProcessing.ArrivalEntries | ImageRegistration/src/image_registration/pipeline/batch_preprocessing.py:229-245 | with distinct ids, a parallel run records the same entry for every id as the sequential run |
| BatchProcessing.ProcessBatch | ImageRegistration/src/image_registration/pipeline/batch_preprocessing.py:191-270 | missing patients or output_directory raise KeyError; the step succeeds iff patients is a patient list and output_directory a path, and otherwise raises KeyError or TypeError; the output is exactly successful, failed and detailed_results, accumulated over the arrival order from every patient's outcome |
| Orders.Permute | ImageRegistration/src/image_registration/pipeline/batch_preprocessing.py:229 | the completion order chosen by a choice sequence is a permutation of the submitted patients |
| Orders.PermuteComplete | ImageRegistration/src/image_registration/pipeline/batch_preprocessing.py:229 | every permutation of the submitted patients is the completion order of some choice sequence, so the model covers every order as_completed can yield |
| Context.SuccessRate | ImageRegistration/src/image_registration/pipeline/batch_preprocessing.py:267 | the rate is 0 when there are no patients, otherwise successes divided by the total, lying in [0, 1] when the successes do not exceed the total |
| Context.PutAt | ImageRegistration/src/image_registration/pipeline/batch_preprocessing.py:257 | storing a result under a patient id makes it that id's entry and leaves the other entries as they were |
| BatchReport.Row | ImageRegistration/src/image_registration/pipeline/batch_preprocessing.py:396-403 | a CSV row carries the id, Success or Failed by the success flag, the outputs joined with commas (split back into the same list when no name holds a comma), and the error text or '' |
| PyStr.JoinSplit | ImageRegistration/src/image_registration/pipeline/batch_preprocessing.py:401 | splitting a text on a separator and joining the pieces with it gives the text back |
| BatchReport.Entry | ImageRegistration/src/image_registration/pipeline/batch_preprocessing.py:413-418 | an error-log entry carries the recorded error and error type, with 'Unknown error' and 'Unknown' as defaults for a missing record or field |
| BatchReport.ErrorLog | ImageRegistration/src/image_registration/pipeline/batch_preprocessing.py:405-418 | an error log exists iff failed is non-empty, with one entry per failed id in order |
| BatchReport.ViewAsWritten | ImageRegistration/src/image_registration/pipeline/batch_preprocessing.py:364 | the report reads the context key 'BatchProcessingStep': absent gives empty lists, a non-dict value raises AttributeError |
| BatchReport.IdsAt | ImageRegistration/src/image_registration/pipeline/batch_preprocessing.py:375-376 | an absent list defaults to empty; a present one must be a list of ids |
| BatchReport.ViewOf | ImageRegistration/src/image_registration/pipeline/batch_preprocessing.py:364-376 | the corrected reading takes successful, failed and detailed_results from the keys processing actually writes, each defaulting to empty |
| BatchReport.Build | ImageRegistration/src/image_registration/pipeline/batch_preprocessing.py:359-426 | a missing output_directory raises KeyError; reports go to <output>/reports; the summary has the total, the two counts, the success rate (0 for a zero total) and the configuration echoed with its defaults; one row per detailed result; the error log as above; the output is the three report paths |
| BatchReport.ReportAsWritten | ImageRegistration/src/image_registration/pipeline/batch_preprocessing.py:359-426 | the report as written: without a 'BatchProcessingStep' key it counts zero successes and zero failures, rate 0, no rows and no error log |
| BatchReport.MakeReport | ImageRegistration/src/image_registration/pipeline/batch_preprocessing.py:359-426 | the corrected report: its counts are the lengths of successful and failed, one row per detailed result with matching id and status, and an error log iff failed is non-empty |
| BatchReport.ReportKeyDiscrepancy | ImageRegistration/src/image_registration/pipeline/batch_preprocessing.py:364 | with one successful patient, the report as written counts 0 successes and no rows while the corrected one counts 1 at rate 1.0 |
| Elastix.Candidates | ImageRegistration/src/image_registration/pipeline/pranav_registration_pipeline.py:50-68 | a platform outside darwin, linux and windows has no installation candidates, so SetupPaths must raise for it |
| Elastix.FirstExisting | ImageRegistration/src/image_registration/pipeline/pranav_registration_pipeline.py:67-71 | the installation chosen is the first candidate that exists |
| Elastix.Executables | ImageRegistration/src/image_registration/pipeline/pranav_registration_pipeline.py:76-84 | on windows the tools are base\elastix.exe and base\transformix.exe; elsewhere base/bin/elastix and base/bin/transformix |
| Elastix.SetupPaths | ImageRegistration/src/image_registration/pipeline/pranav_registration_pipeline.py:43-84 | an explicit non-empty path is used as given; otherwise the first existing platform candidate is, or RuntimeError "Could not find elastix installation for <platform>" is raised |
| Elastix.SetupEnvironment | ImageRegistration/src/image_registration/pipeline/pranav_registration_pipeline.py:86-100 | on darwin and linux only DYLD_LIBRARY_PATH or LD_LIBRARY_PATH changes; on other platforms the environment is unchanged |
| Elastix.LibraryDirectory | ImageRegistration/src/image_registration/pipeline/pranav_registration_pipeline.py:90-98 | for an installation base, the library variable becomes <base>/lib: followed by its previous value (or '') |
| Elastix.ElastixCommand | ImageRegistration/src/image_registration/pipeline/pranav_registration_pipeline.py:148-154 | the elastix command has nine arguments and starts with the elastix executable |
| Elastix.ElastixRoles | ImageRegistration/src/image_registration/pipeline/pranav_registration_pipeline.py:148-154 | in the elastix command T2W follows -f (fixed), ADC follows -m (moving), the parameter file follows -p and the patient directory follows -out |
| Elastix.TransformixCommand | ImageRegistration/src/image_registration/pipeline/pranav_registration_pipeline.py:172-177 | the transformix command has seven arguments and starts with the transformix executable |
| Elastix.Register | ImageRegistration/src/image_registration/pipeline/pranav_registration_pipeline.py:127-241 | an error creating the patient directory escapes; transformix runs iff elastix exited 0; subprocess_error iff either tool exits non-zero, with message "Registration failed for <id>: None" as written and the failing tool's stderr as corrected; an elastix that times out or cannot start is an unexpected_error carrying its message; after elastix exits 0 the result is what the transformix stage gives; success means the result file existed, with outputs <adc dir>/<id>_adc_reg.nii.gz and <out>/<id>/TransformParameters.0.txt |
| Elastix.Transformed | ImageRegistration/src/image_registration/pipeline/pranav_registration_pipeline.py:171-241 | after elastix succeeded: a failure is a subprocess_error iff transformix exited non-zero (message ending in None as written, in its stderr as corrected) and is otherwise an unexpected_error, carrying the start failure's message when transformix cannot start; a missing result.nii.gz is "Registration result file not found for <id>"; success holds iff transformix exits 0, result.nii.gz exists, its move succeeds and the transformix log, when present, is moved too, and reports <adc dir>/<id>_adc_reg.nii.gz, the transform parameter file and both logs |
| Elastix.Unexpected | ImageRegistration/src/image_registration/pipeline/pranav_registration_pipeline.py:233-241 | any other exception gives success false, unexpected_error, "Unexpected error for <id>: <message>" |
| Elastix.SubprocessFailure | ImageRegistration/src/image_registration/pipeline/pranav_registration_pipeline.py:223-231 | a non-zero exit gives success false, subprocess_error, "Registration failed for <id>: <e.stderr>", where e.stderr is the text passed (None as written) |
| Elastix.TransformixNotStarted | ImageRegistration/src/image_registration/pipeline/pranav_registration_pipeline.py:171-241 | a transformix that cannot be started (FileNotFoundError, PermissionError) after a successful elastix gives unexpected_error "Unexpected error for <id>: <message>", with both commands logged |
| Elastix.StderrLost | ImageRegistration/src/image_registration/pipeline/pranav_registration_pipeline.py:166-169 | as written, an elastix failure is reported as "Registration failed for <id>: None" whatever the tool wrote to stderr |
| Elastix.StderrReported | ImageRegistration/src/image_registration/pipeline/pranav_registration_pipeline.py:223-224 | as corrected, the failure message carries the tool's stderr |
| ElastixBatch.Candidates | ImageRegistration/src/image_registration/pipeline/pranav_registration_pipeline.py:266-271 | the candidates are exactly the listed directories not named with a '._' prefix and not '.DS_Store'; other dot-directories are kept |
| ElastixBatch.Classify | ImageRegistration/src/image_registration/pipeline/pranav_registration_pipeline.py:292-320 | a missing <name>_adc.nii.gz is reported as "ADC file not found: <path>" before a missing T2W file is reported as "T2W file not found: <path>", without registering; with both files present, registration escapes iff it fails to create the output directory, and otherwise its result is taken, as written or as corrected |
| ElastixBatch.ClassifyStderr | ImageRegistration/src/image_registration/pipeline/pranav_registration_pipeline.py:166-169 | a patient whose elastix exits non-zero reaches the batch as subprocess_error "Registration failed for <id>: None" as written, and with elastix's stderr as corrected; the error row carries the same message |
| ElastixBatch.Count | ImageRegistration/src/image_registration/pipeline/pranav_registration_pipeline.py:322-335 | every candidate lands in exactly one of successful and failed; every failure writes one error row with its id |
| ElastixBatch.CountPartition | ImageRegistration/src/image_registration/pipeline/pranav_registration_pipeline.py:322-335 | successful and failed are the ids of the succeeding and failing candidates in order |
| ElastixBatch.CountDetailed | ImageRegistration/src/image_registration/pipeline/pranav_registration_pipeline.py:322-323 | detailed_results holds exactly the candidates that reached registration, in order; missing-file candidates have no entry |
| ElastixBatch.Process | ImageRegistration/src/image_registration/pipeline/pranav_registration_pipeline.py:257-348 | missing base_directory raises KeyError; the step succeeds iff both directories are paths, the base listing is readable, the output directory is created and no registration lets an error escape, the first escaping error being raised; total_patients is the number of candidates; the summary rate is successes over candidates (0 for none) and the error log path is <output>/registration_errors.csv |
| ElastixBatch.ProcessHidesStderr | ImageRegistration/src/image_registration/pipeline/pranav_registration_pipeline.py:322-335 | as written, every subprocess_error in detailed_results reads "Registration failed for <id>: None", so no tool's stderr reaches the batch result |
| ElastixBatch.Accounts | ImageRegistration/src/image_registration/pipeline/pranav_registration_pipeline.py:337-344 | the summary counts equal the list lengths and add up to total_patients, and the rate lies in [0, 1] |
| Standardizers.NewNyul | ImageRegistration/src/image_registration/preprocessing/standardization/nyul_standardizer.py:17-30 | a new Nyul standardizer is untrained, with empty parameters and no standard landmarks |
| Standardizers.RealsRoundTrip | ImageRegistration/src/image_registration/preprocessing/standardization/nyul_standardizer.py:66-67 | a landmark list stored in the parameters as JSON numbers decodes back to the same list |
| Standardizers.DefaultNyul | ImageRegistration/src/image_registration/preprocessing/standardization/nyul_standardizer.py:17-19 | the defaults are 11 landmark percentages and the scale (0, 100) |
| Standardizers.NewZScore | ImageRegistration/src/image_registration/preprocessing/standardization/zscore_standardizer.py:15-25 | a new z-score standardizer is untrained, with empty parameters and no statistics |
| Standardizers.DefaultZScore | ImageRegistration/src/image_registration/preprocessing/standardization/zscore_standardizer.py:15 | robust statistics are on by default |
| Standardizers.PercentileError | ImageRegistration/src/image_registration/preprocessing/standardization/nyul_standardizer.py:44-48 | percentiles are computable iff the percentages are within [0, 100] and the image has a positive voxel |
| Standardizers.Train | ImageRegistration/src/image_registration/preprocessing/standardization/nyul_standardizer.py:32-68 | a successful training sets trained and changes only the parameters and the learnt fields; z-score training always succeeds; Nyul training succeeds iff there are images and percentages and every image yields its percentiles |
| Standardizers.NyulLandmarksIgnoreImages | ImageRegistration/src/image_registration/preprocessing/standardization/nyul_standardizer.py:52-64 | the trained Nyul landmarks are the evenly spaced points of the scale whatever the training images |
| Standardizers.TrainReplaces | ImageRegistration/src/image_registration/preprocessing/standardization/nyul_standardizer.py:66-68 | training again replaces the earlier training: the result is as if trained only once |
| Standardizers.NyulRetrain | ImageRegistration/src/image_registration/preprocessing/standardization/nyul_standardizer.py:32-68 | retraining a trained Nyul standardizer gives the same model as training the untrained one |
| Standardizers.ZScoreRetrain | ImageRegistration/src/image_registration/preprocessing/standardization/zscore_standardizer.py:27-55 | retraining a trained z-score standardizer gives the same model as training the untrained one |
| Standardizers.Transform | ImageRegistration/src/image_registration/preprocessing/standardization/nyul_standardizer.py:72-117 | the output keeps the image's size and voxel count and maps background 0 to 0; an untrained Nyul model raises RuntimeError "Standardizer must be trained before transform" |
| Standardizers.ZScoreTrainedUsesGlobals | ImageRegistration/src/image_registration/preprocessing/standardization/zscore_standardizer.py:73-81 | a trained z-score model with a global mean and deviation maps every voxel with those globals, not the image's own statistics, and fails iff some voxel has no finite value |
| Standardizers.NyulTransformVoxels | ImageRegistration/src/image_registration/preprocessing/standardization/nyul_standardizer.py:86-111 | a trained Nyul standardizer maps every voxel by the piecewise-linear map from the image's own landmarks to the standard ones |
| Standardizers.ZScoreUntrainedUsesOwnStatistics | ImageRegistration/src/image_registration/preprocessing/standardization/zscore_standardizer.py:62-81 | an untrained z-score model never fails and standardizes by the statistics of the image's own positive voxels |
| Standardizers.FitTransform | ImageRegistration/src/image_registration/preprocessing/standardization/intensity_standardizer.py:32-35 | fit_transform trains once, then returns the transform of each input with the trained model, same order and length |
| Standardizers.TransformAll | ImageRegistration/src/image_registration/preprocessing/standardization/intensity_standardizer.py:35 | the list comprehension succeeds iff every transform does, and then holds each transform in order |
| Standardizers.SaveParameters | ImageRegistration/src/image_registration/preprocessing/standardization/intensity_standardizer.py:37-41 | the file at the path now holds the parameters; every other file is unchanged and no file is added or removed |
| Standardizers.LoadParameters | ImageRegistration/src/image_registration/preprocessing/standardization/intensity_standardizer.py:43-48 | a missing file raises FileNotFoundError; otherwise parameters are replaced wholesale and trained set, touching no other field |
| Standardizers.SaveLoadRoundTrip | ImageRegistration/src/image_registration/preprocessing/standardization/intensity_standardizer.py:37-48 | loading what was saved gives back the same parameters map |
| Standardizers.LoadedNyulCannotTransform | ImageRegistration/src/image_registration/preprocessing/standardization/intensity_standardizer.py:43-48 | a default Nyul model loaded from saved parameters is trained, yet its transform raises |
| Standardizers.LoadedZScoreCannotTransform | ImageRegistration/src/image_registration/preprocessing/standardization/intensity_standardizer.py:43-48 | a fresh z-score model loaded from saved parameters cannot transform |
| Standardizers.LoadParametersDiscrepancy | ImageRegistration/src/image_registration/preprocessing/standardization/intensity_standardizer.py:43-48 | a Nyul model trained on a one-voxel image transforms it, while a default model loaded from its saved parameters fails on the same image |
| Standardizers.LoadParametersRestoring | ImageRegistration/src/image_registration/preprocessing/standardization/intensity_standardizer.py:43-48 | the corrected load raises for a missing file and otherwise gives a trained standardizer holding the stored parameters, whose learnt fields RestoringRoundTrip shows to be restored |
| Standardizers.RestoringRoundTrip | ImageRegistration/src/image_registration/preprocessing/standardization/intensity_standardizer.py:37-48 | a blank standardizer loaded from a trained model's saved parameters transforms every image exactly as the trained model does |
| NyulMap.DefaultPercentagesShape | ImageRegistration/src/image_registration/preprocessing/standardization/nyul_standardizer.py:18 | the default percentages are the 11 values 0, 10, ..., 100 |
| NyulMap.ImageLandmarks | ImageRegistration/src/image_registration/preprocessing/standardization/nyul_standardizer.py:83-87 | one positive landmark per percentage, increasing when the percentages increase |
| NyulMap.TrainedLandmarks | ImageRegistration/src/image_registration/preprocessing/standardization/nyul_standardizer.py:52-64 | standard_landmarks[i] = s0 + (s1 - s0) * i/(n-1): the first is s0, the last s1, strictly increasing when s0 < s1 |
| NyulMap.InterpolateInRange | ImageRegistration/src/image_registration/preprocessing/standardization/nyul_standardizer.py:99-105 | a voxel in [l_i, l_i+1) maps into [std_i, std_i+1], and strictly below std_i+1 when the targets increase |
| NyulMap.PiecewiseUntouched | ImageRegistration/src/image_registration/preprocessing/standardization/nyul_standardizer.py:90-105 | a voxel in no interval considered keeps the initial 0 |
| NyulMap.PiecewiseLastWins | ImageRegistration/src/image_registration/preprocessing/standardization/nyul_standardizer.py:93-105 | a voxel takes the value of the last interval containing it |
| NyulMap.MapVoxelBackground | ImageRegistration/src/image_registration/preprocessing/standardization/nyul_standardizer.py:110-111 | a 0 voxel maps to 0, overriding everything else |
| NyulMap.MapVoxelTop | ImageRegistration/src/image_registration/preprocessing/standardization/nyul_standardizer.py:107-108 | a non-zero voxel at or above the top image landmark maps to the top standard landmark |
| NyulMap.MapVoxelInInterval | ImageRegistration/src/image_registration/preprocessing/standardization/nyul_standardizer.py:93-111 | with sorted landmarks a non-zero voxel in [l_i, l_i+1) maps by that interval's line, into [std_i, std_i+1) when the targets increase |
| NyulMap.MapVoxelUncovered | ImageRegistration/src/image_registration/preprocessing/standardization/nyul_standardizer.py:90-111 | a non-zero voxel below the top landmark and in no non-degenerate interval stays 0 |
| NyulMap.BelowLowestUncovered | ImageRegistration/src/image_registration/preprocessing/standardization/nyul_standardizer.py:97 | a voxel below the lowest landmark, such as a negative one, is in no interval |
| ZScoreMap.Pool | ImageRegistration/src/image_registration/preprocessing/standardization/zscore_standardizer.py:33-41 | the pool holds exactly the strictly positive voxels of the training images |
| ZScoreMap.PoolSingle | ImageRegistration/src/image_registration/preprocessing/standardization/zscore_standardizer.py:64-65 | pooling one image gives its own positive voxels |
| ZScoreMap.Statistics | ImageRegistration/src/image_registration/preprocessing/standardization/zscore_standardizer.py:43-49 | no values give NaN statistics; otherwise the center lies within the sample's range and the scale is non-negative |
| ZScoreMap.ZVoxel | ImageRegistration/src/image_registration/preprocessing/standardization/zscore_standardizer.py:80-81 | a voxel at or below 0 maps to 0; a positive voxel maps to a finite value when the statistics are finite |
| ZScoreMap.ZVoxelInverse | ImageRegistration/src/image_registration/preprocessing/standardization/zscore_standardizer.py:81 | a positive voxel is recovered as center + z * (scale + 1e-8) |
| ZScoreMap.ZVoxelMonotone | ImageRegistration/src/image_registration/preprocessing/standardization/zscore_standardizer.py:81 | the map is strictly order-preserving on positive voxels because the scale is non-negative |
| Stats.Percentile | ImageRegistration/src/image_registration/preprocessing/standardization/nyul_standardizer.py:48 | a linear-interpolation percentile lies between its two neighbouring order statistics and within the sample's range |
| Stats.PercentileMonotone | ImageRegistration/src/image_registration/preprocessing/standardization/nyul_standardizer.py:87 | a higher percentage never gives a lower percentile |
| Stats.PercentileEnds | ImageRegistration/src/image_registration/preprocessing/standardization/nyul_standardizer.py:48 | the 0th percentile is the minimum and the 100th the maximum |
| Stats.MedianIsPercentile50 | ImageRegistration/src/image_registration/preprocessing/standardization/zscore_standardizer.py:43 | the median is the 50th percentile |
| Stats.MedianBounds | ImageRegistration/src/image_registration/preprocessing/standardization/zscore_standardizer.py:43-45 | the median lies between the smallest and the largest value |
| Stats.MeanBounds | ImageRegistration/src/image_registration/preprocessing/standardization/zscore_standardizer.py:47 | the mean lies between some value of the sample and some other value of it |
| Stats.Positives | ImageRegistration/src/image_registration/preprocessing/standardization/nyul_standardizer.py:45 | the selection holds exactly the strictly positive voxels |
| Stats.Variance | ImageRegistration/src/image_registration/preprocessing/standardization/zscore_standardizer.py:49 | the population variance is non-negative |
| Roi.PadWindow | ImageRegistration/src/image_registration/preprocessing/roi_segmentation/roi_extractor.py:37-43 | the window exists iff the image has at least half as many dimensions as the bounding-box list has entries, and IndexError otherwise; it has one start and one size per box dimension, every start at least 0 and every start plus size within the image; on each axis the start is max(0, s - p) and the size min(image - start, z + 2p) |
| Roi.BorderWindowOvershoots | ImageRegistration/src/image_registration/preprocessing/roi_segmentation/roi_extractor.py:40-43 | when a box starts less than the padding from the low border, the start is clamped to 0 but the size stays z + 2p, so the window ends p - s past the padded box |
| Roi.InteriorWindowIsPaddedBox | ImageRegistration/src/image_registration/preprocessing/roi_segmentation/roi_extractor.py:40-43 | away from the image border the crop is exactly the box grown by the padding on every side |
| Roi.WindowContainsBox | ImageRegistration/tests/test_coregistration.py:154-167 | with non-negative padding and the box inside the image, the crop contains the box |
| Roi.ExtractBoundingBox | ImageRegistration/src/image_registration/preprocessing/roi_segmentation/roi_extractor.py:18-51 | a bounding-box error is passed through; on success image and mask are both cropped with the same start and size, the padded window of the mask's bounding box; when the bounding box, the window and both crops succeed, so does the extraction |
| Roi.ExtractProstateRegion | ImageRegistration/src/image_registration/preprocessing/roi_segmentation/roi_extractor.py:53-91 | the result has exactly roi_image, roi_mask, original_image and segmentation; a given segmentation passes through unchanged, and otherwise the automatic one is used |
| ParamFile.ParseLine | ImageRegistration/src/image_registration/preprocessing/coregistration/base_registration.py:58-67 | only stripped, non-empty, non-comment lines holding both parentheses give an entry, and its name has no space or parenthesis |
| ParamFile.RenderParses | ImageRegistration/src/image_registration/preprocessing/coregistration/base_registration.py:62-66 | a line (Name "value") parses back to that name and value |
| ParamFile.ParseLinesLastWins | ImageRegistration/src/image_registration/preprocessing/coregistration/base_registration.py:57-67 | a name is defined iff some line parses to it, and its value is that of the last such line |
| ParamFile.IgnoredLine | ImageRegistration/src/image_registration/preprocessing/coregistration/base_registration.py:58-64 | a line that does not parse leaves the parameters unchanged |
| ParamFile.LastLineWins | ImageRegistration/src/image_registration/preprocessing/coregistration/base_registration.py:67 | a parsed line overrides the earlier value of its name |
| ParamFile.ParseInt | ImageRegistration/src/image_registration/preprocessing/coregistration/base_registration.py:77 | a failed int() is a ValueError, and a text that parses is non-empty after stripping |
| ParamFile.ParseIntToString | ImageRegistration/src/image_registration/preprocessing/coregistration/base_registration.py:77 | int() reads back every integer's decimal text |
| ParamFile.ApplyOverrides | ImageRegistration/src/image_registration/preprocessing/coregistration/base_registration.py:69-77 | Metric, Optimizer, Interpolator and NumberOfResolutions override the defaults only when present; NumberOfResolutions goes through int() and a bad value raises |
| ParamFile.SliceTo | ImageRegistration/src/image_registration/preprocessing/coregistration/base_registration.py:140 | a [:n] slice is a prefix: of length n within range, the whole list beyond it, and Python's length for negative n |
| ParamFile.MakeSchedule | ImageRegistration/src/image_registration/preprocessing/coregistration/base_registration.py:138-144 | shrink factors and smoothing sigmas are equally long prefixes of [4,2,1] and [2,1,0], of length n for 0 <= n <= 3 |
| ParamFile.ScheduleCoarseToFine | ImageRegistration/src/image_registration/preprocessing/coregistration/base_registration.py:139-144 | each level halves the shrink factor and lowers the sigma by one; three or more levels give the full schedule, and 0 or at most -3 give none |
| ParamFile.CheckFloat | ImageRegistration/src/image_registration/preprocessing/coregistration/base_registration.py:86 | float() succeeds iff the stripped, optionally signed text is a decimal float (digits with single underscores, optional point and exponent) or inf, infinity or nan in any case; otherwise ValueError "could not convert string to float: '<text>'" |
| ParamFile.IntTextIsFloatText | ImageRegistration/src/image_registration/preprocessing/coregistration/base_registration.py:86-87 | every text int() accepts, float() accepts |
| ParamFile.Tune | ImageRegistration/src/image_registration/preprocessing/coregistration/base_registration.py:82-104 | the additional parameters raise ValueError iff a conversion fails: SP_a (default 500.0) and MaximumNumberOfIterations when the latter is present, NumberOfHistogramBins only under the Mattes metric, NumberOfSpatialSamples when present; the iteration count and bins are the int() values and sampling is random iff NumberOfSpatialSamples is given |
| ParamFile.LearningRateNeedsIterations | ImageRegistration/src/image_registration/preprocessing/coregistration/base_registration.py:83-87 | a malformed SP_a raises its float() ValueError when MaximumNumberOfIterations is present, and is ignored when it is absent |
| ParamFile.BinsIgnoredForOtherMetrics | ImageRegistration/src/image_registration/preprocessing/coregistration/base_registration.py:93-97 | under a metric other than Mattes mutual information, adding any NumberOfHistogramBins text changes nothing |
| ParamFile.Configure | ImageRegistration/src/image_registration/preprocessing/coregistration/base_registration.py:42-104 | without a file the defaults are used; a missing file raises FileNotFoundError before anything is read; with a file, configuration succeeds iff the overrides and every additional conversion (against the overridden metric) succeed, and otherwise raises ValueError; the resulting settings are the overridden ones; the schedule always follows the final resolution count |
| Factory.CreateRegistration | ImageRegistration/src/image_registration/preprocessing/coregistration/registration_factory.py:22-40 | the lower-cased name selects the class and the keyword arguments go to it unchanged; any other name raises ValueError "Unknown registration type: <name>" and constructs nothing |
| Factory.AcceptedNames | ImageRegistration/src/image_registration/preprocessing/coregistration/registration_factory.py:36-37 | with constructors that succeed, creation succeeds iff the lower-cased name is a registry key |
| Factory.CaseInsensitive | ImageRegistration/src/image_registration/preprocessing/coregistration/registration_factory.py:36-39 | names that differ only in letter case build the same thing |
| Factory.AnyCaseAccepted | ImageRegistration/src/image_registration/preprocessing/coregistration/registration_factory.py:15-20 | every registry key is accepted in lower and in upper case, selecting its class |
| Factory.NonrigidIsBSpline | ImageRegistration/src/image_registration/preprocessing/coregistration/registration_factory.py:18-19 | nonrigid is an alias of bspline, in any case |
| PyStr.LowerIdempotent | ImageRegistration/src/image_registration/preprocessing/coregistration/registration_factory.py:36-38 | lower-casing twice is lower-casing once, so an already lower-case registry key is its own lookup key |

## Left out

- Timing is not modelled. That covers step `execution_time`, pipeline start and end times, `total_execution_time` and the report's timestamps. `execution_time` in a CSV row is reported as absent.
- Logging and `tqdm` progress bars are not modelled.
- The engine forwards its `**kwargs` to each step's `execute`. No concrete step reads them, so the model does not carry them.
- Thread-pool concurrency is modelled only as an arbitrary completion order (a permutation chosen by `Io.order`). The bound on in-flight workers is not modelled.
- SimpleITK and numpy work are oracle functions in the `Library` and `Toolkit` records:
  - image reads, region-of-interest cropping and label bounding boxes;
  - the segmentation and the registration optimizer.
- Image, transform, JSON, CSV and log writes are assumed to succeed.
- Report files, the error CSV and the error log are values returned by the model, not files.
- Floating point is not modelled: voxels are `real`.
  - The integer-dtype truncation of `np.zeros_like` and the rounding effect of `1e-8` are not modelled.
  - `sqrt` for the standard deviation is an oracle `Root`.
  - A NaN median or mean (from an empty pool) is kept as `NonFinite`. A transform that would produce NaN voxels returns an error instead of an image holding NaN.
- `numpy.percentile` is modelled as linear interpolation over the sorted sample.
- Paths are joined with `/` as plain strings. `pathlib` normalisation (repeated or trailing separators, `.`) is not modelled.
- Glob patterns are modelled as suffix tests over a directory's file names, in listing order. As with `Path.glob` on POSIX, `*` also matches a name that starts with a dot, and matching is case-sensitive. The case-insensitive matching of Windows is not modelled.
- Lower-casing is ASCII only.
- Generic TypeError and AttributeError messages do not include the Python type names.
- Elastix.Register: the timeout message is "Command timed out after N seconds". Python's message also quotes the command.
- `_find_rigid_params` and `_verify_elastix_installation` are left out: they are filesystem searches and a subprocess probe. The parameter-file path is part of `Installation`.
- `ProstateADCRegistrationPipeline` and its `_generate_summary_report` are not part of this model.
- In `base_registration.py`, the floating-point values of the learning rate (`SP_a`) and of the sampling percentage (`NumberOfSpatialSamples / 10000`) are not kept. Only whether `float()` accepts their text is modelled. The metric, optimizer and interpolator selection in `_setup_registration` and `register` only configure SimpleITK and is left out.
- `total_patients` holding a boolean is not modelled. Python would compare it as an integer; the model raises TypeError for any non-integer.

## Findings

| source | as written | input that shows it | evidently intended | confidence | as-written member | corrected member |
|---|---|---|---|---|---|---|
| ImageRegistration/src/image_registration/pipeline/batch_preprocessing.py:364 | the report reads `data.get('BatchProcessingStep', {})`, but the engine merges step outputs by their own keys (`successful`, `failed`, `detailed_results`), so that key never exists | one patient processed successfully: the summary says 0 successful, 0 failed, and the CSV has no rows | read the processing step's keys from the context | not executed | BatchReport.ReportAsWritten, BatchReport.ReportKeyDiscrepancy, Batch.AsWrittenReportsNothing | BatchReport.MakeReport, Batch.ReportMatchesProcessing |
| ImageRegistration/src/image_registration/preprocessing/standardization/intensity_standardizer.py:43-48 | `load_parameters` replaces `parameters` and sets `trained`, but never restores `standard_landmarks` or `global_mean`/`global_std` | a default Nyul model trained on the one-voxel image [5.0] transforms it; a default model loaded from its saved parameters raises TypeError on the same image | restore the learnt fields from the loaded parameters, so that save then load reproduces the model | not executed | Standardizers.LoadParameters, Standardizers.LoadParametersDiscrepancy | Standardizers.LoadParametersRestoring, Standardizers.RestoringRoundTrip |
| ImageRegistration/src/image_registration/pipeline/pranav_registration_pipeline.py:166-169 | `CalledProcessError(returncode, cmd, stderr)` passes the error text as the positional `output`, so `e.stderr` is None in the message of line 224 | elastix exits 1 with stderr "Too many samples map outside moving image buffer": the error is "Registration failed for <id>: None" | pass `stderr=` so the tool's message is reported | not executed | Elastix.StderrLost, ElastixBatch.ClassifyStderr, ElastixBatch.ProcessHidesStderr | Elastix.StderrReported |

=== FILE: batch.dfy ===
/** The batch preprocessing pipeline: discovery, batch standardization,
    per-patient processing and reporting, run by the generic engine over
    one context.

    A step's state keeps what the step has written: the parameter files of
    the standardization step and the last report of the reporting step. */
module Batch {
  import opened Wrappers
  import opened Imaging
  import opened Standardizers
  import opened Context
  import ZScoreMap
  import Engine
  import Discovery
  import Preprocessing
  import BatchProcessing
  import BatchReport

  datatype Step =
    | PatientDiscoveryStep
    | BatchStandardizationStep(methodName: string, saved: ParamStore)
    | BatchProcessingStep(registrationType: string, enableSegmentation: bool, parallel: bool, maxWorkers: Option<int>)
    | BatchReportingStep(report: Option<BatchReport.Report>)

  /** The constructor's arguments. */
  datatype Config = Config(
    registrationType: string, standardizationMethod: string, enableSegmentation: bool,
    parallel: bool, maxWorkers: Option<int>)

  const DefaultConfig: Config := Config("rigid", "nyul", true, true, None)

  /** `max_workers or os.cpu_count()`: a missing or zero count falls back
      to the number of processors. */
  function MaxWorkers(maxWorkers: Option<int>, cpuCount: Option<int>): (r: Option<int>)
    ensures maxWorkers.Some? && maxWorkers.value != 0 ==> r == maxWorkers
    ensures maxWorkers.None? || maxWorkers.value == 0 ==> r == cpuCount
    ensures r.Some? && r.value == 0 ==> r == cpuCount
  {
    if maxWorkers.Some? && maxWorkers.value != 0 then maxWorkers else cpuCount
  }

  /** `BatchPreprocessingPipeline(...)`. */
  function NewBatchPipeline(config: Config, cpuCount: Option<int>): (p: Engine.Pipeline<Step, Value>)
    ensures p.name == "BatchPreprocessingPipeline"
    ensures p.status == Engine.Initialized && p.errors == [] && !p.continueOnError && p.results == None
    ensures Engine.Names(p.slots) ==
      ["PatientDiscoveryStep", "BatchStandardizationStep", "BatchProcessingStep", "BatchReportingStep"]
    ensures forall i :: 0 <= i < |p.slots| ==> p.slots[i].status == Engine.Pending
    ensures p.slots[0].impl == PatientDiscoveryStep
    ensures p.slots[1].impl == BatchStandardizationStep(config.standardizationMethod, map[])
    ensures p.slots[2].impl == BatchProcessingStep(config.registrationType, config.enableSegmentation,
                                                   config.parallel, MaxWorkers(config.maxWorkers, cpuCount))
    ensures p.slots[3].impl == BatchReportingStep(None)
  {
    var p := Engine.NewPipeline("BatchPreprocessingPipeline");
    var p := Engine.AddStep(p, "PatientDiscoveryStep", PatientDiscoveryStep);
    var p := Engine.AddStep(p, "BatchStandardizationStep", BatchStandardizationStep(config.standardizationMethod, map[]));
    var p := Engine.AddStep(p, "BatchProcessingStep",
               BatchProcessingStep(config.registrationType, config.enableSegmentation,
                                   config.parallel, MaxWorkers(config.maxWorkers, cpuCount)));
    Engine.AddStep(p, "BatchReportingStep", BatchReportingStep(None))
  }

  /** The number of patients the batch model is trained on. */
  const TrainingLimit: nat := 20

  /** `patients[:20]`. */
  function TrainingSet(ps: seq<PatientInfo>): (r: seq<PatientInfo>)
    ensures |r| <= TrainingLimit && r <= ps
    ensures |ps| <= TrainingLimit ==> r == ps
  {
    if |ps| <= TrainingLimit then ps else ps[..TrainingLimit]
  }

  /** The T2W images of the patients, in order, leaving out those whose
      image fails to load. */
  function Loaded(read: string -> Result<Image>, ps: seq<PatientInfo>): (images: seq<Image>)
    ensures |images| <= |ps|
    ensures (forall k :: 0 <= k < |ps| ==> read(ps[k].t2wPath).Ok?) ==>
      |images| == |ps| && forall k :: 0 <= k < |ps| ==> images[k] == read(ps[k].t2wPath).value
    ensures (forall k :: 0 <= k < |ps| ==> read(ps[k].t2wPath).Err?) ==> images == []
    ensures forall k :: 0 <= k < |images| ==> Ok(images[k]) in Reads(read, ps)
  {
    OkValues(Reads(read, ps))
  }

  /** What loading each patient's T2W image yields. */
  function Reads(read: string -> Result<Image>, ps: seq<PatientInfo>): (r: seq<Result<Image>>)
    ensures |r| == |ps| && forall k :: 0 <= k < |ps| ==> r[k] == read(ps[k].t2wPath)
  {
    seq(|ps|, k requires 0 <= k < |ps| => read(ps[k].t2wPath))
  }

  /** `BatchStandardizationStep.execute`: for `nyul`, a fresh Nyul model is
      trained on the T2W images of the first twenty patients that load, its
      parameters are saved to `<output>/nyul_parameters.json`, and the model
      is handed on; any other method trains nothing. Yields the parameter
      files after the step and the step's result. */
  function StandardizeBatch(read: string -> Result<Image>, sqrt: ZScoreMap.Root, methodName: string,
                            saved: ParamStore, data: Data): (r: Result<(ParamStore, Data)>)
    ensures "patients" !in data ==> r == Err(KeyError("patients"))
    ensures r.Ok? ==> r.value.1.Keys <= {"t2w_standardizer", "standardization_trained", "training_samples"}
    ensures "patients" in data && methodName != "nyul" ==>
      r == Ok((saved, map["standardization_trained" := VBool(false)]))
    ensures (methodName == "nyul" && "patients" in data && data["patients"].VPatients? &&
             Loaded(read, TrainingSet(data["patients"].patients)) == []) ==> r.Err?
    ensures methodName == "nyul" && r.Ok? ==> (
      data["patients"].VPatients? && "output_directory" in data && data["output_directory"].VText? &&
      var images := Loaded(read, TrainingSet(data["patients"].patients));
      var model := Train(DefaultNyul(), images, sqrt);
      0 < |images| <= TrainingLimit && model.Ok? && model.value.trained &&
      r.value.0 == SaveParameters(model.value, saved, data["output_directory"].s + "/nyul_parameters.json") &&
      r.value.1.Keys == {"t2w_standardizer", "standardization_trained", "training_samples"} &&
      r.value.1["t2w_standardizer"] == VStandardizer(model.value) &&
      r.value.1["standardization_trained"] == VBool(true) &&
      r.value.1["training_samples"] == VInt(|images|))
    ensures (methodName == "nyul" && "patients" in data && data["patients"].VPatients? &&
             NyulSucceeds(read, sqrt, data, data["patients"].patients)) ==> r.Ok?
  {
    var patients :- Lookup(data, "patients");
    if methodName != "nyul" then Ok((saved, map["standardization_trained" := VBool(false)]))
    else if !patients.VPatients? then Err(TypeError("object is not subscriptable"))
    else StandardizeNyul(read, sqrt, saved, data, patients.patients)
  }

  /** The `nyul` branch: train on the first twenty loadable T2W images,
      save the parameters, hand the model on. */
  function StandardizeNyul(read: string -> Result<Image>, sqrt: ZScoreMap.Root, saved: ParamStore, data: Data,
                           ps: seq<PatientInfo>): (r: Result<(ParamStore, Data)>)
    ensures Loaded(read, TrainingSet(ps)) == [] ==> r.Err?
    ensures r.Ok? ==> (
      "output_directory" in data && data["output_directory"].VText? &&
      var images := Loaded(read, TrainingSet(ps));
      var model := Train(DefaultNyul(), images, sqrt);
      0 < |images| <= TrainingLimit && model.Ok? && model.value.trained &&
      r.value.0 == SaveParameters(model.value, saved, data["output_directory"].s + "/nyul_parameters.json") &&
      r.value.1 == TrainedOutput(model.value, |images|))
    ensures NyulSucceeds(read, sqrt, data, ps) ==> r.Ok?
    ensures Train(DefaultNyul(), Loaded(read, TrainingSet(ps)), sqrt).Err? ==>
      r == Err(Train(DefaultNyul(), Loaded(read, TrainingSet(ps)), sqrt).error)
  {
    var images := Loaded(read, TrainingSet(ps));
    var model :- Train(DefaultNyul(), images, sqrt);
    var outv :- Lookup(data, "output_directory");
    var out :- PathText(outv);
    Ok((SaveParameters(model, saved, out + "/nyul_parameters.json"), TrainedOutput(model, |images|)))
  }

  /** The `nyul` branch succeeds when the model trains on the loaded
      images and the context names an output directory. */
  predicate NyulSucceeds(read: string -> Result<Image>, sqrt: ZScoreMap.Root, data: Data, ps: seq<PatientInfo>) {
    Train(DefaultNyul(), Loaded(read, TrainingSet(ps)), sqrt).Ok? &&
    "output_directory" in data && data["output_directory"].VText?
  }

  /** The dictionary the `nyul` branch returns. */
  function TrainedOutput(model: ValidStandardizer, n: nat): (m: Data)
    ensures m.Keys == {"t2w_standardizer", "standardization_trained", "training_samples"}
    ensures m["t2w_standardizer"] == VStandardizer(model) && m["standardization_trained"] == VBool(true)
    ensures m["training_samples"] == VInt(n)
  {
    map["t2w_standardizer" := VStandardizer(model), "standardization_trained" := VBool(true),
        "training_samples" := VInt(n)]
  }

  /** The error `ThreadPoolExecutor` raises for a worker count below one. */
  const NoWorkers: Error := ValueError("max_workers must be greater than 0")

  /** `BatchProcessingStep.execute`: the per-patient loop, preceded in a
      parallel run by the creation of the worker pool. */
  function Processing(lib: Preprocessing.Library, io: BatchProcessing.Io, registrationType: string,
                      enableSegmentation: bool, parallel: bool, maxWorkers: Option<int>, data: Data)
    : (r: Result<Data>)
    ensures var batch := BatchProcessing.ProcessBatch(lib, BatchProcessing.Settings(registrationType, enableSegmentation),
                                                     parallel, io, data);
      batch.Err? ==> r == batch
    ensures r.Ok? ==> r == BatchProcessing.ProcessBatch(lib, BatchProcessing.Settings(registrationType, enableSegmentation),
                                                         parallel, io, data)
    ensures r.Ok? ==> r.value.Keys == {"successful", "failed", "detailed_results"}
    ensures r.Err? && r.error == NoWorkers && BatchProcessing.ProcessBatch(lib,
              BatchProcessing.Settings(registrationType, enableSegmentation), parallel, io, data).Ok? ==>
      parallel && |data["patients"].patients| > 1 && maxWorkers.Some? && maxWorkers.value <= 0
    ensures !parallel || (maxWorkers.Some? ==> maxWorkers.value > 0) ==>
      r == BatchProcessing.ProcessBatch(lib, BatchProcessing.Settings(registrationType, enableSegmentation),
                                        parallel, io, data)
  {
    var out :- BatchProcessing.ProcessBatch(lib, BatchProcessing.Settings(registrationType, enableSegmentation),
                                             parallel, io, data);
    if parallel && |data["patients"].patients| > 1 && maxWorkers.Some? && maxWorkers.value <= 0 then Err(NoWorkers)
    else Ok(out)
  }

  /** The keys each step's result may bind in the context. */
  function OutputKeys(s: Step): set<string> {
    match s
    case PatientDiscoveryStep => {"patients", "total_patients"}
    case BatchStandardizationStep(_, _) => {"t2w_standardizer", "standardization_trained", "training_samples"}
    case BatchProcessingStep(_, _, _, _) => {"successful", "failed", "detailed_results"}
    case BatchReportingStep(_) => {"summary_path", "csv_path", "reports_directory"}
  }

  /** The reporting step's work; `asWritten` selects how the report finds
      the processing results. */
  function Written(io: BatchProcessing.Io, asWritten: bool, data: Data): (r: Result<(BatchReport.Report, Data)>)
    ensures r.Ok? ==> r.value.1.Keys == {"summary_path", "csv_path", "reports_directory"}
    ensures asWritten ==> r == BatchReport.ReportAsWritten(io.mkdir, data)
    ensures !asWritten ==> r == BatchReport.MakeReport(io.mkdir, data)
  {
    if asWritten then BatchReport.ReportAsWritten(io.mkdir, data) else BatchReport.MakeReport(io.mkdir, data)
  }

  /** Running one step. Every step's result binds only its own keys, and
      only the standardization and reporting steps change themselves. */
  function Run(lib: Preprocessing.Library, io: BatchProcessing.Io, asWritten: bool, s: Step, data: Data)
    : (r: (Step, Engine.StepOutcome<Value>))
    ensures r.1.Returned? ==> r.1.output.Some? && r.1.output.value.Keys <= OutputKeys(s)
    ensures r.0.BatchStandardizationStep? <==> s.BatchStandardizationStep?
    ensures r.0.BatchReportingStep? <==> s.BatchReportingStep?
    ensures (s.PatientDiscoveryStep? || s.BatchProcessingStep? || r.1.Raised?) ==> r.0 == s
    ensures s.BatchReportingStep? && r.1.Returned? ==>
      r.0.report.Some? && Written(io, asWritten, data) == Ok((r.0.report.value, r.1.output.value))
    ensures s.PatientDiscoveryStep? ==> r.1 == Engine.FromResult(Discovery.DiscoverPatients(io.listDir, data))
    ensures s.BatchStandardizationStep? ==>
      Standardized(StandardizeBatch(io.read, lib.sqrt, s.methodName, s.saved, data), s, r)
    ensures s.BatchProcessingStep? ==>
      r.1 == Engine.FromResult(Processing(lib, io, s.registrationType, s.enableSegmentation, s.parallel, s.maxWorkers, data))
    ensures s.BatchReportingStep? ==> Reported(Written(io, asWritten, data), s, r)
  {
    match s
    case PatientDiscoveryStep => (s, RunDiscovery(io, data))
    case BatchStandardizationStep(methodName, saved) => RunStandardization(lib, io, methodName, saved, data)
    case BatchProcessingStep(t, seg, parallel, workers) => (s, RunProcessing(lib, io, t, seg, parallel, workers, data))
    case BatchReportingStep(_) => RunReporting(io, asWritten, s, data)
  }

  /** The standardization step keeps the parameter files it wrote and
      returns its result, or raises its error and keeps its old files. */
  predicate Standardized(trained: Result<(ParamStore, Data)>, s: Step, r: (Step, Engine.StepOutcome<Value>))
    requires s.BatchStandardizationStep?
  {
    && (trained.Ok? ==>
          r == (BatchStandardizationStep(s.methodName, trained.value.0), Engine.Returned(Some(trained.value.1))))
    && (trained.Err? ==> r == (s, Engine.Raised(trained.error)))
  }

  /** The reporting step keeps the report it wrote and returns the paths,
      or raises its error and keeps its old report. */
  predicate Reported(made: Result<(BatchReport.Report, Data)>, s: Step, r: (Step, Engine.StepOutcome<Value>)) {
    && (made.Ok? ==> r == (BatchReportingStep(Some(made.value.0)), Engine.Returned(Some(made.value.1))))
    && (made.Err? ==> r == (s, Engine.Raised(made.error)))
  }

  function RunDiscovery(io: BatchProcessing.Io, data: Data): (o: Engine.StepOutcome<Value>)
    ensures o.Returned? ==> o.output.Some? && o.output.value.Keys <= OutputKeys(PatientDiscoveryStep)
  {
    Engine.FromResult(Discovery.DiscoverPatients(io.listDir, data))
  }

  function RunStandardization(lib: Preprocessing.Library, io: BatchProcessing.Io, methodName: string,
                              saved: ParamStore, data: Data): (r: (Step, Engine.StepOutcome<Value>))
    ensures r.0.BatchStandardizationStep?
    ensures r.1.Raised? ==> r.0 == BatchStandardizationStep(methodName, saved)
    ensures r.1.Returned? ==> r.1.output.Some? && r.1.output.value.Keys <= OutputKeys(r.0)
    ensures Standardized(StandardizeBatch(io.read, lib.sqrt, methodName, saved, data),
                         BatchStandardizationStep(methodName, saved), r)
  {
    var trained := StandardizeBatch(io.read, lib.sqrt, methodName, saved, data);
    if trained.Ok? then (BatchStandardizationStep(methodName, trained.value.0), Engine.Returned(Some(trained.value.1)))
    else (BatchStandardizationStep(methodName, saved), Engine.Raised(trained.error))
  }

  function RunProcessing(lib: Preprocessing.Library, io: BatchProcessing.Io, registrationType: string,
                         enableSegmentation: bool, parallel: bool, maxWorkers: Option<int>, data: Data)
    : (o: Engine.StepOutcome<Value>)
    ensures o.Returned? ==>
      o.output.Some? &&
      o.output.value.Keys <= OutputKeys(BatchProcessingStep(registrationType, enableSegmentation, parallel, maxWorkers))
  {
    var out := Processing(lib, io, registrationType, enableSegmentation, parallel, maxWorkers, data);
    var o := Engine.FromResult(out);
    assert o.Returned? ==> out.Ok? && o.output == Some(out.value);
    assert OutputKeys(BatchProcessingStep(registrationType, enableSegmentation, parallel, maxWorkers)) ==
      {"successful", "failed", "detailed_results"};
    o
  }

  function RunReporting(io: BatchProcessing.Io, asWritten: bool, s: Step, data: Data): (r: (Step, Engine.StepOutcome<Value>))
    requires s.BatchReportingStep?
    ensures r.0.BatchReportingStep?
    ensures r.1.Raised? ==> r.0 == s
    ensures r.1.Returned? ==>
      r.1.output.Some? && r.1.output.value.Keys <= OutputKeys(s) &&
      r.0.report.Some? && Written(io, asWritten, data) == Ok((r.0.report.value, r.1.output.value))
    ensures Reported(Written(io, asWritten, data), s, r)
  {
    var made := Written(io, asWritten, data);
    if made.Ok? then (BatchReportingStep(Some(made.value.0)), Engine.Returned(Some(made.value.1)))
    else (s, Engine.Raised(made.error))
  }

  /** The steps' behaviour, with the report reading the processing results
      as intended. Inputs are always accepted and cleanup does nothing. */
  function Behaviour(lib: Preprocessing.Library, io: BatchProcessing.Io): (b: Engine.Behaviour<Step, Value>)
    ensures forall s, data :: b.validate(s, data) && b.execute(s, data) == Run(lib, io, false, s, data)
    ensures forall s :: b.cleanup(s).None?
  {
    Engine.Behaviour((s: Step, data: Data) => true, (s: Step, data: Data) => Run(lib, io, false, s, data),
                     (s: Step) => None)
  }

  /** The steps' behaviour as written. */
  function AsWrittenBehaviour(lib: Preprocessing.Library, io: BatchProcessing.Io): (b: Engine.Behaviour<Step, Value>)
    ensures forall s, data :: b.validate(s, data) && b.execute(s, data) == Run(lib, io, true, s, data)
    ensures forall s :: b.cleanup(s).None?
  {
    Engine.Behaviour((s: Step, data: Data) => true, (s: Step, data: Data) => Run(lib, io, true, s, data),
                     (s: Step) => None)
  }

  /** A report that counts no patient. */
  predicate Empty(report: BatchReport.Report) {
    report.summary.successful == 0 && report.summary.failed == 0 && report.rows == [] && report.errorLog == None
  }

  /** A reporting step that has written a report has written an empty one. */
  predicate ReportedNothing(s: Step) {
    s.BatchReportingStep? && s.report.Some? ==> Empty(s.report.value)
  }

  /** No step binds `'BatchProcessingStep'` in the context. */
  predicate Unkeyed(data: Data) {
    "BatchProcessingStep" !in data
  }

  /** Merging an output that does not bind `'BatchProcessingStep'`. */
  lemma MergeUnkeyed(data: Data, o: Engine.StepOutcome<Value>, keys: set<string>)
    requires Unkeyed(data) && "BatchProcessingStep" !in keys
    requires o.Returned? ==> o.output.Some? && o.output.value.Keys <= keys
    ensures Unkeyed(Engine.Merge(data, Engine.Output(o)))
  {
    if o.Returned? {
      assert "BatchProcessingStep" !in o.output.value;
    }
  }

  /** No step's result binds `'BatchProcessingStep'`. */
  lemma StepKeepsUnkeyed(lib: Preprocessing.Library, io: BatchProcessing.Io, asWritten: bool, s: Step, data: Data)
    requires Unkeyed(data)
    ensures Unkeyed(Engine.Merge(data, Engine.Output(Run(lib, io, asWritten, s, data).1)))
  {
    MergeUnkeyed(data, Run(lib, io, asWritten, s, data).1, OutputKeys(s));
  }

  /** One step of the as-written run keeps the context free of the
      `'BatchProcessingStep'` key and leaves any report it writes empty. */
  lemma AsWrittenStep(lib: Preprocessing.Library, io: BatchProcessing.Io, s: Step, data: Data)
    requires Unkeyed(data) && ReportedNothing(s)
    ensures var r := Run(lib, io, true, s, data);
      Unkeyed(Engine.Merge(data, Engine.Output(r.1))) && ReportedNothing(r.0)
  {
    StepKeepsUnkeyed(lib, io, true, s, data);
    var r := Run(lib, io, true, s, data);
    if s.BatchReportingStep? && r.1.Returned? {
      assert BatchReport.ReportAsWritten(io.mkdir, data) == Ok((r.0.report.value, r.1.output.value));
    }
  }

  /** The batch pipeline as written never reports a patient: however the
      patients fare, every report it writes counts none successful, none
      failed, lists no row and logs no error, unless the caller binds
      `'BatchProcessingStep'` in the input. */
  lemma AsWrittenReportsNothing(lib: Preprocessing.Library, io: BatchProcessing.Io, config: Config,
                                input: Data, coe: bool)
    requires Unkeyed(input)
    ensures var x := Engine.Execute(NewBatchPipeline(config, io.cpuCount), AsWrittenBehaviour(lib, io), input, coe);
      |x.pipeline.slots| == 4 && ReportedNothing(x.pipeline.slots[3].impl)
  {
    AsWrittenPreserves(lib, io);
    FreshReportedNothing(config, io.cpuCount);
    ReportsNothingUnder(AsWrittenBehaviour(lib, io), NewBatchPipeline(config, io.cpuCount), input, coe);
  }

  /** A new batch pipeline has four steps and no report yet. */
  lemma FreshReportedNothing(config: Config, cpuCount: Option<int>)
    ensures var p := NewBatchPipeline(config, cpuCount);
      |p.slots| == 4 && forall j :: 0 <= j < |p.slots| ==> ReportedNothing(p.slots[j].impl)
  {
    var p := NewBatchPipeline(config, cpuCount);
    assert |Engine.Names(p.slots)| == 4;
  }

  /** Under any behaviour whose steps keep both invariants, a pipeline that
      starts with no report ends with none that counts a patient. */
  lemma ReportsNothingUnder(b: Engine.Behaviour<Step, Value>, p: Engine.Pipeline<Step, Value>, input: Data, coe: bool)
    requires Unkeyed(input)
    requires |p.slots| == 4 && forall j :: 0 <= j < |p.slots| ==> ReportedNothing(p.slots[j].impl)
    requires forall s, c :: Unkeyed(c) && ReportedNothing(s) && b.validate(s, c) ==>
      Unkeyed(Engine.Merge(c, Engine.Output(b.execute(s, c).1))) && ReportedNothing(b.execute(s, c).0)
    ensures var x := Engine.Execute(p, b, input, coe);
      |x.pipeline.slots| == 4 && ReportedNothing(x.pipeline.slots[3].impl)
  {
    Engine.ExecuteInvariant(p, b, input, coe, Unkeyed, ReportedNothing);
  }

  /** Every step of the as-written behaviour keeps both invariants. */
  lemma AsWrittenPreserves(lib: Preprocessing.Library, io: BatchProcessing.Io)
    ensures var b := AsWrittenBehaviour(lib, io);
      forall s, c :: Unkeyed(c) && ReportedNothing(s) && b.validate(s, c) ==>
        Unkeyed(Engine.Merge(c, Engine.Output(b.execute(s, c).1))) && ReportedNothing(b.execute(s, c).0)
  {
    var b := AsWrittenBehaviour(lib, io);
    forall s, c | Unkeyed(c) && ReportedNothing(s) && b.validate(s, c)
      ensures Unkeyed(Engine.Merge(c, Engine.Output(b.execute(s, c).1))) && ReportedNothing(b.execute(s, c).0)
    {
      AsWrittenStep(lib, io, s, c);
    }
  }

  /** With the report reading the processing step's own keys, the report
      written after processing counts exactly the patients processing sorted
      into `successful` and `failed`, and lists their records in order. */
  lemma ReportMatchesProcessing(lib: Preprocessing.Library, io: BatchProcessing.Io, registrationType: string,
                                enableSegmentation: bool, parallel: bool, maxWorkers: Option<int>, data: Data)
    requires Processing(lib, io, registrationType, enableSegmentation, parallel, maxWorkers, data).Ok?
    ensures var out := Processing(lib, io, registrationType, enableSegmentation, parallel, maxWorkers, data).value;
      var after := Engine.Merge(data, Some(out));
      var made := BatchReport.MakeReport(io.mkdir, after);
      made.Ok? ==>
        made.value.0.summary.successful == |out["successful"].ids| &&
        made.value.0.summary.failed == |out["failed"].ids| &&
        made.value.0.rows == BatchReport.Rows(out["detailed_results"].details)
  {
  }
}

=== FILE: batch_processing.dfy ===
/** The per-patient work of the batch pipeline and its accumulation into
    `successful`, `failed` and `detailed_results`.

    Each patient is processed independently: its output directory is
    created, its two images are read, and the comprehensive preprocessing
    pipeline is run on them, with the batch-trained T2W model injected when
    there is one. When patients run in parallel the results are collected in
    completion order, which is any permutation of the patient list; the
    model chooses it from `Io.order`. */
module BatchProcessing {
  import opened Wrappers
  import opened Imaging
  import opened Standardizers
  import opened Context
  import Discovery
  import Preprocessing
  import Engine
  import opened Orders

  /** The outside world: `listDir` lists a directory, `read` loads an
      image, `mkdir` creates a directory (or raises), `order` decides which
      running patient finishes next in a parallel run, and `cpuCount` is
      `os.cpu_count()`. */
  datatype Io = Io(
    listDir: string -> Result<seq<Discovery.Entry>>,
    read: string -> Result<Image>,
    mkdir: string -> Option<Error>,
    order: seq<nat>,
    cpuCount: Option<int>)

  /** The settings the processing step hands to every patient's pipeline. */
  datatype Settings = Settings(registrationType: string, enableSegmentation: bool)

  /** The outputs written per patient, each with the step whose result
      holds it, in the order they are looked for. */
  const OutputsToSave: seq<(string, string)> := [
    ("t2w_standardized", "StandardizationStep"),
    ("adc_standardized", "StandardizationStep"),
    ("prostate_segmentation", "SegmentationStep"),
    ("registered_adc", "RegistrationStep"),
    ("t2w_standardized_roi", "ROIExtractionStep"),
    ("adc_standardized_roi", "ROIExtractionStep")]

  /** The output is among the named step's results. */
  predicate Holds(stepResults: map<string, Engine.StepRecord<Value>>, pair: (string, string)) {
    pair.1 in stepResults && stepResults[pair.1].result.Some? && pair.0 in stepResults[pair.1].result.value
  }

  /** A step recorded with result `None`: looking an output up in it
      raises. */
  predicate NoneResult(stepResults: map<string, Engine.StepRecord<Value>>, pair: (string, string)) {
    pair.1 in stepResults && stepResults[pair.1].result.None?
  }

  /** The positions, from `from` on, of the outputs found: increasing,
      each one found, and none found left out. */
  function SavedPositions(stepResults: map<string, Engine.StepRecord<Value>>, pairs: seq<(string, string)>,
                          from: nat): (idx: seq<nat>)
    requires from <= |pairs|
    ensures |idx| <= |pairs| - from
    ensures forall i :: 0 <= i < |idx| ==> from <= idx[i] < |pairs| && Holds(stepResults, pairs[idx[i]])
    ensures forall i, j :: 0 <= i < j < |idx| ==> idx[i] < idx[j]
    ensures forall k :: from <= k < |pairs| && Holds(stepResults, pairs[k]) ==> k in idx
    decreases |pairs| - from
  {
    if from == |pairs| then []
    else
      var rest := SavedPositions(stepResults, pairs, from + 1);
      if Holds(stepResults, pairs[from]) then [from] + rest else rest
  }

  /** The save loop from position `from` on. */
  function SaveLoop(stepResults: map<string, Engine.StepRecord<Value>>, pairs: seq<(string, string)>, from: nat)
    : (r: Result<seq<string>>)
    requires from <= |pairs|
    ensures r.Err? <==> exists k :: from <= k < |pairs| && NoneResult(stepResults, pairs[k])
    ensures r.Err? ==> r.error == TypeError("argument of type 'NoneType' is not iterable")
    ensures r.Ok? ==> var idx := SavedPositions(stepResults, pairs, from);
      |r.value| == |idx| && forall i :: 0 <= i < |idx| ==> r.value[i] == pairs[idx[i]].0
    decreases |pairs| - from
  {
    if from == |pairs| then Ok([])
    else if NoneResult(stepResults, pairs[from]) then Err(TypeError("argument of type 'NoneType' is not iterable"))
    else
      var rest := SaveLoop(stepResults, pairs, from + 1);
      if rest.Err? then rest
      else
        var later := SavedPositions(stepResults, pairs, from + 1);
        if Holds(stepResults, pairs[from]) then
          assert SavedPositions(stepResults, pairs, from) == [from] + later;
          NamesAtCons(pairs, from, rest.value, later);
          Ok([pairs[from].0] + rest.value)
        else
          assert SavedPositions(stepResults, pairs, from) == later;
          rest
  }

  /** Names read at increasing positions stay in step when one more
      position is put in front. */
  lemma NamesAtCons<A, B>(pairs: seq<(A, B)>, from: nat, names: seq<A>, idx: seq<nat>)
    requires from < |pairs| && |names| == |idx|
    requires forall i :: 0 <= i < |idx| ==> idx[i] < |pairs| && names[i] == pairs[idx[i]].0
    ensures var r, ri := [pairs[from].0] + names, [from] + idx;
      |r| == |ri| && forall i :: 0 <= i < |ri| ==> ri[i] < |pairs| && r[i] == pairs[ri[i]].0
  {
  }

  /** The save loop: the names of the outputs found, in the order of
      `pairs`. */
  function SavedOutputs(stepResults: map<string, Engine.StepRecord<Value>>, pairs: seq<(string, string)>)
    : (r: Result<seq<string>>)
    ensures r.Err? <==> exists k :: 0 <= k < |pairs| && NoneResult(stepResults, pairs[k])
    ensures r.Err? ==> r.error == TypeError("argument of type 'NoneType' is not iterable")
    ensures r.Ok? ==> |r.value| <= |pairs|
    ensures r.Ok? ==> forall n :: n in r.value <==>
      exists k :: 0 <= k < |pairs| && pairs[k].0 == n && Holds(stepResults, pairs[k])
    ensures r.Ok? ==> var idx := SavedPositions(stepResults, pairs, 0);
      |r.value| == |idx| && forall i :: 0 <= i < |idx| ==> r.value[i] == pairs[idx[i]].0
  {
    var r := SaveLoop(stepResults, pairs, 0);
    if r.Ok? then
      var idx := SavedPositions(stepResults, pairs, 0);
      assert forall n :: n in r.value ==>
        exists k :: 0 <= k < |pairs| && pairs[k].0 == n && Holds(stepResults, pairs[k]) by {
        forall n | n in r.value
          ensures exists k :: 0 <= k < |pairs| && pairs[k].0 == n && Holds(stepResults, pairs[k])
        {
          var i :| 0 <= i < |r.value| && r.value[i] == n;
          assert pairs[idx[i]].0 == n && Holds(stepResults, pairs[idx[i]]);
        }
      }
      assert forall k :: 0 <= k < |pairs| && Holds(stepResults, pairs[k]) ==> pairs[k].0 in r.value by {
        forall k | 0 <= k < |pairs| && Holds(stepResults, pairs[k]) ensures pairs[k].0 in r.value {
          var i :| 0 <= i < |idx| && idx[i] == k;
          assert r.value[i] == pairs[k].0;
        }
      }
      r
    else r
  }

  /** The error the standardization step raises when the injected model is
      not a standardizer. */
  const NotAStandardizer: Error := Error("AttributeError", "object has no attribute 'trained'")

  /** The comprehensive pipeline a patient runs: `nyul` with the batch model
      injected into its first step when there is one, `zscore` otherwise. */
  function PatientPipeline(settings: Settings, model: Option<ValidStandardizer>)
    : (p: Engine.Pipeline<Preprocessing.Step, Value>)
    ensures var built := Preprocessing.NewPreprocessingPipeline(settings.registrationType,
                           if model.Some? then "nyul" else "zscore", settings.enableSegmentation).value;
      p == built.(slots := p.slots) && |p.slots| == |built.slots| &&
      forall j :: 1 <= j < |p.slots| ==> p.slots[j] == built.slots[j]
    ensures Engine.Names(p.slots) == (if settings.enableSegmentation
      then ["StandardizationStep", "SegmentationStep", "ROIExtractionStep", "RegistrationStep"]
      else ["StandardizationStep", "RegistrationStep"])
    ensures model.Some? ==> p.slots[0].impl == Preprocessing.StandardizationStep("nyul", model.value)
    ensures model.None? ==> p.slots[0].impl == Preprocessing.StandardizationStep("zscore", DefaultZScore())
  {
    var built := Preprocessing.NewPreprocessingPipeline(settings.registrationType,
                   if model.Some? then "nyul" else "zscore", settings.enableSegmentation).value;
    if model.Some? then
      built.(slots := built.slots[0 := built.slots[0].(impl := Preprocessing.StandardizationStep("nyul", model.value))])
    else built
  }

  /** The comprehensive pipeline run on a patient's two images, with the
      batch model injected when it is truthy. */
  function PatientRun(lib: Preprocessing.Library, settings: Settings, injected: Value, t2w: Image, adc: Image)
    : (x: Engine.Execution<Preprocessing.Step, Value>)
    requires Truthy(injected) ==> injected.VStandardizer?
    ensures x.pipeline.results.Some? &&
      x.pipeline.results.value.input == map["t2w_image" := VImage(t2w), "adc_image" := VImage(adc)]
  {
    Engine.Execute(PatientPipeline(settings, if Truthy(injected) then Some(injected.standardizer) else None),
                   Preprocessing.Behaviour(lib), map["t2w_image" := VImage(t2w), "adc_image" := VImage(adc)], false)
  }

  /** The part of `_process_single_patient` inside its `try`: any exception
      becomes a failed record with the exception's text and class name. */
  function ProcessLoaded(lib: Preprocessing.Library, settings: Settings, injected: Value, io: Io,
                         p: PatientInfo, dir: string): (r: PatientResult)
    ensures !r.Crashed? && r.patientId == p.patientId
    ensures io.read(p.t2wPath).Err? ==>
      r == PatientFailed(p.patientId, io.read(p.t2wPath).error.message, io.read(p.t2wPath).error.kind)
    ensures io.read(p.t2wPath).Ok? && io.read(p.adcPath).Err? ==>
      r == PatientFailed(p.patientId, io.read(p.adcPath).error.message, io.read(p.adcPath).error.kind)
    ensures io.read(p.t2wPath).Ok? && io.read(p.adcPath).Ok? && Truthy(injected) && !injected.VStandardizer? ==>
      r == PatientFailed(p.patientId, NotAStandardizer.message, NotAStandardizer.kind)
    ensures io.read(p.t2wPath).Ok? && io.read(p.adcPath).Ok? && (Truthy(injected) ==> injected.VStandardizer?) ==> (
      var x := PatientRun(lib, settings, injected, io.read(p.t2wPath).value, io.read(p.adcPath).value);
      (x.outcome.Err? ==> r == PatientFailed(p.patientId, x.outcome.error.message, x.outcome.error.kind)) &&
      (x.outcome.Ok? ==>
        var saved := SavedOutputs(x.outcome.value.stepResults, OutputsToSave);
        (saved.Ok? ==> r == Processed(p.patientId, saved.value, dir)) &&
        (saved.Err? ==> r == PatientFailed(p.patientId, saved.error.message, saved.error.kind))))
    ensures r.Processed? ==> (
      io.read(p.t2wPath).Ok? && io.read(p.adcPath).Ok? && r.outputDirectory == dir &&
      (Truthy(injected) ==> injected.VStandardizer?) &&
      var x := PatientRun(lib, settings, injected, io.read(p.t2wPath).value, io.read(p.adcPath).value);
      x.outcome.Ok? && SavedOutputs(x.outcome.value.stepResults, OutputsToSave) == Ok(r.outputsSaved))
  {
    var t2w := io.read(p.t2wPath);
    var adc := io.read(p.adcPath);
    if t2w.Err? then PatientFailed(p.patientId, t2w.error.message, t2w.error.kind)
    else if adc.Err? then PatientFailed(p.patientId, adc.error.message, adc.error.kind)
    else if Truthy(injected) && !injected.VStandardizer? then
      PatientFailed(p.patientId, NotAStandardizer.message, NotAStandardizer.kind)
    else
      var x := PatientRun(lib, settings, injected, t2w.value, adc.value);
      if x.outcome.Err? then PatientFailed(p.patientId, x.outcome.error.message, x.outcome.error.kind)
      else
        match SavedOutputs(x.outcome.value.stepResults, OutputsToSave)
        case Err(e) => PatientFailed(p.patientId, e.message, e.kind)
        case Ok(saved) => Processed(p.patientId, saved, dir)
  }

  /** `_process_single_patient`: the patient's directory `<output>/<id>` is
      created first, outside the `try`, so an error there escapes to the
      caller. */
  function ProcessPatient(lib: Preprocessing.Library, settings: Settings, injected: Value, io: Io,
                          outputDir: string, p: PatientInfo): (r: Result<PatientResult>)
    ensures r.Err? <==> io.mkdir(outputDir + "/" + p.patientId).Some?
    ensures r.Err? ==> r.error == io.mkdir(outputDir + "/" + p.patientId).value
    ensures r.Ok? ==> r.value == ProcessLoaded(lib, settings, injected, io, p, outputDir + "/" + p.patientId)
  {
    var dir := outputDir + "/" + p.patientId;
    if io.mkdir(dir).Some? then Err(io.mkdir(dir).value)
    else Ok(ProcessLoaded(lib, settings, injected, io, p, dir))
  }

  /** The entry `detailed_results` records for a patient: its result, or
      only the text of the exception that escaped. */
  function Recorded(r: Result<PatientResult>): (e: PatientResult)
    ensures e.Success() <==> r.Ok? && r.value.Success()
    ensures r.Ok? ==> e == r.value
    ensures r.Err? ==> e == Crashed(r.error.message)
  {
    if r.Ok? then r.value else Crashed(r.error.message)
  }

  /** Each patient's entry, as a function of the patient alone: patients do
      not affect one another. */
  function Outcome(lib: Preprocessing.Library, settings: Settings, injected: Value, io: Io, outputDir: string)
    : (f: PatientInfo -> PatientResult)
    ensures forall p :: f(p) == Recorded(ProcessPatient(lib, settings, injected, io, outputDir, p))
  {
    p => Recorded(ProcessPatient(lib, settings, injected, io, outputDir, p))
  }

  /** The results loop over the patients in the order their results
      arrive: the id goes to `successful` or `failed`, and the entry is
      stored under it in `detailed_results`. */
  function Accumulate(outcome: PatientInfo -> PatientResult, ps: seq<PatientInfo>): (r: BatchResults)
    ensures |r.successful| + |r.failed| == |ps|
    ensures Distinct(Keys(r.detailed))
    decreases |ps|
  {
    if |ps| == 0 then BatchResults([], [], [])
    else
      var prev := Accumulate(outcome, ps[..|ps| - 1]);
      var p := ps[|ps| - 1];
      var res := outcome(p);
      BatchResults(if res.Success() then prev.successful + [p.patientId] else prev.successful,
                   if res.Success() then prev.failed else prev.failed + [p.patientId],
                   Put(prev.detailed, p.patientId, res))
  }

  /** The ids of the patients whose entry does (`success`) or does not
      succeed, in list order. */
  function Pick(outcome: PatientInfo -> PatientResult, ps: seq<PatientInfo>, success: bool): (r: seq<string>)
    ensures |r| <= |ps|
  {
    if |ps| == 0 then []
    else (if outcome(ps[0]).Success() == success then [ps[0].patientId] else []) + Pick(outcome, ps[1..], success)
  }

  lemma {:induction false} PickAppend(outcome: PatientInfo -> PatientResult, a: seq<PatientInfo>, b: seq<PatientInfo>,
                                      success: bool)
    ensures Pick(outcome, a + b, success) == Pick(outcome, a, success) + Pick(outcome, b, success)
  {
    if |a| > 0 {
      assert (a + b)[1..] == a[1..] + b;
      PickAppend(outcome, a[1..], b, success);
    } else {
      assert a + b == b;
    }
  }

  /** `successful` lists the succeeding patients and `failed` the others,
      each in the order their results arrived. */
  lemma {:induction false} AccumulatePartition(outcome: PatientInfo -> PatientResult, ps: seq<PatientInfo>)
    ensures Accumulate(outcome, ps).successful == Pick(outcome, ps, true)
    ensures Accumulate(outcome, ps).failed == Pick(outcome, ps, false)
    decreases |ps|
  {
    if |ps| > 0 {
      var init, last := ps[..|ps| - 1], ps[|ps| - 1];
      AccumulatePartition(outcome, init);
      assert ps == init + [last];
      PickAppend(outcome, init, [last], true);
      PickAppend(outcome, init, [last], false);
    }
  }

  /** Some patient of the list has the id. */
  predicate HasId(ps: seq<PatientInfo>, id: string) {
    exists i :: 0 <= i < |ps| && ps[i].patientId == id
  }

  /** `detailed_results` has one entry per distinct patient id. */
  lemma {:induction false} AccumulateKeys(outcome: PatientInfo -> PatientResult, ps: seq<PatientInfo>)
    ensures forall id :: id in Keys(Accumulate(outcome, ps).detailed) <==> HasId(ps, id)
    decreases |ps|
  {
    if |ps| > 0 {
      var init, last := ps[..|ps| - 1], ps[|ps| - 1];
      AccumulateSnoc(outcome, ps);
      AccumulateKeys(outcome, init);
      var prev := Accumulate(outcome, init).detailed;
      forall id ensures id in Keys(Accumulate(outcome, ps).detailed) <==> HasId(ps, id) {
        PutKeys(prev, last.patientId, outcome(last), id);
        HasIdSnoc(ps, id);
      }
    }
  }

  /** A list has an id iff its prefix without the last patient has it or
      the last patient does. */
  lemma HasIdSnoc(ps: seq<PatientInfo>, id: string)
    requires |ps| > 0
    ensures HasId(ps, id) <==> HasId(ps[..|ps| - 1], id) || id == ps[|ps| - 1].patientId
  {
    var init := ps[..|ps| - 1];
    if HasId(init, id) {
      var i :| 0 <= i < |init| && init[i].patientId == id;
      assert ps[i] == init[i];
    }
    if HasId(ps, id) && id != ps[|ps| - 1].patientId {
      var i :| 0 <= i < |ps| && ps[i].patientId == id;
      assert init[i] == ps[i];
    }
  }

  /** After `d[key] = value` the keys are the old ones and `key`. */
  lemma PutKeys<V>(d: ODict<V>, key: string, value: V, other: string)
    ensures other in Keys(Put(d, key, value)) <==> other in Keys(d) || other == key
  {
    var r := Put(d, key, value);
    if other in Keys(d) {
      var k :| 0 <= k < |d| && Keys(d)[k] == other;
      assert Keys(r)[k] == other;
    }
    if other == key && key !in Keys(d) {
      assert Keys(r)[|d|] == key;
    }
  }

  lemma AccumulateSnoc(outcome: PatientInfo -> PatientResult, ps: seq<PatientInfo>)
    requires |ps| > 0
    ensures var prev := Accumulate(outcome, ps[..|ps| - 1]).detailed;
      Distinct(Keys(prev)) &&
      Accumulate(outcome, ps).detailed == Put(prev, ps[|ps| - 1].patientId, outcome(ps[|ps| - 1]))
  {
  }

  /** The entry under an id is that of the last patient with the id. */
  lemma {:induction false} AccumulateLast(outcome: PatientInfo -> PatientResult, ps: seq<PatientInfo>, i: nat)
    requires i < |ps| && forall j :: i < j < |ps| ==> ps[j].patientId != ps[i].patientId
    ensures At(Accumulate(outcome, ps).detailed, ps[i].patientId) == Some(outcome(ps[i]))
    decreases |ps|
  {
    var init, last := ps[..|ps| - 1], ps[|ps| - 1];
    AccumulateSnoc(outcome, ps);
    var prev := Accumulate(outcome, init).detailed;
    if i < |init| {
      LaterIdsOfPrefix(ps, i);
      AccumulateLast(outcome, init, i);
    }
    PutAt(prev, last.patientId, outcome(last), ps[i].patientId);
  }

  /** Dropping the last patient keeps a patient whose id no later patient
      has, and the id is not the last patient's. */
  lemma LaterIdsOfPrefix(ps: seq<PatientInfo>, i: nat)
    requires i < |ps| - 1 && forall j :: i < j < |ps| ==> ps[j].patientId != ps[i].patientId
    ensures var init := ps[..|ps| - 1];
      init[i] == ps[i] && ps[i].patientId != ps[|ps| - 1].patientId &&
      forall j :: i < j < |init| ==> init[j].patientId != init[i].patientId
  {
  }

  /** Picking from a list is picking around the element at `k`. */
  lemma PickAround(outcome: PatientInfo -> PatientResult, b: seq<PatientInfo>, k: nat, success: bool)
    requires k < |b|
    ensures multiset(Pick(outcome, b, success)) ==
            multiset(Pick(outcome, [b[k]], success)) + multiset(Pick(outcome, b[..k] + b[k + 1..], success))
  {
    assert b == b[..k] + ([b[k]] + b[k + 1..]);
    PickAppend(outcome, b[..k], [b[k]] + b[k + 1..], success);
    PickAppend(outcome, [b[k]], b[k + 1..], success);
    PickAppend(outcome, b[..k], b[k + 1..], success);
  }

  /** Processing order does not change which ids succeed or fail, only the
      order they are listed in. */
  lemma {:induction false} PickPermutation(outcome: PatientInfo -> PatientResult, a: seq<PatientInfo>,
                                           b: seq<PatientInfo>, success: bool)
    requires multiset(a) == multiset(b)
    ensures multiset(Pick(outcome, a, success)) == multiset(Pick(outcome, b, success))
    decreases |a|
  {
    if |a| > 0 {
      assert a[0] in multiset(b);
      var k :| 0 <= k < |b| && b[k] == a[0];
      RemoveMatching(a, b, k);
      PickPermutation(outcome, a[1..], b[..k] + b[k + 1..], success);
      PickAround(outcome, b, k, success);
      PickAround(outcome, a, 0, success);
      assert a[..0] + a[1..] == a[1..];
    } else {
      assert b == [];
    }
  }

  /** The order results arrive in: a parallel run of more than one patient
      in completion order, otherwise list order. */
  function Arrival(parallel: bool, choice: seq<nat>, ps: seq<PatientInfo>): (r: seq<PatientInfo>)
    ensures multiset(r) == multiset(ps)
    ensures !(parallel && |ps| > 1) ==> r == ps
  {
    if parallel && |ps| > 1 then Permute(ps, choice) else ps
  }

  /** Every patient is accounted for once, in either mode: the counts add
      up to the number of patients, `successful` holds the ids of the
      patients whose entry succeeds and `failed` the others, each as a
      multiset (the order is the order of arrival). */
  lemma ArrivalAccounts(outcome: PatientInfo -> PatientResult, parallel: bool, choice: seq<nat>, ps: seq<PatientInfo>)
    ensures var r := Accumulate(outcome, Arrival(parallel, choice, ps));
      |r.successful| + |r.failed| == |ps| &&
      multiset(r.successful) == multiset(Pick(outcome, ps, true)) &&
      multiset(r.failed) == multiset(Pick(outcome, ps, false))
  {
    var a := Arrival(parallel, choice, ps);
    assert |a| == |multiset(a)| == |multiset(ps)| == |ps|;
    AccumulatePartition(outcome, a);
    PickPermutation(outcome, a, ps, true);
    PickPermutation(outcome, a, ps, false);
  }

  /** Parallel and sequential runs record the same set of ids in
      `detailed_results`. */
  lemma ArrivalKeys(outcome: PatientInfo -> PatientResult, choice: seq<nat>, ps: seq<PatientInfo>)
    ensures forall id :: id in Keys(Accumulate(outcome, Arrival(true, choice, ps)).detailed) <==>
                         id in Keys(Accumulate(outcome, ps).detailed)
  {
    var a := Arrival(true, choice, ps);
    AccumulateKeys(outcome, a);
    AccumulateKeys(outcome, ps);
    forall id ensures HasId(a, id) <==> HasId(ps, id) {
      if HasId(a, id) {
        var i :| 0 <= i < |a| && a[i].patientId == id;
        assert a[i] in multiset(ps);
      }
      if HasId(ps, id) {
        var i :| 0 <= i < |ps| && ps[i].patientId == id;
        assert ps[i] in multiset(a);
      }
    }
  }

  /** With distinct patient ids, parallel and sequential runs record the
      same entry under every id. */
  lemma ArrivalEntries(outcome: PatientInfo -> PatientResult, choice: seq<nat>, ps: seq<PatientInfo>, id: string)
    requires forall i, j :: 0 <= i < j < |ps| ==> ps[i].patientId != ps[j].patientId
    ensures At(Accumulate(outcome, Arrival(true, choice, ps)).detailed, id) == At(Accumulate(outcome, ps).detailed, id)
  {
    var a := Arrival(true, choice, ps);
    ArrivalKeys(outcome, choice, ps);
    AccumulateKeys(outcome, ps);
    if HasId(ps, id) {
      var i :| 0 <= i < |ps| && ps[i].patientId == id;
      assert ps[i] in multiset(a);
      var k :| 0 <= k < |a| && a[k] == ps[i];
      DistinctArrival(a, ps);
      AccumulateLast(outcome, a, k);
      AccumulateLast(outcome, ps, i);
    }
  }

  /** A reordering of patients with distinct ids has distinct ids. */
  lemma DistinctArrival(a: seq<PatientInfo>, ps: seq<PatientInfo>)
    requires multiset(a) == multiset(ps)
    requires forall i, j :: 0 <= i < j < |ps| ==> ps[i].patientId != ps[j].patientId
    ensures forall i, j :: 0 <= i < j < |a| ==> a[i].patientId != a[j].patientId
  {
    forall i, j | 0 <= i < j < |a| ensures a[i].patientId != a[j].patientId {
      assert a[i] in multiset(ps) && a[j] in multiset(ps);
      var i' :| 0 <= i' < |ps| && ps[i'] == a[i];
      var j' :| 0 <= j' < |ps| && ps[j'] == a[j];
      if i' == j' {
        TwiceInMultiset(a, i, j);
        MultiplicityOne(ps, i');
      }
    }
  }

  /** In a list of patients with distinct ids each patient occurs once. */
  lemma MultiplicityOne(ps: seq<PatientInfo>, i: nat)
    requires i < |ps|
    requires forall i, j :: 0 <= i < j < |ps| ==> ps[i].patientId != ps[j].patientId
    ensures multiset(ps)[ps[i]] == 1
  {
    assert ps == ps[..i] + [ps[i]] + ps[i + 1..];
    assert forall k :: 0 <= k < |ps| && k != i ==> ps[k] != ps[i];
    assert ps[i] !in ps[..i];
    assert ps[i] !in ps[i + 1..];
  }

  /** `BatchProcessingStep.execute`. */
  function ProcessBatch(lib: Preprocessing.Library, settings: Settings, parallel: bool, io: Io, data: Data)
    : (r: Result<Data>)
    ensures "patients" !in data ==> r == Err(KeyError("patients"))
    ensures "patients" in data && "output_directory" !in data ==> r == Err(KeyError("output_directory"))
    ensures r.Ok? <==> "patients" in data && data["patients"].VPatients? &&
                       "output_directory" in data && data["output_directory"].VText?
    ensures r.Err? ==> r.error.kind in {"KeyError", "TypeError"}
    ensures r.Ok? ==> r.value.Keys == {"successful", "failed", "detailed_results"}
    ensures r.Ok? ==> (
      data["patients"].VPatients? && data["output_directory"].VText? &&
      var ps, out := data["patients"].patients, data["output_directory"].s;
      var outcome := Outcome(lib, settings, Get(data, "t2w_standardizer", VNone), io, out);
      var res := Accumulate(outcome, Arrival(parallel, io.order, ps));
      r.value["successful"] == VIds(res.successful) && r.value["failed"] == VIds(res.failed) &&
      r.value["detailed_results"] == VDetails(res.detailed))
  {
    var patients :- Lookup(data, "patients");
    var outv :- Lookup(data, "output_directory");
    var out :- PathText(outv);
    if !patients.VPatients? then Err(TypeError("object is not iterable"))
    else
      var outcome := Outcome(lib, settings, Get(data, "t2w_standardizer", VNone), io, out);
      var res := Accumulate(outcome, Arrival(parallel, io.order, patients.patients));
      Ok(Summary(res))
  }

  /** The dictionary `execute` returns for the accumulated results. */
  function Summary(res: BatchResults): (m: Data)
    ensures m.Keys == {"successful", "failed", "detailed_results"}
    ensures m["successful"] == VIds(res.successful) && m["failed"] == VIds(res.failed)
    ensures m["detailed_results"] == VDetails(res.detailed)
  {
    map["successful" := VIds(res.successful), "failed" := VIds(res.failed),
        "detailed_results" := VDetails(res.detailed)]
  }
}

=== FILE: batch_report.dfy ===
/** The batch reporting step: a JSON summary, one CSV row per patient in
    `detailed_results` order, and an error log when some patient failed.

    The files written are kept as values (`Report`); the timestamp and the
    CSV's execution-time column are not modelled.

    The step as written reads the processing results from the context key
    `'BatchProcessingStep'`, which no step ever sets (the engine merges a
    step's result into the context under the result's own keys), so its
    report always counts no patient. `ReportAsWritten` models that;
    `Report` reads the processing step's `successful`, `failed` and
    `detailed_results` from the context, as the report's own fields and the
    example driver make evident was intended. */
module BatchReport {
  import opened Wrappers
  import opened PyStr
  import opened Context

  /** The processing results a report is drawn from. */
  datatype View = View(successful: seq<string>, failed: seq<string>, detailed: ODict<PatientResult>)

  /** `batch_summary.json`, without its timestamp. */
  datatype Summary = Summary(
    pipelineName: string, totalPatients: int, successful: nat, failed: nat, successRate: real,
    registrationType: Value, standardizationMethod: Value, enableSegmentation: Value)

  /** A row of `batch_results.csv`, without the execution time. */
  datatype CsvRow = CsvRow(patientId: string, status: string, outputsSaved: string, error: string)

  /** An entry of `error_log.txt`. */
  datatype ErrorEntry = ErrorEntry(patientId: string, error: string, errorType: string)

  datatype Report = Report(summary: Summary, rows: seq<CsvRow>, errorLog: Option<seq<ErrorEntry>>)

  /** The CSV row of one `detailed_results` entry: the output names joined
      with commas, which split back apart when there are any. */
  function Row(id: string, result: PatientResult): (row: CsvRow)
    ensures row.patientId == id
    ensures row.status == (if result.Success() then "Success" else "Failed")
    ensures result.Processed? && result.outputsSaved == [] ==> row.outputsSaved == ""
    ensures (result.Processed? && |result.outputsSaved| > 0 &&
             forall k :: 0 <= k < |result.outputsSaved| ==> ',' !in result.outputsSaved[k]) ==>
      Split(row.outputsSaved, ',') == result.outputsSaved
    ensures result.Processed? ==> row.error == ""
    ensures !result.Processed? ==> row.outputsSaved == "" && row.error == result.error
  {
    match result
    case Processed(_, outputs, _) =>
      if |outputs| > 0 && forall k :: 0 <= k < |outputs| ==> ',' !in outputs[k] then
        SplitJoin(outputs, ',');
        CsvRow(id, "Success", Join(outputs, ","), "")
      else CsvRow(id, "Success", Join(outputs, ","), "")
    case PatientFailed(_, error, _) => CsvRow(id, "Failed", "", error)
    case Crashed(error) => CsvRow(id, "Failed", "", error)
  }

  /** The CSV rows, one per entry, in insertion order. */
  function Rows(detailed: ODict<PatientResult>): (rows: seq<CsvRow>)
    ensures |rows| == |detailed|
    ensures forall k :: 0 <= k < |detailed| ==> rows[k] == Row(detailed[k].0, detailed[k].1)
  {
    seq(|detailed|, k requires 0 <= k < |detailed| => Row(detailed[k].0, detailed[k].1))
  }

  /** The error-log entry of a failed id: its record's error and class, or
      `Unknown error` and `Unknown` for what the record lacks. */
  function Entry(id: string, detailed: ODict<PatientResult>): (e: ErrorEntry)
    ensures e.patientId == id
    ensures (At(detailed, id).None? || At(detailed, id).value.Processed?) ==>
              (e.error == "Unknown error" && e.errorType == "Unknown")
    ensures At(detailed, id).Some? && !At(detailed, id).value.Processed? ==> e.error == At(detailed, id).value.error
    ensures At(detailed, id).Some? && At(detailed, id).value.PatientFailed? ==>
      e.errorType == At(detailed, id).value.errorType
    ensures At(detailed, id).Some? && At(detailed, id).value.Crashed? ==> e.errorType == "Unknown"
  {
    var found := At(detailed, id);
    if found.None? then ErrorEntry(id, "Unknown error", "Unknown")
    else match found.value
      case Processed(_, _, _) => ErrorEntry(id, "Unknown error", "Unknown")
      case PatientFailed(_, error, kind) => ErrorEntry(id, error, kind)
      case Crashed(error) => ErrorEntry(id, error, "Unknown")
  }

  /** The error log: written only when some patient failed, one entry per
      failed id in order. */
  function ErrorLog(view: View): (log: Option<seq<ErrorEntry>>)
    ensures log.Some? <==> |view.failed| > 0
    ensures log.Some? ==> (|log.value| == |view.failed| &&
              forall k :: 0 <= k < |view.failed| ==> log.value[k] == Entry(view.failed[k], view.detailed))
  {
    if |view.failed| == 0 then None
    else Some(seq(|view.failed|, k requires 0 <= k < |view.failed| => Entry(view.failed[k], view.detailed)))
  }

  /** The error `batch_results.get` raises on a value that is not a
      dictionary. */
  const NotADict: Error := Error("AttributeError", "object has no attribute 'get'")

  /** The processing results as written: `data.get('BatchProcessingStep',
      {})`. */
  function ViewAsWritten(data: Data): (r: Result<View>)
    ensures "BatchProcessingStep" !in data ==> r == Ok(View([], [], []))
    ensures ("BatchProcessingStep" in data && data["BatchProcessingStep"].VBatchResults?) ==>
      var b := data["BatchProcessingStep"].results;
      r == Ok(View(b.successful, b.failed, b.detailed))
    ensures ("BatchProcessingStep" in data && !data["BatchProcessingStep"].VBatchResults?) ==> r == Err(NotADict)
  {
    if "BatchProcessingStep" !in data then Ok(View([], [], []))
    else match data["BatchProcessingStep"]
      case VBatchResults(b) => Ok(View(b.successful, b.failed, b.detailed))
      case _ => Err(NotADict)
  }

  /** A list of ids under `key`, empty when the key is missing. */
  function IdsAt(data: Data, key: string): (r: Result<seq<string>>)
    ensures key !in data ==> r == Ok([])
    ensures key in data ==> (r.Ok? <==> data[key].VIds?)
    ensures key in data && r.Ok? ==> r.value == data[key].ids
  {
    if key !in data then Ok([])
    else if data[key].VIds? then Ok(data[key].ids)
    else Err(TypeError("object of type has no len()"))
  }

  /** The processing results as intended: the processing step's own
      `successful`, `failed` and `detailed_results`, each empty when
      missing. */
  function ViewOf(data: Data): (r: Result<View>)
    ensures r.Ok? <==> (("successful" !in data || data["successful"].VIds?) &&
                        ("failed" !in data || data["failed"].VIds?) &&
                        ("detailed_results" !in data || data["detailed_results"].VDetails?))
    ensures r.Ok? ==> r.value.successful == (if "successful" in data then data["successful"].ids else [])
    ensures r.Ok? ==> r.value.failed == (if "failed" in data then data["failed"].ids else [])
    ensures r.Ok? ==> r.value.detailed == (if "detailed_results" in data then data["detailed_results"].details else [])
  {
    var successful :- IdsAt(data, "successful");
    var failed :- IdsAt(data, "failed");
    if "detailed_results" !in data then Ok(View(successful, failed, []))
    else if data["detailed_results"].VDetails? then Ok(View(successful, failed, data["detailed_results"].details))
    else Err(NotADict)
  }

  /** `BatchReportingStep.execute` over a way of reading the processing
      results: the reports directory is created, the summary, rows and
      error log are drawn from the results, and the paths are returned. */
  function Build(mkdir: string -> Option<Error>, data: Data, view: Result<View>): (r: Result<(Report, Data)>)
    ensures "output_directory" !in data ==> r == Err(KeyError("output_directory"))
    ensures r.Ok? ==> (
      "output_directory" in data && data["output_directory"].VText? &&
      var reports := data["output_directory"].s + "/reports";
      mkdir(reports).None? &&
      r.value.1 == map["summary_path" := VText(reports + "/batch_summary.json"),
                       "csv_path" := VText(reports + "/batch_results.csv"),
                       "reports_directory" := VText(reports)])
    ensures r.Ok? ==> (
      view.Ok? && "total_patients" in data && data["total_patients"].VInt? &&
      var report, v, total := r.value.0, view.value, data["total_patients"].i;
      report.summary.pipelineName == "BatchPreprocessingPipeline" &&
      report.summary.totalPatients == total &&
      report.summary.successful == |v.successful| && report.summary.failed == |v.failed| &&
      report.summary.successRate == SuccessRate(|v.successful|, total) &&
      report.summary.registrationType == Get(data, "registration_type", VText("unknown")) &&
      report.summary.standardizationMethod == Get(data, "standardization_method", VText("unknown")) &&
      report.summary.enableSegmentation == Get(data, "enable_segmentation", VBool(false)) &&
      report.rows == Rows(v.detailed) && report.errorLog == ErrorLog(v))
  {
    var outv :- Lookup(data, "output_directory");
    var out :- PathText(outv);
    var reports := out + "/reports";
    if mkdir(reports).Some? then Err(mkdir(reports).value)
    else
      var totalv :- Lookup(data, "total_patients");
      var v :- view;
      if !totalv.VInt? then Err(TypeError("'>' not supported between instances"))
      else
        var total := totalv.i;
        var summary := Summary("BatchPreprocessingPipeline", total, |v.successful|, |v.failed|,
                               SuccessRate(|v.successful|, total),
                               Get(data, "registration_type", VText("unknown")),
                               Get(data, "standardization_method", VText("unknown")),
                               Get(data, "enable_segmentation", VBool(false)));
        Ok((Report(summary, Rows(v.detailed), ErrorLog(v)),
            map["summary_path" := VText(reports + "/batch_summary.json"),
                "csv_path" := VText(reports + "/batch_results.csv"),
                "reports_directory" := VText(reports)]))
  }

  /** The reporting step as written: the results are looked up under
      `'BatchProcessingStep'`. */
  function ReportAsWritten(mkdir: string -> Option<Error>, data: Data): (r: Result<(Report, Data)>)
    ensures r == Build(mkdir, data, ViewAsWritten(data))
    ensures "BatchProcessingStep" !in data && r.Ok? ==>
      r.value.0.summary.successful == 0 && r.value.0.summary.failed == 0 &&
      r.value.0.summary.successRate == 0.0 && r.value.0.rows == [] && r.value.0.errorLog == None
  {
    Build(mkdir, data, ViewAsWritten(data))
  }

  /** The reporting step as intended: the summary counts, the rows and the
      error log are those of the processing step's results. */
  function MakeReport(mkdir: string -> Option<Error>, data: Data): (r: Result<(Report, Data)>)
    ensures r == Build(mkdir, data, ViewOf(data))
    ensures r.Ok? && "successful" in data ==> r.value.0.summary.successful == |data["successful"].ids|
    ensures r.Ok? && "failed" in data ==> r.value.0.summary.failed == |data["failed"].ids|
    ensures r.Ok? && "detailed_results" in data ==> (
      var d := data["detailed_results"].details;
      |r.value.0.rows| == |d| &&
      forall k :: 0 <= k < |d| ==>
        (r.value.0.rows[k].patientId == d[k].0 && (r.value.0.rows[k].status == "Success" <==> d[k].1.Success())))
    ensures r.Ok? ==> (r.value.0.errorLog.Some? <==> "failed" in data && |data["failed"].ids| > 0)
  {
    Build(mkdir, data, ViewOf(data))
  }

  /** The report as written disagrees with the processing results: one
      patient processed successfully, reported as none. */
  lemma ReportKeyDiscrepancy(mkdir: string -> Option<Error>)
    requires mkdir("out/reports").None?
    ensures var data := map["output_directory" := VText("out"), "total_patients" := VInt(1),
                             "successful" := VIds(["p1"]), "failed" := VIds([]),
                             "detailed_results" := VDetails([("p1", Processed("p1", [], "out/p1"))])];
      ReportAsWritten(mkdir, data).Ok? && ReportAsWritten(mkdir, data).value.0.summary.successful == 0 &&
      ReportAsWritten(mkdir, data).value.0.rows == [] &&
      MakeReport(mkdir, data).Ok? && MakeReport(mkdir, data).value.0.summary.successful == 1 &&
      MakeReport(mkdir, data).value.0.summary.successRate == 1.0 &&
      |MakeReport(mkdir, data).value.0.rows| == 1
  {
    var data := map["output_directory" := VText("out"), "total_patients" := VInt(1),
                    "successful" := VIds(["p1"]), "failed" := VIds([]),
                    "detailed_results" := VDetails([("p1", Processed("p1", [], "out/p1"))])];
    assert "out" + "/reports" == "out/reports";
    assert "BatchProcessingStep" !in data;
    BuildSucceeds(mkdir, data, ViewAsWritten(data));
    BuildSucceeds(mkdir, data, ViewOf(data));
  }

  /** The report is built whenever the output directory and the patient
      count are there, the directory can be created and the results read. */
  lemma BuildSucceeds(mkdir: string -> Option<Error>, data: Data, view: Result<View>)
    requires "output_directory" in data && data["output_directory"].VText?
    requires mkdir(data["output_directory"].s + "/reports").None?
    requires "total_patients" in data && data["total_patients"].VInt? && view.Ok?
    ensures Build(mkdir, data, view).Ok?
  {
  }
}

=== FILE: context.dfy ===
/** Values held in a pipeline's context dictionary, and the few Python
    dictionary operations the steps use on it.

    The context maps string keys to values of any type in Python; here a
    value is one of the kinds the pipelines store. Python dictionaries keep
    insertion order, which matters where one is iterated (report rows); an
    `ODict` is such a dictionary as its list of entries. */
module Context {
  import opened Wrappers
  import opened Imaging
  import opened Standardizers

  /** One patient found by discovery: `{'patient_id', 't2w_path',
      'adc_path', 'patient_dir'}`. */
  datatype PatientInfo = PatientInfo(patientId: string, t2wPath: string, adcPath: string, patientDir: string)

  /** One patient's entry of `detailed_results` in the batch pipeline.
      `Crashed` is the reduced record `{'success': False, 'error'}` written
      when the exception escaped the per-patient function. */
  datatype PatientResult =
    | Processed(patientId: string, outputsSaved: seq<string>, outputDirectory: string)
    | PatientFailed(patientId: string, error: string, errorType: string)
    | Crashed(error: string)
  {
    predicate Success() { Processed? }
  }

  /** An insertion-ordered dictionary as its entries. */
  type ODict<V> = seq<(string, V)>

  /** The batch-processing step's result: `successful`, `failed` and
      `detailed_results`. */
  datatype BatchResults = BatchResults(successful: seq<string>, failed: seq<string>, detailed: ODict<PatientResult>)

  datatype Value =
    | VNone
    | VBool(b: bool)
    | VInt(i: int)
    | VReal(r: real)
    | VText(s: string)
    | VImage(image: Image)
    | VTransform(transform: Transform)
    | VStandardizer(standardizer: ValidStandardizer)
    | VPatients(patients: seq<PatientInfo>)
    | VIds(ids: seq<string>)
    | VDetails(details: ODict<PatientResult>)
    | VBatchResults(results: BatchResults)

  type Data = map<string, Value>

  /** `data.get(key, default)`: the default only when the key is missing,
      not when it is bound to `None`. */
  function Get(data: Data, key: string, default: Value): (v: Value)
    ensures key in data ==> v == data[key]
    ensures key !in data ==> v == default
  {
    if key in data then data[key] else default
  }

  /** `data[key]`: a missing key raises KeyError. */
  function Lookup(data: Data, key: string): (r: Result<Value>)
    ensures r.Ok? <==> key in data
    ensures r.Ok? ==> r.value == data[key]
    ensures r.Err? ==> r.error == KeyError(key)
  {
    if key in data then Ok(data[key]) else Err(KeyError(key))
  }

  /** `Path(v)`: only a string names a path. */
  function PathText(v: Value): (r: Result<string>)
    ensures r.Ok? <==> v.VText?
    ensures r.Ok? ==> r.value == v.s
  {
    if v.VText? then Ok(v.s) else Err(TypeError("expected str, bytes or os.PathLike object"))
  }

  /** `successful / total if total else 0`. */
  function SuccessRate(successful: nat, total: int): (rate: real)
    ensures total <= 0 ==> rate == 0.0
    ensures total > 0 ==> rate * total as real == successful as real
    ensures total > 0 && successful <= total ==> 0.0 <= rate <= 1.0
  {
    if total > 0 then successful as real / total as real else 0.0
  }

  /** Python truth value: `None`, `False`, zero, and empty strings and
      collections are false; images, transforms and standardizers are
      true. */
  predicate Truthy(v: Value) {
    match v
    case VNone => false
    case VBool(b) => b
    case VInt(i) => i != 0
    case VReal(x) => x != 0.0
    case VText(s) => |s| > 0
    case VPatients(ps) => |ps| > 0
    case VIds(ids) => |ids| > 0
    case VDetails(d) => |d| > 0
    case _ => true
  }

  /** `key in data and data[key] is not None`. */
  predicate Present(data: Data, key: string) {
    key in data && data[key] != VNone
  }

  /** The keys of an ordered dictionary, in insertion order. */
  function Keys<V>(d: ODict<V>): (ks: seq<string>)
    ensures |ks| == |d| && forall i :: 0 <= i < |d| ==> ks[i] == d[i].0
  {
    seq(|d|, i requires 0 <= i < |d| => d[i].0)
  }

  /** No key is listed twice: every ordered dictionary the model builds. */
  predicate Distinct(ks: seq<string>) {
    forall i, j :: 0 <= i < j < |ks| ==> ks[i] != ks[j]
  }

  /** `d[key] = value`: an existing key keeps its place and takes the new
      value; a new key is appended. */
  function Put<V>(d: ODict<V>, key: string, value: V): (r: ODict<V>)
    ensures key in Keys(d) ==> |r| == |d| && Keys(r) == Keys(d)
    ensures key !in Keys(d) ==> r == d + [(key, value)]
    ensures forall i :: 0 <= i < |r| ==> r[i] == (if r[i].0 == key then (key, value) else d[i])
    ensures Distinct(Keys(d)) ==> Distinct(Keys(r))
  {
    if key in Keys(d) then
      seq(|d|, i requires 0 <= i < |d| => if d[i].0 == key then (key, value) else d[i])
    else d + [(key, value)]
  }

  /** The value stored under `key`, if any: `d.get(key)`. */
  function At<V>(d: ODict<V>, key: string): (r: Option<V>)
    ensures r.Some? <==> key in Keys(d)
    ensures r.Some? ==> exists i :: 0 <= i < |d| && d[i] == (key, r.value)
  {
    if |d| == 0 then None
    else if d[0].0 == key then Some(d[0].1)
    else
      assert Keys(d[1..]) == Keys(d)[1..];
      At(d[1..], key)
  }

  /** After `d[key] = value` the key maps to `value` and every other key
      keeps its entry. */
  lemma PutAt<V>(d: ODict<V>, key: string, value: V, other: string)
    requires Distinct(Keys(d))
    ensures At(Put(d, key, value), key) == Some(value)
    ensures other != key ==> At(Put(d, key, value), other) == At(d, other)
  {
    var r := Put(d, key, value);
    var i: nat := if key in Keys(d) then IndexOfKey(d, key) else |d|;
    assert r[i] == (key, value);
    AtUnique(r, key);
    if other != key {
      AtUnique(r, other);
      AtUnique(d, other);
      if other in Keys(d) {
        var j := IndexOfKey(d, other);
        assert r[j] == d[j];
      }
    }
  }

  function IndexOfKey<V>(d: ODict<V>, key: string): (i: nat)
    requires key in Keys(d)
    ensures i < |d| && d[i].0 == key
  {
    if d[0].0 == key then 0
    else
      assert Keys(d[1..]) == Keys(d)[1..];
      1 + IndexOfKey(d[1..], key)
  }

  lemma AtUnique<V>(d: ODict<V>, key: string)
    requires Distinct(Keys(d))
    ensures forall i :: 0 <= i < |d| && d[i].0 == key ==> At(d, key) == Some(d[i].1)
  {
    forall i | 0 <= i < |d| && d[i].0 == key ensures At(d, key) == Some(d[i].1) {
      var j :| 0 <= j < |d| && d[j] == (key, At(d, key).value);
      assert Keys(d)[i] == Keys(d)[j];
    }
  }
}

=== FILE: discovery.dfy ===
/** Patient discovery of the batch pipeline: which sub-directories of the
    base directory are patients, and which of their files are the T2W and
    ADC images.

    A directory listing is given as data (`Entry`): each entry's name,
    whether it is a directory, and the names of its children in listing
    order. A glob `*<suffix>` matches the child names ending in the suffix;
    paths are built by joining with `/`. */
module Discovery {
  import opened Wrappers
  import opened PyStr
  import opened Context

  datatype Entry = Entry(name: string, isDir: bool, children: seq<string>)

  /** The (T2W, ADC) glob suffixes, in priority order. */
  const Patterns: seq<(string, string)> :=
    [("_t2w.nii.gz", "_adc.nii.gz"), ("_T2W.nii.gz", "_ADC.nii.gz"), ("t2.nii.gz", "adc.nii.gz")]

  /** The position of the first child name the glob `*<suffix>` lists, or
      the number of children when it lists none. */
  function FirstMatchIndex(names: seq<string>, suffix: string): (i: nat)
    ensures i <= |names|
    ensures i < |names| ==> EndsWith(names[i], suffix)
    ensures forall j :: 0 <= j < i ==> !EndsWith(names[j], suffix)
  {
    if |names| == 0 then 0
    else if EndsWith(names[0], suffix) then 0
    else
      assert forall j :: 1 <= j < |names| ==> names[j] == names[1..][j - 1];
      1 + FirstMatchIndex(names[1..], suffix)
  }

  /** The first child name the glob `*<suffix>` lists, if any. */
  function FirstMatch(names: seq<string>, suffix: string): (r: Option<string>)
    ensures r.None? <==> forall i :: 0 <= i < |names| ==> !EndsWith(names[i], suffix)
    ensures r.Some? ==> r.value in names && EndsWith(r.value, suffix)
  {
    var i := FirstMatchIndex(names, suffix);
    if i < |names| then Some(names[i]) else None
  }

  /** Both globs of a pattern list something. */
  predicate BothMatch(names: seq<string>, pattern: (string, string)) {
    FirstMatch(names, pattern.0).Some? && FirstMatch(names, pattern.1).Some?
  }

  /** The position of the first pattern whose two globs both list a file,
      or the number of patterns when there is none. */
  function FirstPatternIndex(names: seq<string>, patterns: seq<(string, string)>): (k: nat)
    ensures k <= |patterns|
    ensures k < |patterns| ==> BothMatch(names, patterns[k])
    ensures forall j :: 0 <= j < k ==> !BothMatch(names, patterns[j])
  {
    if |patterns| == 0 then 0
    else if BothMatch(names, patterns[0]) then 0
    else
      assert forall j :: 1 <= j < |patterns| ==> patterns[j] == patterns[1..][j - 1];
      1 + FirstPatternIndex(names, patterns[1..])
  }

  /** The pattern loop: the first pattern whose two globs both list a file
      wins, with the first file of each. */
  function FindPair(names: seq<string>, patterns: seq<(string, string)>): (r: Option<(string, string)>)
    ensures r.None? <==> forall k :: 0 <= k < |patterns| ==> !BothMatch(names, patterns[k])
    ensures r.Some? ==> (var k := FirstPatternIndex(names, patterns);
      k < |patterns| && r.value == (FirstMatch(names, patterns[k].0).value, FirstMatch(names, patterns[k].1).value))
  {
    var k := FirstPatternIndex(names, patterns);
    if k < |patterns| then Some((FirstMatch(names, patterns[k].0).value, FirstMatch(names, patterns[k].1).value))
    else None
  }

  /** The exact names `<id>_t2w.nii.gz` and `<id>_adc.nii.gz`. */
  function ExactT2w(id: string): string { id + "_t2w.nii.gz" }
  function ExactAdc(id: string): string { id + "_adc.nii.gz" }

  /** The (T2W, ADC) file names of a directory: the pattern loop, and only
      when it found nothing the exact names, if both exist. */
  function PatientFiles(e: Entry): Option<(string, string)> {
    var found := FindPair(e.children, Patterns);
    if found.Some? then found
    else if ExactT2w(e.name) in e.children && ExactAdc(e.name) in e.children then
      Some((ExactT2w(e.name), ExactAdc(e.name)))
    else None
  }

  /** The exact-name fallback never finds anything: the exact names are
      themselves listed by the first pattern's globs. */
  lemma ExactFallbackRedundant(e: Entry)
    ensures PatientFiles(e) == FindPair(e.children, Patterns)
  {
  }

  /** A listing entry is a patient: a directory, not hidden, with both
      images found. */
  predicate IsPatient(e: Entry) {
    e.isDir && !StartsWith(e.name, ".") && PatientFiles(e).Some?
  }

  /** The record of a patient directory under `base`. */
  function Info(base: string, e: Entry): (p: PatientInfo)
    requires PatientFiles(e).Some?
    ensures p.patientId == e.name && p.patientDir == base + "/" + e.name
  {
    var dir := base + "/" + e.name;
    var files := PatientFiles(e).value;
    PatientInfo(e.name, dir + "/" + files.0, dir + "/" + files.1, dir)
  }

  /** The discovery loop over the listing. */
  function Discover(base: string, listing: seq<Entry>): (r: seq<PatientInfo>)
    ensures |r| <= |listing|
  {
    if |listing| == 0 then []
    else (if IsPatient(listing[0]) then [Info(base, listing[0])] else []) + Discover(base, listing[1..])
  }

  /** A patient is found iff it is a listed directory that qualifies. */
  lemma {:induction false} DiscoverMembership(base: string, listing: seq<Entry>, p: PatientInfo)
    ensures p in Discover(base, listing) <==>
      exists i :: 0 <= i < |listing| && IsPatient(listing[i]) && p == Info(base, listing[i])
  {
    if |listing| > 0 {
      DiscoverMembership(base, listing[1..], p);
      assert forall i :: 1 <= i < |listing| ==> listing[i] == listing[1..][i - 1];
      if p in Discover(base, listing[1..]) {
        var i :| 0 <= i < |listing[1..]| && IsPatient(listing[1..][i]) && p == Info(base, listing[1..][i]);
        assert listing[i + 1] == listing[1..][i];
      }
    }
  }

  /** Hidden entries and plain files are never patients. */
  lemma DiscoverSkips(base: string, listing: seq<Entry>, p: PatientInfo)
    requires p in Discover(base, listing)
    ensures exists i :: (0 <= i < |listing| && listing[i].isDir && !StartsWith(listing[i].name, ".") &&
      p.patientId == listing[i].name)
  {
    DiscoverMembership(base, listing, p);
  }

  /** The patients found, in listing order, are the listed qualifying
      directories; distinct names give distinct patient ids. */
  lemma {:induction false} DiscoverDistinct(base: string, listing: seq<Entry>)
    requires forall i, j :: 0 <= i < j < |listing| ==> listing[i].name != listing[j].name
    ensures var r := Discover(base, listing);
      forall i, j :: 0 <= i < j < |r| ==> r[i].patientId != r[j].patientId
  {
    if |listing| > 0 {
      var rest := Discover(base, listing[1..]);
      DiscoverDistinct(base, listing[1..]);
      if IsPatient(listing[0]) {
        forall j | 0 <= j < |rest| ensures rest[j].patientId != listing[0].name {
          DiscoverMembership(base, listing[1..], rest[j]);
        }
      }
    }
  }

  /** `PatientDiscoveryStep.execute`: the patients under `base_directory`
      and their count. */
  function DiscoverPatients(listDir: string -> Result<seq<Entry>>, data: Data): (r: Result<Data>)
    ensures "base_directory" !in data ==> r == Err(KeyError("base_directory"))
    ensures r.Ok? <==>
      "base_directory" in data && data["base_directory"].VText? && listDir(data["base_directory"].s).Ok?
    ensures "base_directory" in data && data["base_directory"].VText? && listDir(data["base_directory"].s).Err? ==>
      r == Err(listDir(data["base_directory"].s).error)
    ensures r.Ok? ==> (
      "base_directory" in data && data["base_directory"].VText? &&
      var base := data["base_directory"].s;
      listDir(base).Ok? &&
      r.value == map["patients" := VPatients(Discover(base, listDir(base).value)),
                     "total_patients" := VInt(|Discover(base, listDir(base).value)|)])
  {
    var base :- Lookup(data, "base_directory");
    var path :- PathText(base);
    var listing :- listDir(path);
    var patients := Discover(path, listing);
    Ok(map["patients" := VPatients(patients), "total_patients" := VInt(|patients|)])
  }
}

=== FILE: elastix.dfy ===
/** The elastix registration engine: where the elastix and transformix
    executables are, the library path they run with, and one ADC-to-T2W
    registration as a sequence of tool runs.

    The file system and the tools are given as functions (`Tools`): whether
    a path exists, creating a directory, moving a file, and what running a
    command line yields. The platform is `platform.system().lower()`. */
module Elastix {
  import opened Wrappers
  import opened PyStr

  /** `Path(p).parent` on a `/`-separated path: everything before the last
      separator, `/` for a top-level path, `.` for a bare name. */
  function Parent(p: string): (r: string)
    ensures '/' !in p ==> r == "."
    ensures '/' in p && r != "/" ==> exists i :: 0 < i < |p| && p[i] == '/' && r == p[..i] && '/' !in p[i + 1..]
  {
    if '/' !in p then "."
    else
      var i := LastSlash(p);
      if i == 0 then "/" else p[..i]
  }

  /** The position of the last `/`. */
  function LastSlash(p: string): (i: nat)
    requires '/' in p
    ensures i < |p| && p[i] == '/' && '/' !in p[i + 1..]
  {
    if p[|p| - 1] == '/' then |p| - 1
    else
      assert p[..|p| - 1] + [p[|p| - 1]] == p;
      assert '/' in p[..|p| - 1];
      var i := LastSlash(p[..|p| - 1]);
      assert p[i + 1..] == p[..|p| - 1][i + 1..] + [p[|p| - 1]];
      i
  }

  /** The parent of `dir/name` is `dir`, for a name without a separator. */
  lemma ParentOfChild(dir: string, name: string)
    requires |dir| > 0 && '/' !in name
    ensures Parent(dir + "/" + name) == dir
  {
    var p := dir + "/" + name;
    assert p[|dir|] == '/';
    assert p[|dir| + 1..] == name;
    var i := LastSlash(p);
    assert p[..|dir|] == dir;
  }

  /** The installation directories tried, in order, on each platform. */
  function Candidates(platform: string, home: string): (r: seq<string>)
    ensures platform !in {"darwin", "linux", "windows"} ==> r == []
  {
    if platform == "darwin" then ["/usr/local/elastix", "/opt/elastix", home + "/elastix-5"]
    else if platform == "linux" then ["/usr/local/elastix", "/opt/elastix", "/usr/bin"]
    else if platform == "windows" then ["C:\\Program Files\\elastix", "C:\\elastix"]
    else []
  }

  /** The position of the first path that exists, or the number of paths. */
  function FirstExisting(paths: seq<string>, present: string -> bool): (i: nat)
    ensures i <= |paths|
    ensures i < |paths| ==> present(paths[i])
    ensures forall j :: 0 <= j < i ==> !present(paths[j])
  {
    if |paths| == 0 then 0
    else if present(paths[0]) then 0
    else
      assert forall j :: 1 <= j < |paths| ==> paths[j] == paths[1..][j - 1];
      1 + FirstExisting(paths[1..], present)
  }

  /** The elastix and transformix executables under an installation
      directory: `elastix.exe` and `transformix.exe` on Windows,
      `bin/elastix` and `bin/transformix` elsewhere. */
  function Executables(platform: string, base: string): (r: (string, string))
    ensures platform == "windows" ==> r == (base + "\\elastix.exe", base + "\\transformix.exe")
    ensures platform != "windows" ==> r == (base + "/bin/elastix", base + "/bin/transformix")
  {
    if platform == "windows" then (base + "\\elastix.exe", base + "\\transformix.exe")
    else (base + "/bin/elastix", base + "/bin/transformix")
  }

  /** `_setup_elastix_paths`: an explicit installation directory is used as
      given; otherwise the first platform candidate that exists, and none
      existing raises. */
  function SetupPaths(platform: string, installation: Option<string>, present: string -> bool, home: string)
    : (r: Result<(string, string)>)
    ensures installation.Some? && |installation.value| > 0 ==> r == Ok(Executables(platform, installation.value))
    ensures (installation.None? || installation.value == "") ==> (
      var cands := Candidates(platform, home);
      (r.Err? <==> forall j :: 0 <= j < |cands| ==> !present(cands[j])) &&
      (r.Err? ==> r.error == Error("RuntimeError", "Could not find elastix installation for " + platform)) &&
      (r.Ok? ==> exists j :: 0 <= j < |cands| && present(cands[j]) && r.value == Executables(platform, cands[j]) &&
                            forall k :: 0 <= k < j ==> !present(cands[k])))
  {
    if installation.Some? && |installation.value| > 0 then Ok(Executables(platform, installation.value))
    else
      var cands := Candidates(platform, home);
      var i := FirstExisting(cands, present);
      if i == |cands| then Err(Error("RuntimeError", "Could not find elastix installation for " + platform))
      else Ok(Executables(platform, cands[i]))
  }

  type Env = map<string, string>

  /** `_setup_environment`: on macOS and Linux the installation's `lib`
      directory (the grandparent of the elastix executable) is put in front
      of the dynamic library search path; elsewhere the environment is
      copied unchanged. */
  function SetupEnvironment(platform: string, elastix: string, env: Env): (r: Env)
    ensures platform !in {"darwin", "linux"} ==> r == env
    ensures platform in {"darwin", "linux"} ==> (
      var key := if platform == "darwin" then "DYLD_LIBRARY_PATH" else "LD_LIBRARY_PATH";
      r.Keys == env.Keys + {key} &&
      r[key] == Parent(Parent(elastix)) + "/lib:" + (if key in env then env[key] else "") &&
      forall k :: k in env && k != key ==> r[k] == env[k])
  {
    if platform == "darwin" || platform == "linux" then
      var key := if platform == "darwin" then "DYLD_LIBRARY_PATH" else "LD_LIBRARY_PATH";
      var previous := if key in env then env[key] else "";
      env[key := Parent(Parent(elastix)) + "/lib:" + previous]
    else env
  }

  /** With the standard layout, the library directory put on the search
      path is the installation's own `lib`. */
  lemma LibraryDirectory(platform: string, base: string, env: Env)
    requires platform in {"darwin", "linux"} && |base| > 0
    ensures var key := if platform == "darwin" then "DYLD_LIBRARY_PATH" else "LD_LIBRARY_PATH";
      var r := SetupEnvironment(platform, Executables(platform, base).0, env);
      r[key] == base + "/lib:" + (if key in env then env[key] else "")
  {
    assert base + "/bin/elastix" == (base + "/bin") + "/" + "elastix";
    ParentOfChild(base + "/bin", "elastix");
    assert base + "/bin" == base + "/" + "bin";
    ParentOfChild(base, "bin");
  }

  /** A located installation. */
  datatype Installation = Installation(platform: string, elastix: string, transformix: string,
                                       params: string, env: Env)

  /** What running a command yields: its exit code and output, a timeout,
      or an operating-system error that kept it from starting (a missing or
      non-executable program), with that error's text. */
  datatype Process = Exited(code: int, stdout: string, stderr: string) | TimedOut | NotStarted(message: string)

  datatype Tools = Tools(
    present: string -> bool,
    mkdir: string -> Option<Error>,
    move: (string, string) -> Option<Error>,
    run: seq<string> -> Process)

  /** A registration's record: the paths and tool logs of a success, or an
      error message and class (`subprocess_error` or `unexpected_error`). */
  datatype RegResult =
    | Registered(patientId: string, registeredAdc: string, transformParameters: string,
                 outputDirectory: string, elastixLog: string, transformixLog: string)
    | RegFailed(patientId: string, error: string, errorType: string)

  /** The record and the command lines run, in order. */
  datatype Registration = Registration(result: RegResult, commands: seq<seq<string>>)

  /** The elastix command: T2W fixed, ADC moving. */
  function ElastixCommand(inst: Installation, t2w: string, adc: string, out: string): (cmd: seq<string>)
    ensures |cmd| == 9 && cmd[0] == inst.elastix
  {
    [inst.elastix, "-f", t2w, "-m", adc, "-p", inst.params, "-out", out]
  }

  /** The transformix command: the ADC image resampled into its own
      directory with the transform elastix wrote. */
  function TransformixCommand(inst: Installation, adc: string, transform: string): (cmd: seq<string>)
    ensures |cmd| == 7 && cmd[0] == inst.transformix
  {
    [inst.transformix, "-in", adc, "-out", Parent(adc), "-tp", transform]
  }

  /** The value following the first occurrence of `flag`, as a command-line
      parser reads it. */
  function ArgOf(cmd: seq<string>, flag: string): (r: Option<string>)
    ensures r.Some? ==> exists i :: 0 <= i < |cmd| - 1 && cmd[i] == flag && cmd[i + 1] == r.value
    ensures (forall i :: 0 <= i < |cmd| ==> cmd[i] != flag) ==> r.None?
  {
    if |cmd| < 2 then None
    else if cmd[0] == flag then Some(cmd[1])
    else
      var r := ArgOf(cmd[1..], flag);
      assert forall i :: 1 <= i < |cmd| ==> cmd[i] == cmd[1..][i - 1];
      r
  }

  /** A path or value that cannot be mistaken for an option. */
  predicate Plain(s: string) {
    !StartsWith(s, "-")
  }

  /** The value read for `flag` is the one after its first occurrence. */
  lemma {:induction false} ArgAt(cmd: seq<string>, flag: string, i: nat)
    requires i + 1 < |cmd| && cmd[i] == flag
    requires forall j :: 0 <= j < i ==> cmd[j] != flag
    ensures ArgOf(cmd, flag) == Some(cmd[i + 1])
  {
    if i > 0 {
      assert forall j :: 0 <= j < i - 1 ==> cmd[1..][j] == cmd[j + 1];
      ArgAt(cmd[1..], flag, i - 1);
    }
  }

  /** Elastix reads the T2W image as the fixed image and the ADC image as
      the moving one, with the installation's parameter file, writing into
      the patient's directory. */
  lemma ElastixRoles(inst: Installation, t2w: string, adc: string, out: string)
    requires Plain(inst.elastix) && Plain(t2w) && Plain(adc) && Plain(inst.params)
    ensures var cmd := ElastixCommand(inst, t2w, adc, out);
      ArgOf(cmd, "-f") == Some(t2w) && ArgOf(cmd, "-m") == Some(adc) &&
      ArgOf(cmd, "-p") == Some(inst.params) && ArgOf(cmd, "-out") == Some(out)
  {
    NotPlain("-f");
    NotPlain("-m");
    NotPlain("-p");
    NotPlain("-out");
    Roles(ElastixCommand(inst, t2w, adc, out));
  }

  /** The option values of a nine-word command laid out as elastix's. */
  lemma Roles(cmd: seq<string>)
    requires |cmd| == 9 && cmd[1] == "-f" && cmd[3] == "-m" && cmd[5] == "-p" && cmd[7] == "-out"
    requires Plain(cmd[0]) && Plain(cmd[2]) && Plain(cmd[4]) && Plain(cmd[6])
    requires !Plain("-f") && !Plain("-m") && !Plain("-p") && !Plain("-out")
    ensures ArgOf(cmd, "-f") == Some(cmd[2]) && ArgOf(cmd, "-m") == Some(cmd[4])
    ensures ArgOf(cmd, "-p") == Some(cmd[6]) && ArgOf(cmd, "-out") == Some(cmd[8])
  {
    ArgAt(cmd, "-f", 1);
    ArgAt(cmd, "-m", 3);
    ArgAt(cmd, "-p", 5);
    ArgAt(cmd, "-out", 7);
  }

  lemma NotPlain(flag: string)
    requires |flag| > 0 && flag[0] == '-'
    ensures !Plain(flag)
  {
    assert flag[..1] == "-";
  }

  /** The text of an exception from a failing tool, as written: the tool's
      error output is passed as `CalledProcessError`'s third positional
      argument, which is `output`, so the `stderr` the message reads is
      always `None`. */
  function StderrAsWritten(p: Process): string {
    "None"
  }

  /** The text as intended: the tool's error output. */
  function StderrOf(p: Process): (s: string)
    ensures p.Exited? ==> s == p.stderr
  {
    if p.Exited? then p.stderr else ""
  }

  /** `register_adc_to_t2w`. The patient directory `<out>/<id>` is created
      outside the `try`, so its error escapes; then elastix runs, and only
      when it exits with 0 does transformix run; a non-zero exit gives a
      `subprocess_error` record, a timeout, a missing result file or a
      failed move an `unexpected_error` one, as does a tool that cannot be
      started. `asWritten` selects how a failing tool's error output is
      reported. */
  function Register(inst: Installation, tools: Tools, asWritten: bool, id: string, adc: string, t2w: string,
                    out: string): (r: Result<Registration>)
    ensures r.Err? <==> tools.mkdir(out + "/" + id).Some?
    ensures r.Ok? ==> r.value.result.patientId == id
    ensures r.Ok? ==> (
      var ec := ElastixCommand(inst, t2w, adc, out + "/" + id);
      var tc := TransformixCommand(inst, adc, out + "/" + id + "/TransformParameters.0.txt");
      var elastix := tools.run(ec);
      var elastixDone := elastix.Exited? && elastix.code == 0;
      (r.value.commands == [ec] <==> !elastixDone) &&
      (r.value.commands == [ec, tc] <==> elastixDone) &&
      (r.value.result.RegFailed? && r.value.result.errorType == "subprocess_error" <==>
        (elastix.Exited? && elastix.code != 0) ||
        (elastixDone && tools.run(tc).Exited? && tools.run(tc).code != 0)))
    ensures r.Ok? && r.value.result.RegFailed? ==>
      r.value.result.errorType in {"subprocess_error", "unexpected_error"}
    ensures r.Ok? && r.value.result.RegFailed? && r.value.result.errorType == "subprocess_error" ==> (
      var dir := out + "/" + id;
      var elastix := tools.run(ElastixCommand(inst, t2w, adc, dir));
      var failing := if elastix.Exited? && elastix.code != 0 then elastix
                     else tools.run(TransformixCommand(inst, adc, dir + "/TransformParameters.0.txt"));
      r.value.result.error == "Registration failed for " + id + ": " + (if asWritten then "None" else failing.stderr))
    ensures r.Ok? && !tools.run(ElastixCommand(inst, t2w, adc, out + "/" + id)).Exited? ==> (
      var elastix := tools.run(ElastixCommand(inst, t2w, adc, out + "/" + id));
      r.value.result == Unexpected(id, if elastix.TimedOut? then "Command timed out after 1800 seconds"
                                       else elastix.message))
    ensures r.Ok? ==> (
      var dir := out + "/" + id;
      var elastix := tools.run(ElastixCommand(inst, t2w, adc, dir));
      elastix.Exited? && elastix.code == 0 ==>
        r.value.result == Transformed(tools, asWritten, id, adc, dir, elastix.stdout,
                                      tools.run(TransformixCommand(inst, adc, dir + "/TransformParameters.0.txt"))))
    ensures r.Ok? && r.value.result.Registered? ==> (
      var dir := out + "/" + id;
      var elastix := tools.run(ElastixCommand(inst, t2w, adc, dir));
      var transformix := tools.run(TransformixCommand(inst, adc, dir + "/TransformParameters.0.txt"));
      elastix.Exited? && transformix.Exited? && tools.present(Parent(adc) + "/result.nii.gz") &&
      r.value.result == Registered(id, Parent(adc) + "/" + id + "_adc_reg.nii.gz",
                                   dir + "/TransformParameters.0.txt", dir, elastix.stdout, transformix.stdout))
  {
    var dir := out + "/" + id;
    if tools.mkdir(dir).Some? then Err(tools.mkdir(dir).value)
    else
      var transform := dir + "/TransformParameters.0.txt";
      var ec := ElastixCommand(inst, t2w, adc, dir);
      var tc := TransformixCommand(inst, adc, transform);
      Ok(match tools.run(ec)
        case TimedOut => Registration(Unexpected(id, "Command timed out after 1800 seconds"), [ec])
        case NotStarted(message) => Registration(Unexpected(id, message), [ec])
        case Exited(code, elastixLog, _) =>
          if code != 0 then Registration(SubprocessFailure(id, tools.run(ec), asWritten), [ec])
          else Registration(Transformed(tools, asWritten, id, adc, dir, elastixLog, tools.run(tc)), [ec, tc]))
  }

  /** A transformix that cannot be started, which the installation check
      never probes, gives an `unexpected_error` record carrying the
      operating system's error text, after elastix has run. */
  lemma TransformixNotStarted(inst: Installation, tools: Tools, asWritten: bool, id: string, adc: string,
                              t2w: string, out: string)
    requires tools.mkdir(out + "/" + id).None?
    requires tools.run(ElastixCommand(inst, t2w, adc, out + "/" + id)).Exited?
    requires tools.run(ElastixCommand(inst, t2w, adc, out + "/" + id)).code == 0
    requires tools.run(TransformixCommand(inst, adc, out + "/" + id + "/TransformParameters.0.txt")).NotStarted?
    ensures var ec := ElastixCommand(inst, t2w, adc, out + "/" + id);
      var tc := TransformixCommand(inst, adc, out + "/" + id + "/TransformParameters.0.txt");
      Register(inst, tools, asWritten, id, adc, t2w, out) ==
        Ok(Registration(RegFailed(id, "Unexpected error for " + id + ": " + tools.run(tc).message, "unexpected_error"),
                        [ec, tc]))
  {
  }

  /** An `unexpected_error` record. */
  function Unexpected(id: string, message: string): (r: RegResult)
    ensures r.RegFailed? && r.patientId == id && r.errorType == "unexpected_error"
    ensures r.error == "Unexpected error for " + id + ": " + message
  {
    RegFailed(id, "Unexpected error for " + id + ": " + message, "unexpected_error")
  }

  /** A `subprocess_error` record. */
  function SubprocessFailure(id: string, p: Process, asWritten: bool): (r: RegResult)
    ensures r.RegFailed? && r.patientId == id && r.errorType == "subprocess_error"
    ensures r.error == "Registration failed for " + id + ": " + (if asWritten then StderrAsWritten(p) else StderrOf(p))
  {
    RegFailed(id, "Registration failed for " + id + ": " + (if asWritten then StderrAsWritten(p) else StderrOf(p)),
              "subprocess_error")
  }

  /** What follows a successful elastix run: transformix, then moving
      `result.nii.gz` to `<id>_adc_reg.nii.gz` and the transformix log into
      the patient directory. */
  function Transformed(tools: Tools, asWritten: bool, id: string, adc: string, dir: string, elastixLog: string,
                       transformix: Process): (r: RegResult)
    ensures r.patientId == id
    ensures r.RegFailed? ==> r.errorType in {"subprocess_error", "unexpected_error"}
    ensures r.RegFailed? && r.errorType == "subprocess_error" <==> transformix.Exited? && transformix.code != 0
    ensures r.RegFailed? && r.errorType == "subprocess_error" ==>
      r.error == "Registration failed for " + id + ": " + (if asWritten then "None" else transformix.stderr)
    ensures transformix.NotStarted? ==> r == Unexpected(id, transformix.message)
    ensures transformix.Exited? && transformix.code == 0 && !tools.present(Parent(adc) + "/result.nii.gz") ==>
      r == Unexpected(id, "Registration result file not found for " + id)
    ensures r.Registered? <==>
      transformix.Exited? && transformix.code == 0 && tools.present(Parent(adc) + "/result.nii.gz") &&
      tools.move(Parent(adc) + "/result.nii.gz", Parent(adc) + "/" + id + "_adc_reg.nii.gz").None? &&
      (tools.present(Parent(adc) + "/transformix.log") ==>
        tools.move(Parent(adc) + "/transformix.log", dir + "/transformix.log").None?)
    ensures r.Registered? ==>
      transformix.Exited? && transformix.code == 0 && tools.present(Parent(adc) + "/result.nii.gz") &&
      r == Registered(id, Parent(adc) + "/" + id + "_adc_reg.nii.gz", dir + "/TransformParameters.0.txt", dir,
                      elastixLog, transformix.stdout)
  {
    match transformix
    case TimedOut => Unexpected(id, "Command timed out after 900 seconds")
    case NotStarted(message) => Unexpected(id, message)
    case Exited(code, transformixLog, _) =>
      if code != 0 then SubprocessFailure(id, transformix, asWritten)
      else
        var temp := Parent(adc) + "/result.nii.gz";
        var registered := Parent(adc) + "/" + id + "_adc_reg.nii.gz";
        var log := Parent(adc) + "/transformix.log";
        if !tools.present(temp) then Unexpected(id, "Registration result file not found for " + id)
        else if tools.move(temp, registered).Some? then Unexpected(id, tools.move(temp, registered).value.message)
        else if tools.present(log) && tools.move(log, dir + "/transformix.log").Some? then
          Unexpected(id, tools.move(log, dir + "/transformix.log").value.message)
        else Registered(id, registered, dir + "/TransformParameters.0.txt", dir, elastixLog, transformixLog)
  }

  /** As written, a failing tool's error output never reaches the record:
      two runs whose elastix fails with different messages give the same
      error. */
  lemma StderrLost(inst: Installation, tools: Tools, id: string, adc: string, t2w: string, out: string)
    requires tools.mkdir(out + "/" + id).None?
    requires tools.run(ElastixCommand(inst, t2w, adc, out + "/" + id)) == Exited(1, "", "Too many samples map outside moving image buffer")
    ensures Register(inst, tools, true, id, adc, t2w, out) ==
      Ok(Registration(RegFailed(id, "Registration failed for " + id + ": None", "subprocess_error"),
                      [ElastixCommand(inst, t2w, adc, out + "/" + id)]))
  {
    assert "Registration failed for " + id + ": " + StderrAsWritten(tools.run(ElastixCommand(inst, t2w, adc, out + "/" + id)))
        == "Registration failed for " + id + ": None";
  }

  /** As intended, the record of a failing tool carries its error output. */
  lemma StderrReported(inst: Installation, tools: Tools, id: string, adc: string, t2w: string, out: string)
    requires tools.mkdir(out + "/" + id).None?
    requires var p := tools.run(ElastixCommand(inst, t2w, adc, out + "/" + id)); p.Exited? && p.code != 0
    ensures var p := tools.run(ElastixCommand(inst, t2w, adc, out + "/" + id));
      Register(inst, tools, false, id, adc, t2w, out).value.result.error ==
        "Registration failed for " + id + ": " + p.stderr
  {
  }
}

=== FILE: elastix_batch.dfy ===
/** The elastix batch processor: every candidate directory under the base
    directory is one patient, whose exact-named ADC and T2W files are
    registered in listing order, and every patient ends successful or
    failed, with an error row for each failure. */
module ElastixBatch {
  import opened Wrappers
  import opened PyStr
  import opened Context
  import Discovery
  import opened Elastix

  /** A directory the processor treats as a patient: not named with a
      `._` prefix and not `.DS_Store`; other hidden directories count. */
  predicate Candidate(e: Discovery.Entry) {
    e.isDir && !StartsWith(e.name, "._") && e.name != ".DS_Store"
  }

  /** The candidate directories, in listing order. */
  function Candidates(listing: seq<Discovery.Entry>): (r: seq<Discovery.Entry>)
    ensures |r| <= |listing|
    ensures forall e :: e in r <==> e in listing && Candidate(e)
  {
    if |listing| == 0 then []
    else (if Candidate(listing[0]) then [listing[0]] else []) + Candidates(listing[1..])
  }

  /** What became of one patient. */
  datatype Classified =
    | Missing(message: string)
    | Reached(result: RegResult)
    | Escaped(error: Error)

  /** The patient ended in `successful`. */
  predicate Succeeded(c: Classified) {
    c.Reached? && c.result.Registered?
  }

  /** The message of a failed patient's error row. */
  function RowMessage(c: Classified): string {
    match c
    case Missing(message) => message
    case Reached(result) => if result.RegFailed? then result.error else "Unknown error"
    case Escaped(error) => error.message
  }

  /** One patient: the ADC file `<id>_adc.nii.gz` is looked for first, then
      the T2W file `<id>_t2w.nii.gz`; a missing one fails the patient
      without registering; otherwise the registration's record, or the
      error that escaped it. `asWritten` is passed on to the registration
      engine and selects how a failing tool's error output is reported. */
  function Classify(inst: Installation, tools: Tools, asWritten: bool, base: string, out: string, e: Discovery.Entry)
    : (c: Classified)
    ensures var dir := base + "/" + e.name;
      (e.name + "_adc.nii.gz" !in e.children ==> c == Missing("ADC file not found: " + dir + "/" + e.name + "_adc.nii.gz")) &&
      (e.name + "_adc.nii.gz" in e.children && e.name + "_t2w.nii.gz" !in e.children ==>
        c == Missing("T2W file not found: " + dir + "/" + e.name + "_t2w.nii.gz")) &&
      (e.name + "_adc.nii.gz" in e.children && e.name + "_t2w.nii.gz" in e.children ==>
        var reg := Register(inst, tools, asWritten, e.name, dir + "/" + e.name + "_adc.nii.gz",
                            dir + "/" + e.name + "_t2w.nii.gz", out);
        (c.Escaped? <==> reg.Err?) && (reg.Ok? ==> c == Reached(reg.value.result)))
  {
    var id := e.name;
    var dir := base + "/" + id;
    var adc := dir + "/" + id + "_adc.nii.gz";
    var t2w := dir + "/" + id + "_t2w.nii.gz";
    if id + "_adc.nii.gz" !in e.children then Missing("ADC file not found: " + adc)
    else if id + "_t2w.nii.gz" !in e.children then Missing("T2W file not found: " + t2w)
    else match Register(inst, tools, asWritten, id, adc, t2w, out)
      case Err(error) => Escaped(error)
      case Ok(reg) => Reached(reg.result)
  }

  /** The results of the loop: ids by outcome, the records of the patients
      that reached registration, and the error rows (without timestamps). */
  datatype Tally = Tally(successful: seq<string>, failed: seq<string>, detailed: ODict<RegResult>,
                         errorRows: seq<(string, string)>)

  /** No patient's error escaped. */
  predicate Contained(cs: seq<(string, Classified)>) {
    forall k :: 0 <= k < |cs| ==> !cs[k].1.Escaped?
  }

  /** The loop over the classified patients, in order. Each id goes to
      exactly one of `successful` and `failed`; each failure writes a row. */
  function Count(cs: seq<(string, Classified)>): (t: Tally)
    requires Contained(cs)
    ensures |t.successful| + |t.failed| == |cs|
    ensures |t.errorRows| == |t.failed| && forall k :: 0 <= k < |t.failed| ==> t.errorRows[k].0 == t.failed[k]
    ensures |t.detailed| <= |cs|
    decreases |cs|
  {
    if |cs| == 0 then Tally([], [], [], [])
    else
      var t := Count(cs[..|cs| - 1]);
      var (id, c) := cs[|cs| - 1];
      var detailed := if c.Reached? then Put(t.detailed, id, c.result) else t.detailed;
      if Succeeded(c) then t.(successful := t.successful + [id], detailed := detailed)
      else t.(failed := t.failed + [id], detailed := detailed, errorRows := t.errorRows + [(id, RowMessage(c))])
  }

  /** The ids whose outcome satisfies `keep`, in order. */
  function Select(cs: seq<(string, Classified)>, keep: Classified -> bool): (r: seq<string>)
    ensures |r| <= |cs|
  {
    if |cs| == 0 then []
    else (if keep(cs[0].1) then [cs[0].0] else []) + Select(cs[1..], keep)
  }

  lemma {:induction false} SelectAppend(a: seq<(string, Classified)>, b: seq<(string, Classified)>,
                                        keep: Classified -> bool)
    ensures Select(a + b, keep) == Select(a, keep) + Select(b, keep)
  {
    if |a| > 0 {
      assert (a + b)[1..] == a[1..] + b;
      SelectAppend(a[1..], b, keep);
    } else {
      assert a + b == b;
    }
  }

  /** `successful` holds the registered patients and `failed` all the
      others, each in listing order. */
  lemma {:induction false} CountPartition(cs: seq<(string, Classified)>)
    requires Contained(cs)
    ensures Count(cs).successful == Select(cs, c => Succeeded(c))
    ensures Count(cs).failed == Select(cs, c => !Succeeded(c))
    decreases |cs|
  {
    if |cs| > 0 {
      var init := cs[..|cs| - 1];
      assert cs == init + [cs[|cs| - 1]];
      CountPartition(init);
      SelectAppend(init, [cs[|cs| - 1]], c => Succeeded(c));
      SelectAppend(init, [cs[|cs| - 1]], c => !Succeeded(c));
    }
  }

  /** The records of the patients that reached registration, in order. */
  function Records(cs: seq<(string, Classified)>): (r: ODict<RegResult>)
    ensures |r| <= |cs|
  {
    if |cs| == 0 then []
    else (if cs[0].1.Reached? then [(cs[0].0, cs[0].1.result)] else []) + Records(cs[1..])
  }

  lemma {:induction false} RecordsAppend(a: seq<(string, Classified)>, b: seq<(string, Classified)>)
    ensures Records(a + b) == Records(a) + Records(b)
  {
    if |a| > 0 {
      assert (a + b)[1..] == a[1..] + b;
      RecordsAppend(a[1..], b);
    } else {
      assert a + b == b;
    }
  }

  /** An id no patient has is not recorded. */
  lemma {:induction false} RecordsWithout(cs: seq<(string, Classified)>, id: string)
    requires forall k :: 0 <= k < |cs| ==> cs[k].0 != id
    ensures id !in Keys(Records(cs))
  {
    if |cs| > 0 {
      assert forall k :: 0 <= k < |cs[1..]| ==> cs[1..][k] == cs[k + 1];
      RecordsWithout(cs[1..], id);
      assert Keys(Records(cs)) == (if cs[0].1.Reached? then [cs[0].0] else []) + Keys(Records(cs[1..]));
    }
  }

  /** Ids of a listing: directory names are distinct. */
  predicate DistinctIds(cs: seq<(string, Classified)>) {
    forall i, j :: 0 <= i < j < |cs| ==> cs[i].0 != cs[j].0
  }

  /** With distinct ids, `detailed_results` holds exactly the patients that
      reached registration, with their records, in order: a patient missing
      a file has no entry. */
  lemma {:induction false} CountDetailed(cs: seq<(string, Classified)>)
    requires Contained(cs) && DistinctIds(cs)
    ensures Count(cs).detailed == Records(cs)
    decreases |cs|
  {
    if |cs| > 0 {
      var init, last := cs[..|cs| - 1], cs[|cs| - 1];
      assert cs == init + [last];
      CountDetailed(init);
      RecordsAppend(init, [last]);
      assert forall k :: 0 <= k < |init| ==> init[k].0 != last.0 by {
        assert forall k :: 0 <= k < |init| ==> init[k] == cs[k];
      }
      RecordsWithout(init, last.0);
    }
  }

  /** The summary written after the loop. */
  datatype Summary = Summary(successRate: real, successfulCount: nat, failedCount: nat, errorLogPath: string)

  /** `PranavBatchProcessor.execute`'s result. */
  datatype Output = Output(totalPatients: nat, tally: Tally, summary: Summary)

  /** The position of the first patient whose error escaped, or the number
      of patients. */
  function FirstEscape(cs: seq<(string, Classified)>): (i: nat)
    ensures i <= |cs| && (i < |cs| ==> cs[i].1.Escaped?)
    ensures forall k :: 0 <= k < i ==> !cs[k].1.Escaped?
  {
    if |cs| == 0 then 0
    else if cs[0].1.Escaped? then 0
    else
      assert forall k :: 1 <= k < |cs| ==> cs[k] == cs[1..][k - 1];
      1 + FirstEscape(cs[1..])
  }

  /** Every candidate, classified. */
  function ClassifyAll(inst: Installation, tools: Tools, asWritten: bool, base: string, out: string,
                       dirs: seq<Discovery.Entry>): (cs: seq<(string, Classified)>)
    ensures |cs| == |dirs|
    ensures forall k :: 0 <= k < |dirs| ==> cs[k] == (dirs[k].name, Classify(inst, tools, asWritten, base, out, dirs[k]))
  {
    seq(|dirs|, k requires 0 <= k < |dirs| => (dirs[k].name, Classify(inst, tools, asWritten, base, out, dirs[k])))
  }

  /** `PranavBatchProcessor.execute`: the base and output directories are
      read, the candidates listed, the output directory created, and every
      candidate processed in order; an error escaping a registration ends
      the step. `asWritten` selects how a failing tool's error output is
      reported. */
  function Process(inst: Installation, tools: Tools, asWritten: bool, listDir: string -> Result<seq<Discovery.Entry>>,
                   data: Data)
    : (r: Result<Output>)
    ensures "base_directory" !in data ==> r == Err(KeyError("base_directory"))
    ensures r.Ok? <==> (
      "base_directory" in data && data["base_directory"].VText? &&
      "output_directory" in data && data["output_directory"].VText? &&
      var base, out := data["base_directory"].s, data["output_directory"].s;
      listDir(base).Ok? && tools.mkdir(out).None? &&
      var cs := ClassifyAll(inst, tools, asWritten, base, out, Candidates(listDir(base).value));
      FirstEscape(cs) == |cs|)
    ensures (
      "base_directory" in data && data["base_directory"].VText? &&
      "output_directory" in data && data["output_directory"].VText? &&
      var base, out := data["base_directory"].s, data["output_directory"].s;
      listDir(base).Ok? && tools.mkdir(out).None? &&
      var cs := ClassifyAll(inst, tools, asWritten, base, out, Candidates(listDir(base).value));
      FirstEscape(cs) < |cs|) ==> (
      var base, out := data["base_directory"].s, data["output_directory"].s;
      var cs := ClassifyAll(inst, tools, asWritten, base, out, Candidates(listDir(base).value));
      r == Err(cs[FirstEscape(cs)].1.error))
    ensures r.Ok? ==> (
      "base_directory" in data && data["base_directory"].VText? &&
      "output_directory" in data && data["output_directory"].VText? &&
      var base, out := data["base_directory"].s, data["output_directory"].s;
      listDir(base).Ok? && tools.mkdir(out).None? &&
      var dirs := Candidates(listDir(base).value);
      var cs := ClassifyAll(inst, tools, asWritten, base, out, dirs);
      Contained(cs) &&
      r.value.totalPatients == |dirs| && r.value.tally == Count(cs) &&
      r.value.summary == Summary(SuccessRate(|Count(cs).successful|, |dirs|), |Count(cs).successful|,
                                 |Count(cs).failed|, out + "/registration_errors.csv"))
  {
    var basev :- Lookup(data, "base_directory");
    var base :- PathText(basev);
    var outv :- Lookup(data, "output_directory");
    var out :- PathText(outv);
    var listing :- listDir(base);
    var dirs := Candidates(listing);
    if tools.mkdir(out).Some? then Err(tools.mkdir(out).value)
    else
      var cs := ClassifyAll(inst, tools, asWritten, base, out, dirs);
      var i := FirstEscape(cs);
      if i < |cs| then Err(cs[i].1.error)
      else
        var t := Count(cs);
        Ok(Output(|dirs|, t, Summary(SuccessRate(|t.successful|, |dirs|), |t.successful|, |t.failed|,
                                     out + "/registration_errors.csv")))
  }

  /** The summary's counts and rate agree with the lists, and every
      candidate is counted once. */
  lemma Accounts(inst: Installation, tools: Tools, asWritten: bool, listDir: string -> Result<seq<Discovery.Entry>>,
                 data: Data)
    requires Process(inst, tools, asWritten, listDir, data).Ok?
    ensures var o := Process(inst, tools, asWritten, listDir, data).value;
      o.summary.successfulCount == |o.tally.successful| && o.summary.failedCount == |o.tally.failed| &&
      o.summary.successfulCount + o.summary.failedCount == o.totalPatients &&
      (o.totalPatients == 0 ==> o.summary.successRate == 0.0) &&
      0.0 <= o.summary.successRate <= 1.0
  {
  }

  /** A record in which a `subprocess_error` reads `None` where the tool's
      error output belongs. */
  predicate HidesStderr(id: string, r: RegResult) {
    r.RegFailed? && r.errorType == "subprocess_error" ==> r.error == "Registration failed for " + id + ": None"
  }

  /** As written, a registered patient whose tool failed is recorded with
      `None` for the error output, in `detailed_results` and in the error
      row alike; as intended, both carry the tool's error output. */
  lemma ClassifyStderr(inst: Installation, tools: Tools, base: string, out: string, e: Discovery.Entry)
    requires e.name + "_adc.nii.gz" in e.children && e.name + "_t2w.nii.gz" in e.children
    requires tools.mkdir(out + "/" + e.name).None?
    requires var dir := base + "/" + e.name;
      var p := tools.run(ElastixCommand(inst, dir + "/" + e.name + "_t2w.nii.gz", dir + "/" + e.name + "_adc.nii.gz",
                                        out + "/" + e.name));
      p.Exited? && p.code != 0
    ensures var dir := base + "/" + e.name;
      var p := tools.run(ElastixCommand(inst, dir + "/" + e.name + "_t2w.nii.gz", dir + "/" + e.name + "_adc.nii.gz",
                                        out + "/" + e.name));
      var lost, kept := Classify(inst, tools, true, base, out, e), Classify(inst, tools, false, base, out, e);
      lost == Reached(RegFailed(e.name, "Registration failed for " + e.name + ": None", "subprocess_error")) &&
      RowMessage(lost) == "Registration failed for " + e.name + ": None" &&
      kept == Reached(RegFailed(e.name, "Registration failed for " + e.name + ": " + p.stderr, "subprocess_error")) &&
      RowMessage(kept) == "Registration failed for " + e.name + ": " + p.stderr
  {
  }

  /** The loop keeps every record as its classification gave it. */
  lemma {:induction false} CountHidesStderr(cs: seq<(string, Classified)>)
    requires Contained(cs)
    requires forall k :: 0 <= k < |cs| && cs[k].1.Reached? ==> HidesStderr(cs[k].0, cs[k].1.result)
    ensures forall k :: 0 <= k < |Count(cs).detailed| ==>
      HidesStderr(Count(cs).detailed[k].0, Count(cs).detailed[k].1)
    decreases |cs|
  {
    if |cs| > 0 {
      var init := cs[..|cs| - 1];
      assert forall k :: 0 <= k < |init| ==> init[k] == cs[k];
      CountHidesStderr(init);
    }
  }

  /** As written, no record in `detailed_results` of a whole batch carries
      a failing tool's error output: every `subprocess_error` reads `None`. */
  lemma ProcessHidesStderr(inst: Installation, tools: Tools, listDir: string -> Result<seq<Discovery.Entry>>, data: Data)
    requires Process(inst, tools, true, listDir, data).Ok?
    ensures var d := Process(inst, tools, true, listDir, data).value.tally.detailed;
      forall k :: 0 <= k < |d| ==> HidesStderr(d[k].0, d[k].1)
  {
    var base, out := data["base_directory"].s, data["output_directory"].s;
    var dirs := Candidates(listDir(base).value);
    var cs := ClassifyAll(inst, tools, true, base, out, dirs);
    forall k | 0 <= k < |cs| && cs[k].1.Reached? ensures HidesStderr(cs[k].0, cs[k].1.result) {
      assert cs[k].1 == Classify(inst, tools, true, base, out, dirs[k]);
    }
    CountHidesStderr(cs);
  }
}

=== FILE: engine.dfy ===
/** The generic pipeline engine: an ordered list of named steps run over a
    context map, with per-step failure isolation, an optional
    continue-on-error mode, cleanup after every started step, and a record
    of per-step outcomes and run metadata.

    A step is an opaque value of type `S`; what it does is given by a
    `Behaviour`: whether it accepts the current context, what running it
    yields (the step may change itself, e.g. by training a model), and
    whether its cleanup fails. Context values are of type `V`. */
module Engine {
  import opened Wrappers

  /** Step statuses (`pending`, `running`, `completed`, `failed`) and
      pipeline statuses (`initialized`, `running`, `completed`, `failed`). */
  datatype Status = Pending | Initialized | Running | Completed | Failed

  datatype Slot<S> = Slot(name: string, impl: S, status: Status, errorMessage: Option<string>)

  /** What running a step yields: a result dictionary (or `None`), or an
      exception. */
  datatype StepOutcome<V> = Returned(output: Option<map<string, V>>) | Raised(error: Error)

  datatype Behaviour<!S, !V> = Behaviour(
    validate: (S, map<string, V>) -> bool,
    execute: (S, map<string, V>) -> (S, StepOutcome<V>),
    cleanup: S -> Option<Error>)

  /** An entry of `results['step_results']`. */
  datatype StepRecord<V> = StepRecord(result: Option<map<string, V>>, success: bool, error: Option<string>)

  /** An entry of `metadata['steps_executed']`. */
  datatype Executed = Executed(name: string, index: nat)

  /** An entry of the pipeline's `errors` list. */
  datatype ErrorInfo = ErrorInfo(stepName: string, stepIndex: nat, error: string, errorType: string)

  /** Observable order of work: a step starts, then its cleanup runs
      (`failed` when the cleanup itself raised and was swallowed). */
  datatype Event = Start(index: nat) | Cleanup(index: nat, failed: bool)

  datatype Metadata = Metadata(pipelineName: string, stepsExecuted: seq<Executed>, status: Status, errors: seq<ErrorInfo>)

  datatype Results<V> = Results(input: map<string, V>, stepResults: map<string, StepRecord<V>>,
                                metadata: Metadata, error: Option<string>)

  datatype Pipeline<S, V> = Pipeline(name: string, slots: seq<Slot<S>>, results: Option<Results<V>>,
                                     status: Status, continueOnError: bool, errors: seq<ErrorInfo>)

  /** `BasePipeline(name)`: no steps, no errors, status `initialized`. */
  function NewPipeline<S, V>(name: string): (p: Pipeline<S, V>)
    ensures p.name == name && p.slots == [] && p.errors == [] && p.status == Initialized
    ensures !p.continueOnError && p.results == None
  {
    Pipeline(name, [], None, Initialized, false, [])
  }

  /** `add_step`: the step is appended, pending, after the existing ones. */
  function AddStep<S, V>(p: Pipeline<S, V>, name: string, impl: S): (r: Pipeline<S, V>)
    ensures |r.slots| == |p.slots| + 1 && r.slots[..|p.slots|] == p.slots
    ensures r.slots[|p.slots|] == Slot(name, impl, Pending, None)
    ensures r == p.(slots := r.slots)
  {
    p.(slots := p.slots + [Slot(name, impl, Pending, None)])
  }

  /** The names of a pipeline's steps, in order. */
  function Names<S>(slots: seq<Slot<S>>): (r: seq<string>)
    ensures |r| == |slots| && forall i :: 0 <= i < |slots| ==> r[i] == slots[i].name
  {
    seq(|slots|, i requires 0 <= i < |slots| => slots[i].name)
  }

  /** A step body that returns a dictionary or raises. */
  function FromResult<V>(r: Result<map<string, V>>): (o: StepOutcome<V>)
    ensures o.Returned? <==> r.Ok?
    ensures r.Ok? ==> o.output == Some(r.value)
    ensures r.Err? ==> o.error == r.error
  {
    if r.Ok? then Returned(Some(r.value)) else Raised(r.error)
  }

  /** The dictionary a step outcome merges into the context, if any. */
  function Output<V>(o: StepOutcome<V>): Option<map<string, V>> {
    if o.Returned? then o.output else None
  }

  /** A Python dict is truthy iff it is not `None` and not empty. */
  predicate Truthy<V>(out: Option<map<string, V>>) {
    out.Some? && |out.value| > 0
  }

  /** `current_data.update(step_result)` when the result is truthy. */
  function Merge<V>(ctx: map<string, V>, out: Option<map<string, V>>): (r: map<string, V>)
    ensures !Truthy(out) ==> r == ctx
    ensures Truthy(out) ==> r.Keys == ctx.Keys + out.value.Keys
    ensures Truthy(out) ==> forall k :: k in out.value ==> r[k] == out.value[k]
    ensures forall k :: k in ctx && (out.None? || k !in out.value) ==> k in r && r[k] == ctx[k]
  {
    if Truthy(out) then ctx + out.value else ctx
  }

  /** The message `validate_inputs` failure raises. */
  function ValidationError(name: string): Error {
    ValueError("Input validation failed for step: " + name)
  }

  /** One attempt of a step: validation, then execution. */
  function Attempt<S, V>(b: Behaviour<S, V>, slot: Slot<S>, ctx: map<string, V>): (r: (S, StepOutcome<V>))
    ensures !b.validate(slot.impl, ctx) ==> r == (slot.impl, Raised(ValidationError(slot.name)))
    ensures b.validate(slot.impl, ctx) ==> r == b.execute(slot.impl, ctx)
  {
    if !b.validate(slot.impl, ctx) then (slot.impl, Raised(ValidationError(slot.name)))
    else b.execute(slot.impl, ctx)
  }

  /** A rejected validation is handled exactly as if the step had raised
      the validation error itself. */
  lemma ValidationIsRaise<S, V>(b: Behaviour<S, V>, slot: Slot<S>, ctx: map<string, V>)
    requires !b.validate(slot.impl, ctx)
    ensures var raising := Behaviour((s: S, c: map<string, V>) => true,
                                     (s: S, c: map<string, V>) => (s, Raised(ValidationError(slot.name))),
                                     b.cleanup);
      Attempt(b, slot, ctx) == Attempt(raising, slot, ctx)
  {
  }

  /** The state threaded through the step loop. `started` counts the steps
      begun so far; `raised` holds the exception that ends the run. */
  datatype RunState<S, V> = RunState(
    slots: seq<Slot<S>>, ctx: map<string, V>, stepResults: map<string, StepRecord<V>>,
    executed: seq<Executed>, errors: seq<ErrorInfo>, trace: seq<Event>,
    started: nat, raised: Option<Error>)

  /** Runs step `i`: validate, execute, record the outcome, clean up. */
  function RunStep<S, V>(b: Behaviour<S, V>, st: RunState<S, V>): (r: RunState<S, V>)
    requires st.started < |st.slots| && st.raised.None?
    ensures r.started == st.started + 1 && |r.slots| == |st.slots|
    ensures forall j :: 0 <= j < |st.slots| && j != st.started ==> r.slots[j] == st.slots[j]
    ensures r.slots[st.started].name == st.slots[st.started].name
    ensures r.slots[st.started].status == Completed || r.slots[st.started].status == Failed
    ensures r.raised.Some? <==> r.slots[st.started].status == Failed
    ensures r.trace == st.trace + [Start(st.started), Cleanup(st.started, b.cleanup(r.slots[st.started].impl).Some?)]
    ensures r.slots[st.started].status == Completed ==>
      r.executed == st.executed + [Executed(st.slots[st.started].name, st.started)] && r.errors == st.errors
    ensures r.slots[st.started].status == Failed ==>
      r.executed == st.executed && |r.errors| == |st.errors| + 1 && r.errors[..|st.errors|] == st.errors &&
      r.raised.Some? && r.ctx == st.ctx &&
      r.slots[st.started].errorMessage == Some(r.raised.value.message) &&
      r.errors[|st.errors|] == ErrorInfo(st.slots[st.started].name, st.started, r.raised.value.message, r.raised.value.kind) &&
      r.stepResults == st.stepResults[st.slots[st.started].name := StepRecord(None, false, Some(r.raised.value.message))]
    ensures var a := Attempt(b, st.slots[st.started], st.ctx);
      r.slots[st.started].impl == a.0 &&
      (r.slots[st.started].status == Completed <==> a.1.Returned?) &&
      (a.1.Raised? ==> r.raised == Some(a.1.error)) &&
      (a.1.Returned? ==>
        r.ctx == Merge(st.ctx, a.1.output) &&
        r.stepResults == st.stepResults[st.slots[st.started].name := StepRecord(a.1.output, true, None)])
  {
    var i := st.started;
    var slot := st.slots[i];
    var (impl, outcome) := Attempt(b, slot, st.ctx);
    var trace := st.trace + [Start(i), Cleanup(i, b.cleanup(impl).Some?)];
    match outcome
    case Returned(out) =>
      st.(slots := st.slots[i := Slot(slot.name, impl, Completed, slot.errorMessage)],
          ctx := Merge(st.ctx, out),
          stepResults := st.stepResults[slot.name := StepRecord(out, true, None)],
          executed := st.executed + [Executed(slot.name, i)],
          trace := trace, started := i + 1)
    case Raised(e) =>
      st.(slots := st.slots[i := Slot(slot.name, impl, Failed, Some(e.message))],
          stepResults := st.stepResults[slot.name := StepRecord(None, false, Some(e.message))],
          errors := st.errors + [ErrorInfo(slot.name, i, e.message, e.kind)],
          trace := trace, started := i + 1, raised := Some(e))
  }

  /** The trace of steps `lo` to `hi - 1` run one after another, each
      started and then cleaned up before the next starts. */
  predicate InOrder(events: seq<Event>, lo: nat, hi: nat)
    decreases hi - lo
  {
    lo <= hi &&
    if lo == hi then events == []
    else |events| >= 2 && events[0] == Start(lo) && events[1].Cleanup? && events[1].index == lo &&
         InOrder(events[2..], lo + 1, hi)
  }

  /** The loop over the remaining steps. Without continue-on-error the first
      failure ends it, with the exception kept in `raised`; with it every
      step runs and `raised` stays empty. */
  function RunFrom<S, V>(b: Behaviour<S, V>, coe: bool, st: RunState<S, V>): (r: RunState<S, V>)
    requires st.started <= |st.slots| && st.raised.None?
    ensures |r.slots| == |st.slots| && st.started <= r.started <= |st.slots|
    ensures r.raised.None? ==> r.started == |st.slots|
    ensures r.raised.Some? ==> !coe && r.started > st.started
    decreases |st.slots| - st.started
  {
    if st.started == |st.slots| then st
    else
      var next := RunStep(b, st);
      if next.raised.Some? && !coe then next
      else RunFrom(b, coe, next.(raised := None))
  }

  /** `all` is `pre` followed by the in-order run of steps `lo` to `hi - 1`. */
  predicate Extends(pre: seq<Event>, all: seq<Event>, lo: nat, hi: nat) {
    |all| >= |pre| && all[..|pre|] == pre && InOrder(all[|pre|..], lo, hi)
  }

  /** Steps are started in list order, each once, and each one's cleanup
      runs before the next step starts. */
  lemma {:induction false} RunFromInOrder<S, V>(b: Behaviour<S, V>, coe: bool, st: RunState<S, V>)
    requires st.started <= |st.slots| && st.raised.None?
    ensures Extends(st.trace, RunFrom(b, coe, st).trace, st.started, RunFrom(b, coe, st).started)
    decreases |st.slots| - st.started, 1
  {
    if st.started == |st.slots| {
      assert st.trace[|st.trace|..] == [];
    } else {
      var next := RunStep(b, st);
      var failed := b.cleanup(next.slots[st.started].impl).Some?;
      assert next.trace == st.trace + [Start(st.started), Cleanup(st.started, failed)];
      if next.raised.Some? && !coe {
        assert next == RunFrom(b, coe, st);
        assert next.trace[|next.trace|..] == [];
        TraceExtends(st.trace, next.trace, next.trace, st.started, st.started + 1, failed);
      } else {
        var n := next.(raised := None);
        assert RunFrom(b, coe, n) == RunFrom(b, coe, st);
        RunFromInOrderNext(b, coe, st, n, failed);
      }
    }
  }

  /** The step case of `RunFromInOrder` when the loop goes on from `n`. */
  lemma {:induction false} RunFromInOrderNext<S, V>(b: Behaviour<S, V>, coe: bool, st: RunState<S, V>,
                                                   n: RunState<S, V>, failed: bool)
    requires st.started < |st.slots| && st.raised.None?
    requires n.started == st.started + 1 && |n.slots| == |st.slots| && n.raised.None?
    requires n.trace == st.trace + [Start(st.started), Cleanup(st.started, failed)]
    requires RunFrom(b, coe, n) == RunFrom(b, coe, st)
    ensures Extends(st.trace, RunFrom(b, coe, st).trace, st.started, RunFrom(b, coe, st).started)
    decreases |st.slots| - st.started, 0
  {
    var r := RunFrom(b, coe, n);
    RunFromInOrder(b, coe, n);
    TraceExtends(st.trace, n.trace, r.trace, st.started, r.started, failed);
  }

  /** One started-and-cleaned-up step followed by an in-order run is an
      in-order run. */
  lemma TraceExtends(pre: seq<Event>, mid: seq<Event>, all: seq<Event>, i: nat, hi: nat, failed: bool)
    requires mid == pre + [Start(i), Cleanup(i, failed)]
    requires Extends(mid, all, i + 1, hi)
    ensures Extends(pre, all, i, hi)
  {
    var events := all[|pre|..];
    assert events[2..] == all[|mid|..];
    assert events[0] == mid[|pre|] && events[1] == mid[|pre| + 1];
    assert all[..|pre|] == mid[..|pre|];
  }

  /** Only the started steps change, each ending `completed` or `failed`;
      names never change. */
  lemma {:induction false} RunFromSlots<S, V>(b: Behaviour<S, V>, coe: bool, st: RunState<S, V>)
    requires st.started <= |st.slots| && st.raised.None?
    ensures var r := RunFrom(b, coe, st);
      (forall j :: 0 <= j < |st.slots| ==> r.slots[j].name == st.slots[j].name) &&
      (forall j :: 0 <= j < st.started || r.started <= j < |st.slots| ==> r.slots[j] == st.slots[j]) &&
      (forall j :: st.started <= j < r.started ==> r.slots[j].status in {Completed, Failed})
    decreases |st.slots| - st.started
  {
    if st.started < |st.slots| {
      var next := RunStep(b, st);
      if !(next.raised.Some? && !coe) {
        RunFromSlots(b, coe, next.(raised := None));
      }
    }
  }

  /** The loop never touches a step it has already passed. */
  lemma {:induction false} RunFromKeeps<S, V>(b: Behaviour<S, V>, coe: bool, st: RunState<S, V>, i: nat)
    requires st.started <= |st.slots| && st.raised.None? && i < st.started
    ensures RunFrom(b, coe, st).slots[i] == st.slots[i]
    decreases |st.slots| - st.started
  {
    if st.started < |st.slots| {
      var next := RunStep(b, st);
      if !(next.raised.Some? && !coe) {
        RunFromKeeps(b, coe, next.(raised := None), i);
      }
    }
  }

  /** A run state that raised stopped at a failed step, after completing
      every step from `from` on. */
  predicate StoppedAtFailure<S, V>(r: RunState<S, V>, from: nat) {
    r.raised.Some? ==>
      (0 < r.started <= |r.slots| && r.slots[r.started - 1].status == Failed &&
       forall j :: from <= j < r.started - 1 ==> r.slots[j].status == Completed)
  }

  /** Without continue-on-error, a run that raises stops at a failed step
      after completing every step before it. */
  lemma {:induction false} RunFromFailedLast<S, V>(b: Behaviour<S, V>, st: RunState<S, V>)
    requires st.started <= |st.slots| && st.raised.None?
    ensures StoppedAtFailure(RunFrom(b, false, st), st.started)
    decreases |st.slots| - st.started, 1
  {
    if st.started < |st.slots| {
      if RunStep(b, st).raised.None? {
        RunFromFailedLastNext(b, st);
      } else {
        assert RunFrom(b, false, st) == RunStep(b, st);
      }
    }
  }

  /** The step case of `RunFromFailedLast` when the current step completes. */
  lemma {:induction false} RunFromFailedLastNext<S, V>(b: Behaviour<S, V>, st: RunState<S, V>)
    requires st.started < |st.slots| && st.raised.None? && RunStep(b, st).raised.None?
    ensures StoppedAtFailure(RunFrom(b, false, st), st.started)
    decreases |st.slots| - st.started, 0
  {
    var next := RunStep(b, st);
    var r := RunFrom(b, false, next);
    assert r == RunFrom(b, false, st);
    RunFromFailedLast(b, next);
    RunFromKeeps(b, false, next, st.started);
    CompletedThenStopped(r, st.started);
  }

  /** A completed step just before a run that stopped at a failure extends
      that run's completed steps back by one. */
  lemma CompletedThenStopped<S, V>(r: RunState<S, V>, i: nat)
    requires StoppedAtFailure(r, i + 1)
    requires i < |r.slots| && r.slots[i].status == Completed
    requires r.raised.Some? ==> i + 1 < r.started
    ensures StoppedAtFailure(r, i)
  {
  }

  /** Without continue-on-error, a run that does not raise completed every
      remaining step. */
  lemma {:induction false} RunFromAllCompleted<S, V>(b: Behaviour<S, V>, st: RunState<S, V>)
    requires st.started <= |st.slots| && st.raised.None?
    ensures var r := RunFrom(b, false, st);
      r.raised.None? ==> (r.started == |st.slots| &&
        forall j :: st.started <= j < |st.slots| ==> r.slots[j].status == Completed)
    decreases |st.slots| - st.started
  {
    if st.started < |st.slots| {
      var i := st.started;
      var next := RunStep(b, st);
      if next.raised.None? {
        var r := RunFrom(b, false, next);
        assert RunFrom(b, false, st) == r;
        RunFromAllCompleted(b, next);
        RunFromSlots(b, false, next);
        assert next.slots[i].status == Completed;
        assert r.slots[i] == next.slots[i];
      }
    }
  }

  /** Without continue-on-error, the run stops at the first failed step: all
      steps before it completed and none after it started. Without a
      failure, every step runs. */
  lemma RunFromStopsAtFailure<S, V>(b: Behaviour<S, V>, st: RunState<S, V>)
    requires st.started <= |st.slots| && st.raised.None?
    ensures var r := RunFrom(b, false, st);
      (r.raised.Some? ==> (r.slots[r.started - 1].status == Failed &&
         forall j :: st.started <= j < r.started - 1 ==> r.slots[j].status == Completed)) &&
      (r.raised.None? ==> (r.started == |st.slots| &&
         forall j :: st.started <= j < |st.slots| ==> r.slots[j].status == Completed))
  {
    RunFromFailedLast(b, st);
    RunFromAllCompleted(b, st);
  }

  /** A sequence that extends `pre` splits, from any point inside `pre`,
      into the rest of `pre` followed by its own extension. */
  lemma SuffixAfterPrefix<T>(a: seq<T>, pre: seq<T>, p: nat)
    requires |pre| <= |a| && a[..|pre|] == pre && p <= |pre|
    ensures a[p..] == pre[p..] + a[|pre|..]
  {
    assert a == pre + a[|pre|..];
  }

  /** The loop only appends to `executed` and `errors`. */
  lemma {:induction false} RunFromPrefixes<S, V>(b: Behaviour<S, V>, coe: bool, st: RunState<S, V>)
    requires st.started <= |st.slots| && st.raised.None?
    ensures var r := RunFrom(b, coe, st);
      |r.executed| >= |st.executed| && r.executed[..|st.executed|] == st.executed &&
      |r.errors| >= |st.errors| && r.errors[..|st.errors|] == st.errors
    decreases |st.slots| - st.started
  {
    if st.started < |st.slots| {
      var next := RunStep(b, st);
      if !(next.raised.Some? && !coe) {
        var n := next.(raised := None);
        RunFromPrefixes(b, coe, n);
        var r := RunFrom(b, coe, n);
        assert r.executed[..|st.executed|] == r.executed[..|next.executed|][..|st.executed|];
        assert r.errors[..|st.errors|] == r.errors[..|next.errors|][..|st.errors|];
      }
    }
  }

  /** The successful steps are listed in `executed` in order with their
      indices, the failed ones in `errors`; earlier entries are kept. */
  lemma {:induction false} RunFromAccounting<S, V>(b: Behaviour<S, V>, coe: bool, st: RunState<S, V>)
    requires st.started <= |st.slots| && st.raised.None?
    ensures var r := RunFrom(b, coe, st);
      |r.executed| >= |st.executed| && r.executed[..|st.executed|] == st.executed &&
      |r.errors| >= |st.errors| && r.errors[..|st.errors|] == st.errors &&
      r.executed[|st.executed|..] == Successes(r.slots, st.started, r.started) &&
      |r.errors| - |st.errors| == (r.started - st.started) - |r.executed[|st.executed|..]|
    decreases |st.slots| - st.started
  {
    RunFromPrefixes(b, coe, st);
    var r := RunFrom(b, coe, st);
    var i := st.started;
    if i < |st.slots| {
      var next := RunStep(b, st);
      if next.raised.Some? && !coe {
        assert r == next;
        assert Successes(r.slots, i, i + 1) == [];
      } else {
        var n := next.(raised := None);
        assert r == RunFrom(b, coe, n);
        RunFromAccounting(b, coe, n);
        RunFromSlots(b, coe, n);
        assert r.slots[i] == next.slots[i];
        SuffixAfterPrefix(r.executed, next.executed, |st.executed|);
        if next.slots[i].status == Completed {
          assert next.executed[|st.executed|..] == [Executed(r.slots[i].name, i)];
        } else {
          assert next.executed[|st.executed|..] == [];
        }
      }
    }
  }

  /** `Executed(name, j)` for each completed step `j` in `[lo, hi)`, in
      order. */
  function Successes<S>(slots: seq<Slot<S>>, lo: nat, hi: nat): (r: seq<Executed>)
    requires lo <= hi <= |slots|
    ensures |r| <= hi - lo
    ensures forall k :: 0 <= k < |r| ==> (lo <= r[k].index < hi && slots[r[k].index].status == Completed)
    decreases hi - lo
  {
    if lo == hi then []
    else (if slots[lo].status == Completed then [Executed(slots[lo].name, lo)] else [])
         + Successes(slots, lo + 1, hi)
  }

  /** The steps' observable results after one `execute`. */
  datatype Execution<S, V> = Execution(pipeline: Pipeline<S, V>, outcome: Result<Results<V>>,
                                       context: map<string, V>, trace: seq<Event>)

  /** `execute(input_data, continue_on_error)`. The returned results (and the
      pipeline's stored copy) hold the input, the per-step records, the
      successful steps, the final status and the accumulated error list;
      when a failure ends the run its exception is re-raised and also
      recorded under `error`. */
  function Execute<S, V>(p: Pipeline<S, V>, b: Behaviour<S, V>, input: map<string, V>, coe: bool): (x: Execution<S, V>)
    ensures x.pipeline.name == p.name && x.pipeline.continueOnError == coe
    ensures x.pipeline.results.Some? && x.pipeline.results.value.input == input
    ensures x.outcome.Ok? ==> x.outcome.value == x.pipeline.results.value
    ensures x.outcome.Ok? <==> x.pipeline.status == Completed
    ensures x.outcome.Err? <==> x.pipeline.status == Failed
    ensures x.pipeline.results.value.metadata.status == x.pipeline.status
    ensures x.pipeline.results.value.metadata.errors == x.pipeline.errors
    ensures x.outcome.Err? ==> x.pipeline.results.value.error == Some(x.outcome.error.message)
    ensures x.outcome.Ok? ==> x.pipeline.results.value.error == None
    ensures coe ==> x.outcome.Ok?
  {
    var r := RunFrom(b, coe, RunState(p.slots, input, map[], [], [], [], 0, None));
    var status := if r.raised.Some? then Failed else Completed;
    var errors := p.errors + r.errors;
    var results := Results(input, r.stepResults, Metadata(p.name, r.executed, status, errors),
                           if r.raised.Some? then Some(r.raised.value.message) else None);
    var pipeline := p.(slots := r.slots, results := Some(results), status := status,
                       continueOnError := coe, errors := errors);
    Execution(pipeline, if r.raised.Some? then Err(r.raised.value) else Ok(results), r.ctx, r.trace)
  }

  /** The run of `Execute`, for stating properties of its loop. */
  function Loop<S, V>(p: Pipeline<S, V>, b: Behaviour<S, V>, input: map<string, V>, coe: bool): (r: RunState<S, V>)
    ensures r.started <= |p.slots| && |r.slots| == |p.slots|
    ensures Execute(p, b, input, coe).trace == r.trace
  {
    RunFrom(b, coe, RunState(p.slots, input, map[], [], [], [], 0, None))
  }

  /** Every started step is started once, in list order, and cleaned up
      before the next one starts; without a failure that ends the run, all
      steps are started. */
  lemma ExecuteInOrder<S, V>(p: Pipeline<S, V>, b: Behaviour<S, V>, input: map<string, V>, coe: bool)
    ensures var r := Loop(p, b, input, coe);
      InOrder(Execute(p, b, input, coe).trace, 0, r.started) &&
      (Execute(p, b, input, coe).outcome.Ok? ==> r.started == |p.slots|)
  {
    var st := RunState(p.slots, input, map[], [], [], [], 0, None);
    RunFromInOrder(b, coe, st);
    assert RunFrom(b, coe, st).trace[|st.trace|..] == RunFrom(b, coe, st).trace;
  }

  /** Without continue-on-error, a run that raises stopped at its first
      failed step: every earlier step completed, no later step started or
      changed, exactly one error was appended, and the exception raised is
      the one that step raised. A run that does not raise completed every
      step. */
  lemma ExecuteStopsAtFirstFailure<S, V>(p: Pipeline<S, V>, b: Behaviour<S, V>, input: map<string, V>)
    ensures var x, r := Execute(p, b, input, false), Loop(p, b, input, false);
      (x.outcome.Err? ==>
         r.started > 0 && x.pipeline.slots[r.started - 1].status == Failed &&
         x.pipeline.slots[r.started - 1].errorMessage == Some(x.outcome.error.message) &&
         (forall j :: 0 <= j < r.started - 1 ==> x.pipeline.slots[j].status == Completed) &&
         (forall j :: r.started <= j < |p.slots| ==> x.pipeline.slots[j] == p.slots[j]) &&
         |x.pipeline.errors| == |p.errors| + 1 &&
         x.pipeline.errors[|p.errors|].stepIndex == r.started - 1 &&
         x.pipeline.errors[|p.errors|].error == x.outcome.error.message &&
         x.pipeline.errors[|p.errors|].errorType == x.outcome.error.kind) &&
      (x.outcome.Ok? ==>
         forall j :: 0 <= j < |p.slots| ==> x.pipeline.slots[j].status == Completed)
  {
    if Execute(p, b, input, false).outcome.Err? {
      ExecuteFailure(p, b, input);
    } else {
      ExecuteCompletesAll(p, b, input);
    }
  }

  /** The pipeline fields `execute` derives from its loop. */
  lemma ExecuteFields<S, V>(p: Pipeline<S, V>, b: Behaviour<S, V>, input: map<string, V>, coe: bool)
    ensures var x, r := Execute(p, b, input, coe), Loop(p, b, input, coe);
      x.pipeline.slots == r.slots && x.pipeline.errors == p.errors + r.errors &&
      (x.outcome.Err? <==> r.raised.Some?) && (x.outcome.Err? ==> x.outcome.error == r.raised.value)
  {
  }

  /** The failure half of `ExecuteStopsAtFirstFailure`. */
  lemma ExecuteFailure<S, V>(p: Pipeline<S, V>, b: Behaviour<S, V>, input: map<string, V>)
    requires Execute(p, b, input, false).outcome.Err?
    ensures var x, r := Execute(p, b, input, false), Loop(p, b, input, false);
      r.started > 0 && x.pipeline.slots[r.started - 1].status == Failed &&
      x.pipeline.slots[r.started - 1].errorMessage == Some(x.outcome.error.message) &&
      (forall j :: 0 <= j < r.started - 1 ==> x.pipeline.slots[j].status == Completed) &&
      (forall j :: r.started <= j < |p.slots| ==> x.pipeline.slots[j] == p.slots[j]) &&
      |x.pipeline.errors| == |p.errors| + 1 &&
      x.pipeline.errors[|p.errors|].stepIndex == r.started - 1 &&
      x.pipeline.errors[|p.errors|].error == x.outcome.error.message &&
      x.pipeline.errors[|p.errors|].errorType == x.outcome.error.kind
  {
    var st := RunState(p.slots, input, map[], [], [], [], 0, None);
    ExecuteFields(p, b, input, false);
    RunFromFailedLast(b, st);
    RunFromSlots(b, false, st);
    RunFromFailureRecord(b, st);
  }

  /** The success half of `ExecuteStopsAtFirstFailure`. */
  lemma ExecuteCompletesAll<S, V>(p: Pipeline<S, V>, b: Behaviour<S, V>, input: map<string, V>)
    requires Execute(p, b, input, false).outcome.Ok?
    ensures forall j :: 0 <= j < |p.slots| ==> Execute(p, b, input, false).pipeline.slots[j].status == Completed
  {
    var st := RunState(p.slots, input, map[], [], [], [], 0, None);
    ExecuteFields(p, b, input, false);
    RunFromAllCompleted(b, st);
  }


  /** The step that raised carries the exception's message. */
  lemma {:induction false} RunFromFailureMessage<S, V>(b: Behaviour<S, V>, st: RunState<S, V>)
    requires st.started <= |st.slots| && st.raised.None?
    ensures var r := RunFrom(b, false, st);
      r.raised.Some? ==> r.slots[r.started - 1].errorMessage == Some(r.raised.value.message)
    decreases |st.slots| - st.started
  {
    if st.started < |st.slots| {
      var next := RunStep(b, st);
      if next.raised.None? {
        assert RunFrom(b, false, st) == RunFrom(b, false, next);
        RunFromFailureMessage(b, next);
      } else {
        assert RunFrom(b, false, st) == next;
        assert next.slots[st.started].status == Failed;
      }
    }
  }

  /** A run that raises appends exactly one error, describing the step that
      raised. */
  lemma {:induction false} RunFromFailureError<S, V>(b: Behaviour<S, V>, st: RunState<S, V>)
    requires st.started <= |st.slots| && st.raised.None?
    ensures var r := RunFrom(b, false, st);
      r.raised.Some? ==>
        |r.errors| == |st.errors| + 1 &&
        r.errors[|st.errors|] == ErrorInfo(r.slots[r.started - 1].name, r.started - 1,
                                           r.raised.value.message, r.raised.value.kind)
    decreases |st.slots| - st.started
  {
    if st.started < |st.slots| {
      var next := RunStep(b, st);
      if next.raised.None? {
        assert RunFrom(b, false, st) == RunFrom(b, false, next);
        assert next.errors == st.errors;
        RunFromFailureError(b, next);
      } else {
        assert RunFrom(b, false, st) == next;
        assert next.slots[st.started].status == Failed;
      }
    }
  }

  /** The run that raises ends with the failing step's record: its error
      message is the exception's, and the one error appended describes it. */
  lemma RunFromFailureRecord<S, V>(b: Behaviour<S, V>, st: RunState<S, V>)
    requires st.started <= |st.slots| && st.raised.None?
    ensures var r := RunFrom(b, false, st);
      r.raised.Some? ==>
        r.slots[r.started - 1].errorMessage == Some(r.raised.value.message) &&
        |r.errors| == |st.errors| + 1 &&
        r.errors[|st.errors|] == ErrorInfo(r.slots[r.started - 1].name, r.started - 1,
                                           r.raised.value.message, r.raised.value.kind)
  {
    RunFromFailureMessage(b, st);
    RunFromFailureError(b, st);
  }

  /** With continue-on-error, no failure stops the run: every step is
      started, the pipeline completes, each step ends `completed` or
      `failed`, `steps_executed` lists exactly the completed ones in order,
      and one error is appended per failed step. */
  lemma ExecuteContinueOnError<S, V>(p: Pipeline<S, V>, b: Behaviour<S, V>, input: map<string, V>)
    ensures var x := Execute(p, b, input, true);
      x.outcome.Ok? && x.pipeline.status == Completed &&
      InOrder(x.trace, 0, |p.slots|) &&
      (forall j :: 0 <= j < |p.slots| ==> x.pipeline.slots[j].status in {Completed, Failed}) &&
      x.outcome.value.metadata.stepsExecuted == Successes(x.pipeline.slots, 0, |p.slots|) &&
      |x.pipeline.errors| - |p.errors| == |p.slots| - |x.outcome.value.metadata.stepsExecuted|
  {
    var st := RunState(p.slots, input, map[], [], [], [], 0, None);
    RunFromInOrder(b, true, st);
    RunFromSlots(b, true, st);
    RunFromAccounting(b, true, st);
    var r := RunFrom(b, true, st);
    assert r.executed[|st.executed|..] == r.executed;
    assert r.trace[|st.trace|..] == r.trace;
  }

  /** `steps_executed` lists exactly the completed steps, in order and with
      their indices, in either mode. */
  lemma ExecuteListsSuccesses<S, V>(p: Pipeline<S, V>, b: Behaviour<S, V>, input: map<string, V>, coe: bool)
    ensures var x, r := Execute(p, b, input, coe), Loop(p, b, input, coe);
      x.pipeline.results.value.metadata.stepsExecuted == Successes(x.pipeline.slots, 0, r.started)
  {
    var st := RunState(p.slots, input, map[], [], [], [], 0, None);
    RunFromAccounting(b, coe, st);
    var r := RunFrom(b, coe, st);
    assert r.executed[|st.executed|..] == r.executed;
  }

  /** `errors` is never reset: each run only appends to it. */
  lemma ExecuteAccumulatesErrors<S, V>(p: Pipeline<S, V>, b: Behaviour<S, V>, input: map<string, V>, coe: bool)
    ensures var x := Execute(p, b, input, coe);
      |x.pipeline.errors| >= |p.errors| && x.pipeline.errors[..|p.errors|] == p.errors
  {
    var x := Execute(p, b, input, coe);
    assert x.pipeline.errors[..|p.errors|] == p.errors;
  }

  /** Cleanup failures are swallowed: the cleanup's outcome changes nothing
      but the trace. */
  lemma ExecuteIgnoresCleanup<S, V>(p: Pipeline<S, V>, b: Behaviour<S, V>, cleanup: S -> Option<Error>,
                                   input: map<string, V>, coe: bool)
    ensures var x, y := Execute(p, b, input, coe), Execute(p, b.(cleanup := cleanup), input, coe);
      x.pipeline == y.pipeline && x.outcome == y.outcome && x.context == y.context
  {
    var st := RunState(p.slots, input, map[], [], [], [], 0, None);
    RunFromIgnoresCleanup(b, b.(cleanup := cleanup), coe, st, st);
  }

  lemma {:induction false} RunFromIgnoresCleanup<S, V>(b: Behaviour<S, V>, c: Behaviour<S, V>, coe: bool,
                                                      s1: RunState<S, V>, s2: RunState<S, V>)
    requires b.validate == c.validate && b.execute == c.execute
    requires s1.started <= |s1.slots| && s1.raised.None? && s1 == s2.(trace := s1.trace)
    ensures RunFrom(b, coe, s1) == RunFrom(c, coe, s2).(trace := RunFrom(b, coe, s1).trace)
    decreases |s1.slots| - s1.started
  {
    if s1.started < |s1.slots| {
      var n1, n2 := RunStep(b, s1), RunStep(c, s2);
      assert n1 == n2.(trace := n1.trace);
      if !(n1.raised.Some? && !coe) {
        RunFromIgnoresCleanup(b, c, coe, n1.(raised := None), n2.(raised := None));
      }
    }
  }

  /** Invariants of a run: a property `P` of the context and a property
      `Q` of every step. When running a `Q` step on a `P` context yields a
      `Q` step and an output whose merge keeps `P`, both hold throughout. */
  lemma {:induction false} RunFromInvariant<S, V>(b: Behaviour<S, V>, coe: bool, st: RunState<S, V>,
                                                 P: map<string, V> -> bool, Q: S -> bool)
    requires st.started <= |st.slots| && st.raised.None? && P(st.ctx)
    requires forall j :: 0 <= j < |st.slots| ==> Q(st.slots[j].impl)
    requires forall s, c :: P(c) && Q(s) && b.validate(s, c) ==>
      P(Merge(c, Output(b.execute(s, c).1))) && Q(b.execute(s, c).0)
    ensures var r := RunFrom(b, coe, st);
      P(r.ctx) && forall j :: 0 <= j < |r.slots| ==> Q(r.slots[j].impl)
    decreases |st.slots| - st.started
  {
    if st.started < |st.slots| {
      var next := RunStep(b, st);
      assert Q(next.slots[st.started].impl);
      if !(next.raised.Some? && !coe) {
        RunFromInvariant(b, coe, next.(raised := None), P, Q);
      }
    }
  }

  /** `RunFromInvariant` over a whole `execute`: when every step of the
      built pipeline satisfies `Q`, the input satisfies `P`, and running a
      `Q` step on a `P` context keeps both, the final context satisfies `P`
      and every step of the finished pipeline satisfies `Q`. */
  lemma ExecuteInvariant<S, V>(p: Pipeline<S, V>, b: Behaviour<S, V>, input: map<string, V>, coe: bool,
                               P: map<string, V> -> bool, Q: S -> bool)
    requires P(input) && forall j :: 0 <= j < |p.slots| ==> Q(p.slots[j].impl)
    requires forall s, c :: P(c) && Q(s) && b.validate(s, c) ==>
      P(Merge(c, Output(b.execute(s, c).1))) && Q(b.execute(s, c).0)
    ensures var x := Execute(p, b, input, coe);
      P(x.context) && |x.pipeline.slots| == |p.slots| &&
      forall j :: 0 <= j < |p.slots| ==> Q(x.pipeline.slots[j].impl)
  {
    var st := RunState(p.slots, input, map[], [], [], [], 0, None);
    RunFromInvariant(b, coe, st, P, Q);
  }
}

=== FILE: factory.dfy ===
/** The registration factory: a registration type name, looked up without
    regard to case, selects the registration class, which is then built
    from the caller's keyword arguments. */
module Factory {
  import opened Wrappers
  import opened PyStr

  /** The registration classes the factory knows. */
  datatype Kind = Rigid | Affine | BSpline

  /** The registry, keyed by lower-case name; "nonrigid" is an alias of
      "bspline". */
  const RegistrationTypes: map<string, Kind> :=
    map["rigid" := Rigid, "affine" := Affine, "bspline" := BSpline, "nonrigid" := BSpline]

  /** `create_registration(registration_type, **kwargs)`. Building a class
      from its keyword arguments is `construct`; it may itself fail. */
  function CreateRegistration<K, R>(registrationType: string, kwargs: K, construct: (Kind, K) -> Result<R>): (r: Result<R>)
    ensures Lower(registrationType) !in RegistrationTypes ==>
      r == Err(ValueError("Unknown registration type: " + registrationType))
    ensures Lower(registrationType) in RegistrationTypes ==>
      r == construct(RegistrationTypes[Lower(registrationType)], kwargs)
  {
    var key := Lower(registrationType);
    if key !in RegistrationTypes then Err(ValueError("Unknown registration type: " + registrationType))
    else construct(RegistrationTypes[key], kwargs)
  }

  /** The names whose lower-case form is a registry key are exactly the
      accepted ones: any other name is refused whatever the constructors
      would do. */
  lemma AcceptedNames<K, R>(registrationType: string, kwargs: K, construct: (Kind, K) -> Result<R>)
    ensures (forall kind :: construct(kind, kwargs).Ok?) ==>
      (CreateRegistration(registrationType, kwargs, construct).Ok? <==> Lower(registrationType) in RegistrationTypes)
  {
  }

  /** Names that differ only in letter case select the same class and get
      the same arguments. */
  lemma CaseInsensitive<K, R>(a: string, b: string, kwargs: K, construct: (Kind, K) -> Result<R>)
    requires Lower(a) == Lower(b)
    requires Lower(a) in RegistrationTypes
    ensures CreateRegistration(a, kwargs, construct) == CreateRegistration(b, kwargs, construct)
  {
  }

  /** Every spelling of a registry key, in any case, is accepted; upper
      case is the same class as lower case. */
  lemma AnyCaseAccepted<K, R>(name: string, kwargs: K, construct: (Kind, K) -> Result<R>)
    requires name in RegistrationTypes
    ensures CreateRegistration(name, kwargs, construct) == construct(RegistrationTypes[name], kwargs)
    ensures CreateRegistration(Upper(name), kwargs, construct) == construct(RegistrationTypes[name], kwargs)
  {
    LowerOfKey(name);
    LowerUpper(name);
  }

  /** "nonrigid" and "bspline" build the same class. */
  lemma NonrigidIsBSpline<K, R>(kwargs: K, construct: (Kind, K) -> Result<R>)
    ensures CreateRegistration("nonrigid", kwargs, construct) == CreateRegistration("bspline", kwargs, construct)
    ensures CreateRegistration("NonRigid", kwargs, construct) == construct(BSpline, kwargs)
  {
    assert Lower("nonrigid") == "nonrigid";
    assert Lower("bspline") == "bspline";
    assert Lower("NonRigid") == "nonrigid";
  }

  /** ASCII upper-casing. */
  function Upper(s: string): (r: string)
    ensures |r| == |s|
    ensures forall i :: 0 <= i < |s| ==> r[i] == (if 'a' <= s[i] <= 'z' then (s[i] as int - 32) as char else s[i])
  {
    seq(|s|, i requires 0 <= i < |s| => if 'a' <= s[i] <= 'z' then (s[i] as int - 32) as char else s[i])
  }

  lemma LowerOfKey(name: string)
    requires name in RegistrationTypes
    ensures Lower(name) == name
  {
    LowerIdempotent(name);
    assert Lower("rigid") == "rigid";
    assert Lower("affine") == "affine";
    assert Lower("bspline") == "bspline";
    assert Lower("nonrigid") == "nonrigid";
  }

  lemma LowerUpper(s: string)
    requires Lower(s) == s
    ensures Lower(Upper(s)) == s
  {
    forall i | 0 <= i < |s| ensures Lower(Upper(s))[i] == s[i] {
      assert LowerChar(s[i]) == s[i];
    }
  }
}

=== FILE: imaging.dfy ===
/** The image values the pipelines pass around. Geometry beyond the size
    per axis (origin, spacing, direction) is carried by SimpleITK and is not
    modelled; voxels are listed in array order. */
module Imaging {

  /** A SimpleITK image: its size per axis and its voxel values. */
  datatype Image = Image(size: seq<int>, voxels: seq<real>)

  /** A registration transform produced by SimpleITK; opaque here. */
  datatype Transform = Transform(id: nat)
}

=== FILE: nyul.dfy ===
/** The arithmetic of Nyul histogram standardization: the trained standard
    landmarks and the piecewise-linear voxel map. */
module NyulMap {
  import opened Stats

  /** The default percentile landmarks 0, 10, ..., 100. */
  const DefaultPercentages: seq<real> :=
    [0.0, 10.0, 20.0, 30.0, 40.0, 50.0, 60.0, 70.0, 80.0, 90.0, 100.0]

  /** The default standard scale (0, 100). */
  const DefaultScaleLow: real := 0.0
  const DefaultScaleHigh: real := 100.0

  /** numpy accepts percentiles only inside [0, 100]. */
  predicate ValidPercentages(ps: seq<real>) {
    forall i :: 0 <= i < |ps| ==> 0.0 <= ps[i] <= 100.0
  }

  lemma DefaultPercentagesShape()
    ensures |DefaultPercentages| == 11
    ensures ValidPercentages(DefaultPercentages)
    ensures forall i :: 0 <= i < 11 ==> DefaultPercentages[i] == 10.0 * i as real
  {
  }

  /** `np.percentile(non_zero, ps)`: the landmarks of one image, read off
      its sorted positive voxels. */
  function ImageLandmarks(voxels: seq<real>, ps: seq<real>): (r: seq<real>)
    requires |Positives(voxels)| > 0 && ValidPercentages(ps)
    ensures |r| == |ps|
    ensures forall i :: 0 <= i < |r| ==> r[i] > 0.0
    ensures Sorted(ps) ==> Sorted(r)
  {
    var a := Sort(Positives(voxels));
    assert a[0] in multiset(a);
    assert a[0] in Positives(voxels);
    var r := seq(|ps|, i requires 0 <= i < |ps| => Percentile(a, ps[i]));
    PercentilesSorted(a, ps, r);
    r
  }

  lemma PercentilesSorted(a: seq<real>, ps: seq<real>, r: seq<real>)
    requires |a| > 0 && Sorted(a) && ValidPercentages(ps)
    requires |r| == |ps| && forall i :: 0 <= i < |ps| ==> r[i] == Percentile(a, ps[i])
    ensures Sorted(ps) ==> Sorted(r)
  {
    if Sorted(ps) {
      forall i, j | 0 <= i < j < |r| ensures r[i] <= r[j] {
        PercentileMonotone(a, ps[i], ps[j]);
      }
    }
  }

  /** The trained standard landmarks of the source's training loop: entry 0
      is set to the low end of the scale, the last entry to the high end,
      and each interior entry `i` to `s0 + (s1 - s0) * i / (n - 1)`. The
      averaged image landmarks are overwritten everywhere. */
  function TrainedLandmarks(n: nat, s0: real, s1: real): (r: seq<real>)
    requires n >= 1
    ensures |r| == n
    ensures r[n - 1] == s1
    ensures n >= 2 ==> r[0] == s0
    ensures n >= 2 ==> forall i :: 0 <= i < n ==>
      r[i] == s0 + (s1 - s0) * (i as real / (n - 1) as real)
    ensures n >= 2 && s0 < s1 ==> forall i, j :: 0 <= i < j < n ==> r[i] < r[j]
  {
    var r := seq(n, i requires 0 <= i < n => AssignedLandmark(n, s0, s1, i));
    TrainedLandmarksShape(n, s0, s1, r);
    r
  }

  /** The value the training loop leaves in entry `i`: the last assignment
      to the top entry wins over the first to entry 0 when `n == 1`. */
  function AssignedLandmark(n: nat, s0: real, s1: real, i: nat): real
    requires i < n
  {
    if i == n - 1 then s1
    else if i == 0 then s0
    else s0 + (s1 - s0) * (i as real / (n - 1) as real)
  }

  lemma TrainedLandmarksShape(n: nat, s0: real, s1: real, r: seq<real>)
    requires n >= 1 && |r| == n
    requires forall i :: 0 <= i < n ==> r[i] == AssignedLandmark(n, s0, s1, i)
    ensures n >= 2 ==> forall i :: 0 <= i < n ==>
      r[i] == s0 + (s1 - s0) * (i as real / (n - 1) as real)
    ensures n >= 2 && s0 < s1 ==> forall i, j :: 0 <= i < j < n ==> r[i] < r[j]
  {
    if n >= 2 {
      forall i | 0 <= i < n ensures r[i] == s0 + (s1 - s0) * (i as real / (n - 1) as real) {
        AssignedLandmarkFormula(n, s0, s1, i);
      }
      if s0 < s1 {
        forall i, j | 0 <= i < j < n ensures r[i] < r[j] {
          AssignedLandmarkIncreasing(n, s0, s1, i, j);
        }
      }
    }
  }

  /** Every assigned entry agrees with the interior formula. */
  lemma AssignedLandmarkFormula(n: nat, s0: real, s1: real, i: nat)
    requires 2 <= n && i < n
    ensures AssignedLandmark(n, s0, s1, i) == s0 + (s1 - s0) * (i as real / (n - 1) as real)
  {
    var f := i as real / (n - 1) as real;
    if i == n - 1 {
      EndpointFraction(s0, s1, (n - 1) as real);
    } else if i == 0 {
      assert f == 0.0;
      assert (s1 - s0) * f == 0.0;
    }
  }

  /** On a proper scale, later entries are strictly larger. */
  lemma AssignedLandmarkIncreasing(n: nat, s0: real, s1: real, i: nat, j: nat)
    requires 2 <= n && i < j < n && s0 < s1
    ensures AssignedLandmark(n, s0, s1, i) < AssignedLandmark(n, s0, s1, j)
  {
    AssignedLandmarkFormula(n, s0, s1, i);
    AssignedLandmarkFormula(n, s0, s1, j);
    FractionStrictlyIncreasing(i, j, n - 1, s1 - s0);
  }

  /** The formula at the top index gives the top of the scale. */
  lemma EndpointFraction(s0: real, s1: real, d: real)
    requires d > 0.0
    ensures s1 == s0 + (s1 - s0) * (d / d)
  {
    assert d / d == 1.0;
  }

  lemma FractionStrictlyIncreasing(i: nat, j: nat, d: nat, w: real)
    requires i < j && d > 0 && w > 0.0
    ensures w * (i as real / d as real) < w * (j as real / d as real)
  {
    var a, b := i as real / d as real, j as real / d as real;
    assert a * d as real == i as real && b * d as real == j as real;
    assert a < b;
    assert w * b - w * a == w * (b - a);
  }

  /** `lower <= v < upper` for the interval between landmarks `i` and `i + 1`. */
  predicate InInterval(v: real, l: seq<real>, i: nat)
    requires i + 1 < |l|
  {
    l[i] <= v < l[i + 1]
  }

  /** The linear map of interval `i` of the image landmarks `l` onto interval
      `i` of the standard landmarks `m`, with the source's slope form. */
  function Interpolate(v: real, l: seq<real>, m: seq<real>, i: nat): real
    requires |l| == |m| && i + 1 < |l| && l[i] < l[i + 1]
  {
    m[i] + (m[i + 1] - m[i]) / (l[i + 1] - l[i]) * (v - l[i])
  }

  /** A voxel inside interval `i` lands inside standard interval `i`, at the
      same relative position; the upper end is excluded when it is strictly
      above the lower one. */
  lemma InterpolateInRange(v: real, l: seq<real>, m: seq<real>, i: nat)
    requires |l| == |m| && i + 1 < |l| && InInterval(v, l, i)
    requires m[i] <= m[i + 1]
    ensures m[i] <= Interpolate(v, l, m, i) <= m[i + 1]
    ensures m[i] < m[i + 1] ==> Interpolate(v, l, m, i) < m[i + 1]
  {
    var t := SlopeForm(m[i], m[i + 1], l[i], l[i + 1], v);
    LerpBetween(m[i], m[i + 1], t);
    if m[i] < m[i + 1] {
      LerpBelowEnd(m[i], m[i + 1], t);
    }
  }

  /** The source's slope form equals interpolation at the voxel's relative
      position `t` in its interval, and `0 <= t < 1`. */
  lemma SlopeForm(m0: real, m1: real, l0: real, l1: real, v: real) returns (t: real)
    requires l0 <= v < l1
    ensures 0.0 <= t < 1.0
    ensures m0 + (m1 - m0) / (l1 - l0) * (v - l0) == Lerp(m0, m1, t)
  {
    var w := l1 - l0;
    t := (v - l0) / w;
    assert t * w == v - l0;
    if t >= 1.0 {
      ScaleMonotone(1.0, t, w);
      assert false;
    }
    assert (m1 - m0) / w * (v - l0) == t * (m1 - m0);
  }

  lemma ProductPositive(a: real, b: real)
    requires a > 0.0 && b > 0.0
    ensures a * b > 0.0
  {
  }

  lemma LerpBelowEnd(x: real, y: real, t: real)
    requires x < y && t < 1.0
    ensures Lerp(x, y, t) < y
  {
    assert y - Lerp(x, y, t) == (1.0 - t) * (y - x);
    ProductPositive(1.0 - t, y - x);
  }

  /** The value after the first `k` intervals of the source's loop have been
      applied to a voxel that starts at 0: each interval containing the voxel
      overwrites it. */
  function Piecewise(v: real, l: seq<real>, m: seq<real>, k: nat): real
    requires |l| == |m| && k < |l|
  {
    if k == 0 then 0.0
    else if InInterval(v, l, k - 1) then Interpolate(v, l, m, k - 1)
    else Piecewise(v, l, m, k - 1)
  }

  /** With no interval among the first `k` containing the voxel, it keeps the
      initial 0. */
  lemma {:induction false} PiecewiseUntouched(v: real, l: seq<real>, m: seq<real>, k: nat)
    requires |l| == |m| && k < |l|
    requires forall j :: 0 <= j < k ==> !InInterval(v, l, j)
    ensures Piecewise(v, l, m, k) == 0.0
  {
    if k > 0 {
      PiecewiseUntouched(v, l, m, k - 1);
    }
  }

  /** The last interval among the first `k` containing the voxel decides it. */
  lemma {:induction false} PiecewiseLastWins(v: real, l: seq<real>, m: seq<real>, k: nat, i: nat)
    requires |l| == |m| && i < k < |l|
    requires InInterval(v, l, i)
    requires forall j :: i < j < k ==> !InInterval(v, l, j)
    ensures Piecewise(v, l, m, k) == Interpolate(v, l, m, i)
  {
    if k - 1 != i {
      PiecewiseLastWins(v, l, m, k - 1, i);
    }
  }

  /** The source's voxel map: the piecewise-linear value, then every voxel at
      or above the top image landmark set to the top standard landmark, then
      every voxel equal to 0 set back to 0. */
  function MapVoxel(v: real, l: seq<real>, m: seq<real>): real
    requires |l| == |m| >= 1
  {
    if v == 0.0 then 0.0
    else if v >= l[|l| - 1] then m[|m| - 1]
    else Piecewise(v, l, m, |l| - 1)
  }

  /** Background voxels stay 0, whatever the landmarks. */
  lemma MapVoxelBackground(l: seq<real>, m: seq<real>)
    requires |l| == |m| >= 1
    ensures MapVoxel(0.0, l, m) == 0.0
  {
  }

  /** A non-zero voxel at or above the top image landmark maps to the top
      standard landmark. */
  lemma MapVoxelTop(v: real, l: seq<real>, m: seq<real>)
    requires |l| == |m| >= 1
    requires v != 0.0 && v >= l[|l| - 1]
    ensures MapVoxel(v, l, m) == m[|m| - 1]
  {
  }

  /** With nondecreasing image landmarks, a non-zero voxel in interval `i` is
      mapped linearly into standard interval `i`. */
  lemma MapVoxelInInterval(v: real, l: seq<real>, m: seq<real>, i: nat)
    requires |l| == |m| && i + 1 < |l|
    requires Sorted(l) && InInterval(v, l, i) && v != 0.0
    ensures MapVoxel(v, l, m) == Interpolate(v, l, m, i)
    ensures m[i] <= m[i + 1] ==> m[i] <= MapVoxel(v, l, m) <= m[i + 1]
    ensures m[i] < m[i + 1] ==> MapVoxel(v, l, m) < m[i + 1]
  {
    assert v < l[|l| - 1];
    forall j | i < j < |l| - 1 ensures !InInterval(v, l, j) {
      assert l[i + 1] <= l[j];
    }
    PiecewiseLastWins(v, l, m, |l| - 1, i);
    if m[i] <= m[i + 1] {
      InterpolateInRange(v, l, m, i);
    }
  }

  /** A non-zero voxel below the top landmark that lies in no interval
      (a negative voxel, or one in a zero-width bucket) stays 0. */
  lemma MapVoxelUncovered(v: real, l: seq<real>, m: seq<real>)
    requires |l| == |m| >= 1
    requires v != 0.0 && v < l[|l| - 1]
    requires forall j :: 0 <= j < |l| - 1 ==> !InInterval(v, l, j)
    ensures MapVoxel(v, l, m) == 0.0
  {
    PiecewiseUntouched(v, l, m, |l| - 1);
  }

  /** A voxel below the lowest landmark lies in no interval. */
  lemma BelowLowestUncovered(v: real, l: seq<real>)
    requires |l| >= 1 && Sorted(l) && v < l[0]
    ensures forall j :: 0 <= j < |l| - 1 ==> !InInterval(v, l, j)
  {
  }

  /** The voxel map applied to a whole image. */
  function MapVoxels(voxels: seq<real>, l: seq<real>, m: seq<real>): (r: seq<real>)
    requires |l| == |m| >= 1
    ensures |r| == |voxels|
    ensures forall k :: 0 <= k < |r| ==> r[k] == MapVoxel(voxels[k], l, m)
  {
    seq(|voxels|, k requires 0 <= k < |voxels| => MapVoxel(voxels[k], l, m))
  }
}

=== FILE: orders.dfy ===
/** Orders of a list: the completion orders of a parallel run, and the
    multiset facts about removing one element that proofs about reordering
    need. */
module Orders {
  /** Removing the element at `k` removes one occurrence from the
      multiset. */
  lemma RemoveAt<T>(b: seq<T>, k: nat)
    requires k < |b|
    ensures multiset(b[..k] + b[k + 1..]) + multiset{b[k]} == multiset(b)
  {
    assert b == b[..k] + [b[k]] + b[k + 1..];
  }

  /** Two lists with equal multisets, less the first element of one and an
      occurrence of it in the other, still have equal multisets. */
  lemma RemoveMatching<T>(a: seq<T>, b: seq<T>, k: nat)
    requires |a| > 0 && k < |b| && b[k] == a[0] && multiset(a) == multiset(b)
    ensures multiset(a[1..]) == multiset(b[..k] + b[k + 1..])
  {
    var rest := b[..k] + b[k + 1..];
    RemoveAt(b, k);
    assert a == [a[0]] + a[1..];
    assert multiset(a) == multiset{a[0]} + multiset(a[1..]);
    var m, n := multiset(a[1..]), multiset(rest);
    assert m + multiset{a[0]} == n + multiset{a[0]};
    assert m == m + multiset{a[0]} - multiset{a[0]};
    assert n == n + multiset{a[0]} - multiset{a[0]};
  }

  /** The order of a parallel run: at each turn the running patient that
      finishes next is chosen by the next number of `choice` (the first
      when `choice` runs out). */
  function Permute<T>(xs: seq<T>, choice: seq<nat>): (r: seq<T>)
    ensures multiset(r) == multiset(xs)
    decreases |xs|
  {
    if |xs| == 0 then []
    else
      var k := (if |choice| > 0 then choice[0] else 0) % |xs|;
      RemoveAt(xs, k);
      [xs[k]] + Permute(xs[..k] + xs[k + 1..], if |choice| > 0 then choice[1..] else [])
  }

  /** Choosing `k` first puts the element at `k` first. */
  lemma PermuteCons<T>(xs: seq<T>, k: nat, tail: seq<nat>)
    requires k < |xs|
    ensures Permute(xs, [k] + tail) == [xs[k]] + Permute(xs[..k] + xs[k + 1..], tail)
  {
    var choice := [k] + tail;
    assert choice[0] == k && choice[1..] == tail;
    ModSmall(k, |xs|);
  }

  lemma ModSmall(k: nat, n: nat)
    requires k < n
    ensures k % n == k
  {
  }

  /** The first position of `y` in `xs`. */
  ghost function Find<T>(xs: seq<T>, y: T): (k: nat)
    requires y in xs
    ensures k < |xs| && xs[k] == y
  {
    if xs[0] == y then 0 else 1 + Find(xs[1..], y)
  }

  /** The choices that make `Permute(xs, _)` produce `ys`. */
  ghost function ChoiceFor<T>(xs: seq<T>, ys: seq<T>): (choice: seq<nat>)
    requires multiset(ys) == multiset(xs)
    decreases |xs|
  {
    if |xs| == 0 then []
    else
      assert ys[0] in multiset(xs) by { assert |ys| == |multiset(ys)| > 0; }
      var k := Find(xs, ys[0]);
      RemoveMatching(ys, xs, k);
      [k] + ChoiceFor(xs[..k] + xs[k + 1..], ys[1..])
  }

  /** Every order of the list is a possible order of `Permute`. */
  lemma {:induction false} PermuteComplete<T>(xs: seq<T>, ys: seq<T>)
    requires multiset(ys) == multiset(xs)
    ensures Permute(xs, ChoiceFor(xs, ys)) == ys
    decreases |xs|
  {
    if |xs| == 0 {
      assert |ys| == |multiset(ys)| == |multiset(xs)| == 0;
    } else {
      var k := ChoiceForFirst(xs, ys);
      var rest := xs[..k] + xs[k + 1..];
      PermuteComplete(rest, ys[1..]);
      ChosenFirst(xs, k, ChoiceFor(rest, ys[1..]), ys);
    }
  }

  /** The first choice is a position of the wanted first element, and the
      rest are the choices for the remainder. */
  lemma ChoiceForFirst<T>(xs: seq<T>, ys: seq<T>) returns (k: nat)
    requires multiset(ys) == multiset(xs) && |xs| > 0
    ensures k < |xs| && |ys| > 0 && xs[k] == ys[0]
    ensures multiset(ys[1..]) == multiset(xs[..k] + xs[k + 1..])
    ensures ChoiceFor(xs, ys) == [k] + ChoiceFor(xs[..k] + xs[k + 1..], ys[1..])
  {
    assert ys[0] in multiset(xs) by { assert |ys| == |multiset(ys)| > 0; }
    k := Find(xs, ys[0]);
    RemoveMatching(ys, xs, k);
  }

  /** Choosing the position of the wanted first element, then an order of
      the rest that gives the wanted remainder, gives the wanted order. */
  lemma ChosenFirst<T>(xs: seq<T>, k: nat, tail: seq<nat>, ys: seq<T>)
    requires k < |xs| && |ys| > 0 && xs[k] == ys[0]
    requires Permute(xs[..k] + xs[k + 1..], tail) == ys[1..]
    ensures Permute(xs, [k] + tail) == ys
  {
    PermuteCons(xs, k, tail);
    assert [ys[0]] + ys[1..] == ys;
  }

  /** Two positions holding the same element count it twice. */
  lemma TwiceInMultiset<T>(a: seq<T>, i: nat, j: nat)
    requires i < j < |a|
    ensures a[i] == a[j] ==> multiset(a)[a[i]] >= 2
  {
    assert a == a[..i] + [a[i]] + a[i + 1..j] + [a[j]] + a[j + 1..];
  }
}

=== FILE: param_file.dfy ===
/** The elastix parameter-file reader of the registration base class, and
    the multi-resolution schedule it sets up.

    An elastix parameter file holds lines `(Name value ...)`; `//` starts a
    comment line. The reader keeps, per name, the value of the last line
    that names it, then overrides the metric, optimizer, interpolator and
    number of resolutions it finds, and converts the additional optimizer,
    metric and sampler parameters. */
module ParamFile {
  import opened Wrappers
  import opened PyStr

  /** The parse of one line, if it is a parameter line: its name and its
      value (the remaining space-separated tokens, rejoined by single
      spaces, surrounding `"` removed). */
  function ParseLine(raw: string): (r: Option<(string, string)>)
    ensures r.Some? ==> '(' in Strip(raw) && ')' in Strip(raw)
    ensures r.Some? ==> |Strip(raw)| > 0 && !StartsWith(Strip(raw), "//")
    ensures r.Some? ==> ' ' !in r.value.0 && '(' !in r.value.0 && ')' !in r.value.0
  {
    var line := Strip(raw);
    if |line| == 0 || StartsWith(line, "//") then None
    else if '(' !in line || ')' !in line then None
    else
      var inner := Split(Split(line, '(')[1], ')')[0];
      var tokens := Split(inner, ' ');
      if |tokens| < 2 then None
      else
        NoSeparatorInPieces(Split(line, '(')[1], ')', '(');
        NoSeparatorInPieces(inner, ' ', '(');
        NoSeparatorInPieces(inner, ' ', ')');
        Some((tokens[0], StripQuotes(Join(tokens[1..], " "))))
  }

  /** Pieces of a split contain no character the whole string lacks. */
  lemma {:induction false} NoSeparatorInPieces(s: string, sep: char, c: char)
    requires c !in s
    ensures forall k :: 0 <= k < |Split(s, sep)| ==> c !in Split(s, sep)[k]
    decreases |s|
  {
    if sep in s {
      var i := IndexOf(s, sep);
      assert c !in s[i + 1..];
      NoSeparatorInPieces(s[i + 1..], sep, c);
    }
  }

  /** The line a parameter is written as: `(Name "value")`. */
  function Render(name: string, value: string): string {
    "(" + name + " \"" + value + "\")"
  }

  /** A value as it can be written back: no parentheses and no quote at
      either end. */
  predicate Writable(value: string) {
    '(' !in value && ')' !in value && (|value| == 0 || (value[0] != '"' && value[|value| - 1] != '"'))
  }

  /** Reading a rendered parameter line gives back its name and value. */
  lemma RenderParses(name: string, value: string)
    requires |name| > 0 && name[0] != '/' && ' ' !in name && '(' !in name && ')' !in name
    requires Writable(value)
    ensures ParseLine(Render(name, value)) == Some((name, value))
  {
    var line := Render(name, value);
    var quoted := "\"" + value + "\"";
    var inner := name + [' '] + quoted;
    var afterOpen := inner + [')'];
    assert line == [] + ['('] + afterOpen;
    RenderedLineShape(line);
    RenderedSplits(name, value, line, quoted, inner, afterOpen);
    var tokens := Split(inner, ' ');
    assert tokens == [name] + Split(quoted, ' ');
    assert tokens[1..] == Split(quoted, ' ');
    JoinSplit(quoted, ' ');
    StripQuotesQuoted(value);
    assert Split(Split(line, '(')[1], ')')[0] == inner;
    assert Join(tokens[1..], " ") == quoted;
    assert StripQuotes(Join(tokens[1..], " ")) == value;
    assert |line| > 0 && '(' in line && ')' in line;
  }

  /** A rendered line is already stripped and is not a comment. */
  lemma RenderedLineShape(line: string)
    requires |line| >= 2 && line[0] == '(' && line[|line| - 1] == ')'
    ensures Strip(line) == line && !StartsWith(line, "//")
  {
    StripStripped(line);
  }

  lemma RenderedSplits(name: string, value: string, line: string, quoted: string, inner: string, afterOpen: string)
    requires ' ' !in name && '(' !in name && ')' !in name && '(' !in value && ')' !in value
    requires quoted == "\"" + value + "\"" && inner == name + [' '] + quoted && afterOpen == inner + [')']
    requires line == [] + ['('] + afterOpen
    ensures Split(line, '(') == [[], afterOpen]
    ensures Split(afterOpen, ')') == [inner, []]
    ensures Split(inner, ' ') == [name] + Split(quoted, ' ')
  {
    assert '(' !in quoted && ')' !in quoted by { QuotedFree(value, quoted); }
    assert '(' !in inner && ')' !in inner by { ConcatFree(name, [' '], quoted, '('); ConcatFree(name, [' '], quoted, ')'); }
    assert '(' !in afterOpen by { ConcatFree(inner, [')'], [], '('); assert afterOpen == inner + [')'] + []; }
    SplitCons([], '(', afterOpen);
    SplitCons(inner, ')', []);
    SplitCons(name, ' ', quoted);
    assert afterOpen == inner + [')'] + [];
  }

  lemma QuotedFree(value: string, quoted: string)
    requires '(' !in value && ')' !in value && quoted == "\"" + value + "\""
    ensures '(' !in quoted && ')' !in quoted
  {
    ConcatFree("\"", value, "\"", '(');
    ConcatFree("\"", value, "\"", ')');
  }

  lemma ConcatFree(a: string, b: string, c: string, x: char)
    requires x !in a && x !in b && x !in c
    ensures x !in a + b + c
  {
  }

  lemma StripQuotesQuoted(value: string)
    requires |value| == 0 || (value[0] != '"' && value[|value| - 1] != '"')
    ensures StripQuotes("\"" + value + "\"") == value
  {
    var q := "\"" + value + "\"";
    assert q[1..] == value + "\"";
    if |value| == 0 {
      assert StripLeft(q, c => c == '"') == [];
    } else {
      assert StripLeft(q, c => c == '"') == StripLeft(value + "\"", c => c == '"');
      assert StripLeft(value + "\"", c => c == '"') == value + "\"";
      assert (value + "\"")[..|value|] == value;
    }
  }

  /** The parse of each line. */
  function Entries(lines: seq<string>): (r: seq<Option<(string, string)>>)
    ensures |r| == |lines| && forall i :: 0 <= i < |lines| ==> r[i] == ParseLine(lines[i])
  {
    seq(|lines|, i requires 0 <= i < |lines| => ParseLine(lines[i]))
  }

  /** The dictionary built from parsed lines in order, a later entry
      overriding an earlier one of the same name. */
  function Collect(entries: seq<Option<(string, string)>>): (d: map<string, string>)
  {
    if |entries| == 0 then map[]
    else
      var d := Collect(entries[..|entries| - 1]);
      match entries[|entries| - 1]
      case None => d
      case Some(entry) => d[entry.0 := entry.1]
  }

  /** A name is in the dictionary iff some entry names it, and its value is
      the one of the last entry that names it. */
  lemma CollectLastWins(entries: seq<Option<(string, string)>>, k: string)
    ensures k in Collect(entries) <==> exists i :: 0 <= i < |entries| && entries[i].Some? && entries[i].value.0 == k
    ensures k in Collect(entries) ==> exists i :: (0 <= i < |entries| && entries[i] == Some((k, Collect(entries)[k])) &&
      forall j :: i < j < |entries| ==> entries[j].None? || entries[j].value.0 != k)
  {
    CollectMember(entries, k);
    if k in Collect(entries) {
      CollectValue(entries, k);
    }
  }

  lemma {:induction false} CollectMember(entries: seq<Option<(string, string)>>, k: string)
    ensures k in Collect(entries) <==> exists i :: 0 <= i < |entries| && entries[i].Some? && entries[i].value.0 == k
  {
    if |entries| > 0 {
      var n := |entries| - 1;
      var prefix := entries[..n];
      CollectMember(prefix, k);
      assert forall i :: 0 <= i < n ==> prefix[i] == entries[i];
      if k in Collect(entries) && !(entries[n].Some? && entries[n].value.0 == k) {
        assert k in Collect(prefix);
      }
    }
  }

  lemma {:induction false} CollectValue(entries: seq<Option<(string, string)>>, k: string)
    requires k in Collect(entries)
    ensures exists i :: (0 <= i < |entries| && entries[i] == Some((k, Collect(entries)[k])) &&
      forall j :: i < j < |entries| ==> entries[j].None? || entries[j].value.0 != k)
  {
    var n := |entries| - 1;
    var last := entries[n];
    if last.Some? && last.value.0 == k {
      assert entries[n] == Some((k, Collect(entries)[k]));
    } else {
      var prefix := entries[..n];
      assert k in Collect(prefix) && Collect(entries)[k] == Collect(prefix)[k];
      CollectValue(prefix, k);
      var i :| 0 <= i < n && prefix[i] == Some((k, Collect(prefix)[k])) &&
        forall j :: i < j < n ==> prefix[j].None? || prefix[j].value.0 != k;
      assert entries[i] == prefix[i];
      assert forall j :: i < j < |entries| ==> entries[j].None? || entries[j].value.0 != k by {
        forall j | i < j < |entries| ensures entries[j].None? || entries[j].value.0 != k {
          if j < n { assert entries[j] == prefix[j]; }
        }
      }
    }
  }

  /** The parameter dictionary of a file's lines. */
  function ParseLines(lines: seq<string>): (d: map<string, string>)
  {
    Collect(Entries(lines))
  }

  /** A name is set iff some line names it, to the value of the last such
      line. */
  lemma ParseLinesLastWins(lines: seq<string>, k: string)
    ensures k in ParseLines(lines) <==> exists i :: 0 <= i < |lines| && ParseLine(lines[i]).Some? && ParseLine(lines[i]).value.0 == k
    ensures k in ParseLines(lines) ==> exists i :: (0 <= i < |lines| && ParseLine(lines[i]) == Some((k, ParseLines(lines)[k])) &&
      forall j :: i < j < |lines| ==> ParseLine(lines[j]).None? || ParseLine(lines[j]).value.0 != k)
  {
    CollectLastWins(Entries(lines), k);
  }

  /** Lines that are not parameter lines (blank, comment, no parentheses,
      fewer than two tokens) change nothing. */
  lemma IgnoredLine(lines: seq<string>, line: string)
    requires ParseLine(line).None?
    ensures ParseLines(lines + [line]) == ParseLines(lines)
  {
    EntriesSnoc(lines, line);
    CollectSnoc(Entries(lines), ParseLine(line));
  }

  /** A parameter line sets its name's value, whatever came before. */
  lemma LastLineWins(lines: seq<string>, line: string, name: string, value: string)
    requires ParseLine(line) == Some((name, value))
    ensures ParseLines(lines + [line]) == ParseLines(lines)[name := value]
  {
    EntriesSnoc(lines, line);
    CollectSnoc(Entries(lines), ParseLine(line));
  }

  lemma EntriesSnoc(lines: seq<string>, line: string)
    ensures Entries(lines + [line]) == Entries(lines) + [ParseLine(line)]
  {
    var e, f := Entries(lines + [line]), Entries(lines) + [ParseLine(line)];
    assert |e| == |f|;
    forall i | 0 <= i < |e| ensures e[i] == f[i] {
      if i < |lines| {
        assert (lines + [line])[i] == lines[i];
      }
    }
  }

  lemma CollectSnoc(entries: seq<Option<(string, string)>>, x: Option<(string, string)>)
    ensures Collect(entries + [x]) == if x.Some? then Collect(entries)[x.value.0 := x.value.1] else Collect(entries)
  {
    assert (entries + [x])[..|entries|] == entries;
  }

  /** Registration settings: the constructor's defaults or a parameter
      file's overrides. */
  datatype Settings = Settings(metric: string, optimizer: string, interpolator: string, resolutions: int)

  const DefaultSettings := Settings("AdvancedMattesMutualInformation", "AdaptiveStochasticGradientDescent",
                                    "LinearInterpolator", 3)

  predicate IsDigit(c: char) { '0' <= c <= '9' }

  /** The decimal value of a digit string (underscores skipped). */
  function DigitsValue(s: string): nat
    decreases |s|
  {
    if |s| == 0 then 0
    else if IsDigit(s[|s| - 1]) then 10 * DigitsValue(s[..|s| - 1]) + (s[|s| - 1] as int - '0' as int)
    else DigitsValue(s[..|s| - 1])
  }

  /** Python's base-10 digit body: digits, single underscores between
      digits allowed. */
  predicate DigitBody(s: string) {
    |s| > 0 && IsDigit(s[0]) && IsDigit(s[|s| - 1]) &&
    (forall i :: 0 <= i < |s| ==> IsDigit(s[i]) || s[i] == '_') &&
    (forall i :: 0 <= i < |s| - 1 ==> !(s[i] == '_' && s[i + 1] == '_'))
  }

  /** `int(s)`: surrounding whitespace, an optional sign, then the digit
      body; anything else is a ValueError. */
  function ParseInt(s: string): (r: Result<int>)
    ensures r.Err? ==> r.error.kind == "ValueError"
    ensures r.Ok? ==> |Strip(s)| > 0
  {
    var t := Strip(s);
    var negative := |t| > 0 && t[0] == '-';
    var body := if |t| > 0 && (t[0] == '-' || t[0] == '+') then t[1..] else t;
    if !DigitBody(body) then Err(ValueError("invalid literal for int() with base 10: '" + s + "'"))
    else Ok(if negative then -(DigitsValue(body) as int) else DigitsValue(body))
  }

  /** Decimal digits of a natural number, most significant first. */
  function Digits(n: nat): (r: string)
    ensures |r| > 0 && forall i :: 0 <= i < |r| ==> IsDigit(r[i])
    decreases n
  {
    var last := ['0' + (n % 10) as char];
    if n < 10 then last else Digits(n / 10) + last
  }

  /** `str(n)`. */
  function IntToString(n: int): string {
    if n < 0 then "-" + Digits(-n) else Digits(n)
  }

  lemma {:induction false} DigitsValueOfDigits(n: nat)
    ensures DigitsValue(Digits(n)) == n
    decreases n
  {
    var r := Digits(n);
    if n >= 10 {
      DigitsValueOfDigits(n / 10);
      assert r[..|r| - 1] == Digits(n / 10);
    }
  }

  /** `int(str(n)) == n`. */
  lemma ParseIntToString(n: int)
    ensures ParseInt(IntToString(n)) == Ok(n)
  {
    if n < 0 {
      var m: nat := -n;
      ParseIntNegative(m);
      assert IntToString(n) == "-" + Digits(m);
    } else {
      var m: nat := n;
      ParseIntDigits(m);
      assert IntToString(n) == Digits(m);
    }
  }

  /** `int()` reads a natural number's digits back. */
  lemma ParseIntDigits(m: nat)
    ensures ParseInt(Digits(m)) == Ok(m)
  {
    DigitsValueOfDigits(m);
    DigitBodyOfDigits(m);
    NumberTextStripped(m, false);
    ParseIntUnsigned(Digits(m));
  }

  /** `int()` reads a minus sign and a number's digits back as the negated
      number. */
  lemma ParseIntNegative(m: nat)
    ensures ParseInt("-" + Digits(m)) == Ok(-(m as int))
  {
    var d := Digits(m);
    var s := "-" + d;
    DigitsValueOfDigits(m);
    DigitBodyOfDigits(m);
    NumberTextStripped(m, true);
    assert s[1..] == d;
    ParseIntSigned(s);
  }

  /** A stripped digit body parses to its value. */
  lemma ParseIntUnsigned(t: string)
    requires Strip(t) == t && DigitBody(t)
    ensures ParseInt(t) == Ok(DigitsValue(t) as int)
  {
    assert t[0] != '-' && t[0] != '+';
  }

  /** A stripped minus sign followed by a digit body parses to the negated
      value. */
  lemma ParseIntSigned(t: string)
    requires Strip(t) == t && |t| > 0 && t[0] == '-' && DigitBody(t[1..])
    ensures ParseInt(t) == Ok(-(DigitsValue(t[1..]) as int))
  {
  }

  /** `str(n)` has no surrounding whitespace. */
  lemma NumberTextStripped(m: nat, negative: bool)
    ensures var s := if negative then "-" + Digits(m) else Digits(m); Strip(s) == s
  {
    var s := if negative then "-" + Digits(m) else Digits(m);
    var d := Digits(m);
    assert IsDigit(d[|d| - 1]) && s[|s| - 1] == d[|d| - 1];
    assert !IsSpace(s[0]) && !IsSpace(s[|s| - 1]);
    StripStripped(s);
  }

  /** The digits of a number form a valid `int()` body. */
  lemma DigitBodyOfDigits(n: nat)
    ensures DigitBody(Digits(n))
  {
    var r := Digits(n);
    assert forall i :: 0 <= i < |r| - 1 ==> r[i] != '_';
  }

  /** The position of the first `e` or `E`, or `|s|` when there is none. */
  function ExponentMark(s: string): (i: nat)
    ensures i <= |s| && forall k :: 0 <= k < i ==> s[k] != 'e' && s[k] != 'E'
    ensures i < |s| ==> s[i] == 'e' || s[i] == 'E'
  {
    if |s| == 0 then 0
    else if s[0] == 'e' || s[0] == 'E' then 0
    else 1 + ExponentMark(s[1..])
  }

  /** A mantissa: digits with an optional `.`, at least one digit on some
      side of it. */
  predicate PointFloat(m: string) {
    if '.' !in m then DigitBody(m)
    else
      var i := IndexOf(m, '.');
      var whole, fraction := m[..i], m[i + 1..];
      (whole == "" || DigitBody(whole)) && (fraction == "" || DigitBody(fraction)) &&
      (whole != "" || fraction != "")
  }

  /** A decimal float: a mantissa, then optionally `e`/`E`, a sign and
      digits. */
  predicate DecimalFloat(t: string) {
    var e := ExponentMark(t);
    if e == |t| then PointFloat(t)
    else
      var x := t[e + 1..];
      PointFloat(t[..e]) && DigitBody(if |x| > 0 && (x[0] == '+' || x[0] == '-') then x[1..] else x)
  }

  /** `float(s)` succeeds: surrounding whitespace, an optional sign, then a
      decimal float or, in any case, `inf`, `infinity` or `nan`. */
  predicate FloatLiteral(s: string) {
    var t := Strip(s);
    var body := if |t| > 0 && (t[0] == '-' || t[0] == '+') then t[1..] else t;
    DecimalFloat(body) || Lower(body) in {"inf", "infinity", "nan"}
  }

  /** `float(s)`, keeping only whether it raises: the value itself is a
      floating-point number and stays outside the model. */
  function CheckFloat(s: string): (r: Result<()>)
    ensures r.Ok? <==> FloatLiteral(s)
    ensures r.Err? ==> r.error == ValueError("could not convert string to float: '" + s + "'")
  {
    if FloatLiteral(s) then Ok(()) else Err(ValueError("could not convert string to float: '" + s + "'"))
  }

  /** A digit body holds neither a point nor an exponent mark. */
  lemma DigitBodyIsPointFloat(s: string)
    requires DigitBody(s)
    ensures DecimalFloat(s)
  {
    assert forall k :: 0 <= k < |s| ==> s[k] != '.' && s[k] != 'e' && s[k] != 'E';
  }

  /** Every text `int()` accepts, `float()` accepts too. */
  lemma IntTextIsFloatText(s: string)
    requires ParseInt(s).Ok?
    ensures FloatLiteral(s)
  {
    var t := Strip(s);
    var body := if |t| > 0 && (t[0] == '-' || t[0] == '+') then t[1..] else t;
    DigitBodyIsPointFloat(body);
  }

  /** The metric, optimizer, interpolator and resolution count a parameter
      dictionary sets; each setting absent from it keeps its value. */
  function ApplyOverrides(s: Settings, d: map<string, string>): (r: Result<Settings>)
    ensures r.Ok? ==> r.value.metric == (if "Metric" in d then d["Metric"] else s.metric)
    ensures r.Ok? ==> r.value.optimizer == (if "Optimizer" in d then d["Optimizer"] else s.optimizer)
    ensures r.Ok? ==> r.value.interpolator == (if "Interpolator" in d then d["Interpolator"] else s.interpolator)
    ensures "NumberOfResolutions" !in d ==> r.Ok? && r.value.resolutions == s.resolutions
    ensures "NumberOfResolutions" in d ==> (r.Ok? <==> ParseInt(d["NumberOfResolutions"]).Ok?)
    ensures "NumberOfResolutions" in d && r.Ok? ==> r.value.resolutions == ParseInt(d["NumberOfResolutions"]).value
  {
    var metric := if "Metric" in d then d["Metric"] else s.metric;
    var optimizer := if "Optimizer" in d then d["Optimizer"] else s.optimizer;
    var interpolator := if "Interpolator" in d then d["Interpolator"] else s.interpolator;
    if "NumberOfResolutions" in d then
      var n :- ParseInt(d["NumberOfResolutions"]);
      Ok(Settings(metric, optimizer, interpolator, n))
    else Ok(Settings(metric, optimizer, interpolator, s.resolutions))
  }

  /** Python's `s[:n]`: a negative `n` counts from the end. */
  function SliceTo<T>(s: seq<T>, n: int): (r: seq<T>)
    ensures |r| <= |s| && r == s[..|r|]
    ensures 0 <= n <= |s| ==> |r| == n
    ensures n >= |s| ==> r == s
    ensures n < 0 ==> |r| == (if |s| + n > 0 then |s| + n else 0)
  {
    if n >= 0 then (if n <= |s| then s[..n] else s)
    else if |s| + n > 0 then s[..|s| + n] else []
  }

  const ShrinkFactors: seq<int> := [4, 2, 1]
  const SmoothingSigmas: seq<int> := [2, 1, 0]

  /** The multi-resolution schedule: shrink factors and smoothing sigmas per
      level. */
  datatype Schedule = Schedule(shrink: seq<int>, sigmas: seq<int>)

  function MakeSchedule(resolutions: int): (r: Schedule)
    ensures |r.shrink| == |r.sigmas| <= 3
    ensures 0 <= resolutions <= 3 ==> |r.shrink| == resolutions
    ensures forall i :: 0 <= i < |r.shrink| ==> r.shrink[i] == ShrinkFactors[i] && r.sigmas[i] == SmoothingSigmas[i]
  {
    Schedule(SliceTo(ShrinkFactors, resolutions), SliceTo(SmoothingSigmas, resolutions))
  }

  /** Each level halves the shrinking of the previous one and smooths one
      unit less, ending at full resolution without smoothing when all three
      levels are used. */
  lemma ScheduleCoarseToFine(resolutions: int)
    ensures var s := MakeSchedule(resolutions);
      (forall i :: 0 < i < |s.shrink| ==> s.shrink[i - 1] == 2 * s.shrink[i] && s.sigmas[i - 1] == s.sigmas[i] + 1) &&
      (resolutions >= 3 ==> s == Schedule([4, 2, 1], [2, 1, 0])) &&
      (resolutions <= -3 || resolutions == 0 ==> s == Schedule([], []))
  {
  }

  /** The optimizer, metric and sampler parameters read after the
      schedule is set up: the iteration count (with a learning rate from
      `SP_a`, default `500.0`), the histogram bins (only for the Mattes
      mutual-information metric) and random sampling (from
      `NumberOfSpatialSamples`). The floating-point learning rate and
      sampling percentage are only checked for parseability. */
  datatype Tuning = Tuning(iterations: Option<int>, histogramBins: Option<int>, randomSampling: bool)

  const MattesMetric := "AdvancedMattesMutualInformation"
  const DefaultLearningRate := "500.0"

  function LearningRateText(d: map<string, string>): string {
    if "SP_a" in d then d["SP_a"] else DefaultLearningRate
  }

  /** Whether every conversion the additional parameters go through
      succeeds. */
  predicate TuningParses(metric: string, d: map<string, string>) {
    ("MaximumNumberOfIterations" in d ==>
      FloatLiteral(LearningRateText(d)) && ParseInt(d["MaximumNumberOfIterations"]).Ok?) &&
    ("NumberOfHistogramBins" in d && metric == MattesMetric ==> ParseInt(d["NumberOfHistogramBins"]).Ok?) &&
    ("NumberOfSpatialSamples" in d ==> FloatLiteral(d["NumberOfSpatialSamples"]))
  }

  /** The additional parameters, in the order the code converts them:
      the learning rate before the iteration count, then the bins, then the
      spatial samples; the first conversion that fails raises. */
  function Tune(metric: string, d: map<string, string>): (r: Result<Tuning>)
    ensures r.Ok? <==> TuningParses(metric, d)
    ensures r.Err? ==> r.error.kind == "ValueError"
    ensures r.Ok? ==> (r.value.iterations.Some? <==> "MaximumNumberOfIterations" in d)
    ensures r.Ok? && r.value.iterations.Some? ==>
      ParseInt(d["MaximumNumberOfIterations"]) == Ok(r.value.iterations.value)
    ensures r.Ok? ==> (r.value.histogramBins.Some? <==> "NumberOfHistogramBins" in d && metric == MattesMetric)
    ensures r.Ok? && r.value.histogramBins.Some? ==>
      ParseInt(d["NumberOfHistogramBins"]) == Ok(r.value.histogramBins.value)
    ensures r.Ok? ==> (r.value.randomSampling <==> "NumberOfSpatialSamples" in d)
  {
    var iterations :-
      if "MaximumNumberOfIterations" !in d then Ok(None)
      else
        var _ :- CheckFloat(LearningRateText(d));
        var n :- ParseInt(d["MaximumNumberOfIterations"]);
        Ok(Some(n));
    var bins :-
      if "NumberOfHistogramBins" in d && metric == MattesMetric then
        var n :- ParseInt(d["NumberOfHistogramBins"]);
        Ok(Some(n))
      else Ok(None);
    var _ :- if "NumberOfSpatialSamples" in d then CheckFloat(d["NumberOfSpatialSamples"]) else Ok(());
    Ok(Tuning(iterations, bins, "NumberOfSpatialSamples" in d))
  }

  /** `SP_a` is read only together with an iteration count: a malformed
      learning rate raises when the iteration count is present, and is
      ignored when it is absent. */
  lemma LearningRateNeedsIterations(metric: string, d: map<string, string>, rate: string)
    requires "SP_a" in d && !FloatLiteral(d["SP_a"])
    ensures "MaximumNumberOfIterations" in d ==>
      Tune(metric, d) == Err(ValueError("could not convert string to float: '" + d["SP_a"] + "'"))
    ensures "MaximumNumberOfIterations" !in d ==> Tune(metric, d) == Tune(metric, d["SP_a" := rate])
  {
    var e := d["SP_a" := rate];
    assert "SP_a"[0] == 'S' && "MaximumNumberOfIterations"[0] == 'M' && "NumberOfHistogramBins"[0] == 'N';
    assert "NumberOfSpatialSamples"[0] == 'N';
    assert ("MaximumNumberOfIterations" in e) == ("MaximumNumberOfIterations" in d);
    assert ("NumberOfHistogramBins" in e) == ("NumberOfHistogramBins" in d);
    assert ("NumberOfSpatialSamples" in e) == ("NumberOfSpatialSamples" in d);
  }

  /** The histogram bins are ignored, however malformed, under any metric
      other than Mattes mutual information. */
  lemma BinsIgnoredForOtherMetrics(metric: string, d: map<string, string>, bins: string)
    requires metric != MattesMetric && "NumberOfHistogramBins" !in d
    ensures Tune(metric, d["NumberOfHistogramBins" := bins]) == Tune(metric, d)
  {
    var e := d["NumberOfHistogramBins" := bins];
    assert "NumberOfHistogramBins"[0] == 'N' && "NumberOfHistogramBins"[8] == 'H';
    assert "SP_a"[0] == 'S' && "MaximumNumberOfIterations"[0] == 'M' && "NumberOfSpatialSamples"[8] == 'S';
    assert LearningRateText(e) == LearningRateText(d);
    assert ("MaximumNumberOfIterations" in e) == ("MaximumNumberOfIterations" in d);
    assert ("NumberOfSpatialSamples" in e) == ("NumberOfSpatialSamples" in d);
  }

  /** A configured registration: settings, schedule and the additional
      parameters. */
  datatype Setup = Setup(settings: Settings, schedule: Schedule, tuning: Tuning)

  /** Parameter files on disk, by path, as their lines. */
  type Files = map<string, seq<string>>

  /** `BaseRegistration(..., parameter_file)`: with a non-empty file path the
      file is read (a missing one raises before anything is read) and its
      overrides applied, the schedule set up from the resolution count, and
      the additional parameters converted against the final metric. */
  function Configure(s: Settings, parameterFile: Option<string>, files: Files): (r: Result<Setup>)
    ensures parameterFile.None? || parameterFile == Some("") ==>
      r == Ok(Setup(s, MakeSchedule(s.resolutions), Tuning(None, None, false)))
    ensures parameterFile.Some? && parameterFile.value != "" && parameterFile.value !in files ==>
      r == Err(Error("FileNotFoundError", "Parameter file not found: " + parameterFile.value))
    ensures r.Ok? ==> r.value.schedule == MakeSchedule(r.value.settings.resolutions)
    ensures parameterFile.Some? && parameterFile.value != "" && parameterFile.value in files ==>
      var d := ParseLines(files[parameterFile.value]);
      var applied := ApplyOverrides(s, d);
      (r.Ok? <==> applied.Ok? && TuningParses(applied.value.metric, d)) &&
      (r.Ok? ==> r.value.settings == applied.value && r.value.tuning == Tune(applied.value.metric, d).value)
    ensures r.Err? ==> r.error.kind in {"FileNotFoundError", "ValueError"}
  {
    if parameterFile.None? || parameterFile.value == "" then Ok(Setup(s, MakeSchedule(s.resolutions), Tuning(None, None, false)))
    else if parameterFile.value !in files then
      Err(Error("FileNotFoundError", "Parameter file not found: " + parameterFile.value))
    else
      var d := ParseLines(files[parameterFile.value]);
      var applied :- ApplyOverrides(s, d);
      var tuning :- Tune(applied.metric, d);
      Ok(Setup(applied, MakeSchedule(applied.resolutions), tuning))
  }
}

=== FILE: preprocessing.dfy ===
/** The comprehensive preprocessing pipeline: standardization, optional
    segmentation and region-of-interest extraction, then registration, run
    by the pipeline engine over a context of images.

    Segmentation, cropping, building a registration and registering are
    image-toolkit work; they are parameters here (see `Library`). Each
    step's `execute` is a function of the step and the context that yields
    the step (the standardization step trains its model in place) and the
    step's outcome. */
module Preprocessing {
  import opened Wrappers
  import opened Imaging
  import opened Standardizers
  import ZScoreMap
  import Roi
  import Factory
  import PyStr
  import Engine
  import opened Context

  datatype Step =
    | StandardizationStep(methodName: string, standardizer: ValidStandardizer)
    | SegmentationStep
    | ROIExtractionStep(padding: int)
    | RegistrationStep(registrationType: string)

  /** The toolkit calls the steps make. `construct` is the registration
      class's constructor, which may fail; `register` receives the fixed
      image, the moving image and the fixed mask exactly as they were looked
      up (the moving mask is always `None`). */
  datatype Library = Library(
    sqrt: ZScoreMap.Root,
    segment: Value -> Result<Image>,
    toolkit: Roi.Toolkit,
    construct: Factory.Kind -> Option<Error>,
    register: (Factory.Kind, Value, Value, Value) -> Result<(Image, Transform)>)

  /** The name each step is registered under. */
  function StepName(s: Step): string {
    match s
    case StandardizationStep(_, _) => "StandardizationStep"
    case SegmentationStep => "SegmentationStep"
    case ROIExtractionStep(_) => "ROIExtractionStep"
    case RegistrationStep(_) => "RegistrationStep"
  }

  /** The error a step raises when a context value it hands to the image
      toolkit is not an image. */
  const ImageExpected: Error := TypeError("expected an image")

  /** `StandardizationStep(methodName)`: only `nyul` and `zscore` are known. */
  function NewStandardizationStep(methodName: string): (r: Result<Step>)
    ensures r.Ok? <==> methodName == "nyul" || methodName == "zscore"
    ensures r.Err? ==> r.error == ValueError("Unknown standardization method: " + methodName)
    ensures methodName == "nyul" ==> r == Ok(StandardizationStep(methodName, DefaultNyul()))
    ensures methodName == "zscore" ==> r == Ok(StandardizationStep(methodName, DefaultZScore()))
  {
    if methodName == "nyul" then Ok(StandardizationStep(methodName, DefaultNyul()))
    else if methodName == "zscore" then Ok(StandardizationStep(methodName, DefaultZScore()))
    else Err(ValueError("Unknown standardization method: " + methodName))
  }

  /** `PreprocessingPipeline(registration_type, standardization_method,
      enable_segmentation)`. */
  function NewPreprocessingPipeline(registrationType: string, methodName: string, enableSegmentation: bool)
    : (r: Result<Engine.Pipeline<Step, Value>>)
    ensures r.Ok? <==> methodName == "nyul" || methodName == "zscore"
    ensures r.Err? ==> r.error == ValueError("Unknown standardization method: " + methodName)
    ensures r.Ok? ==> r.value.name == "ComprehensivePreprocessingPipeline"
    ensures r.Ok? ==> r.value.status == Engine.Initialized && r.value.errors == [] && !r.value.continueOnError
    ensures r.Ok? && enableSegmentation ==>
      Engine.Names(r.value.slots) == ["StandardizationStep", "SegmentationStep", "ROIExtractionStep", "RegistrationStep"]
    ensures r.Ok? && !enableSegmentation ==>
      Engine.Names(r.value.slots) == ["StandardizationStep", "RegistrationStep"]
    ensures r.Ok? ==> forall i :: 0 <= i < |r.value.slots| ==>
      r.value.slots[i].status == Engine.Pending && StepName(r.value.slots[i].impl) == r.value.slots[i].name
    ensures r.Ok? ==> r.value.slots[0].impl == NewStandardizationStep(methodName).value
    ensures r.Ok? ==> r.value.slots[|r.value.slots| - 1].impl == RegistrationStep(registrationType)
    ensures r.Ok? && enableSegmentation ==> r.value.slots[2].impl == ROIExtractionStep(Roi.DefaultPadding)
  {
    var first :- NewStandardizationStep(methodName);
    var p := Engine.AddStep(Engine.NewPipeline("ComprehensivePreprocessingPipeline"), "StandardizationStep", first);
    var p := if enableSegmentation then
               Engine.AddStep(Engine.AddStep(p, "SegmentationStep", SegmentationStep),
                              "ROIExtractionStep", ROIExtractionStep(Roi.DefaultPadding))
             else p;
    var q := Engine.AddStep(p, "RegistrationStep", RegistrationStep(registrationType));
    PreprocessingSlots(first, registrationType, enableSegmentation, p, q);
    PreprocessingSlotsShape(first, registrationType, enableSegmentation);
    Ok(q)
  }

  /** The steps of a freshly built preprocessing pipeline, in order. */
  function SlotsFor(first: Step, registrationType: string, enableSegmentation: bool): seq<Engine.Slot<Step>> {
    [Engine.Slot("StandardizationStep", first, Engine.Pending, None)] +
    (if enableSegmentation then [Engine.Slot("SegmentationStep", SegmentationStep, Engine.Pending, None),
                                 Engine.Slot("ROIExtractionStep", ROIExtractionStep(Roi.DefaultPadding), Engine.Pending, None)]
     else []) +
    [Engine.Slot("RegistrationStep", RegistrationStep(registrationType), Engine.Pending, None)]
  }

  /** The constructor's `add_step` calls leave exactly those steps. */
  lemma PreprocessingSlots(first: Step, registrationType: string, enableSegmentation: bool,
                           p: Engine.Pipeline<Step, Value>, q: Engine.Pipeline<Step, Value>)
    requires var p1 := Engine.AddStep(Engine.NewPipeline("ComprehensivePreprocessingPipeline"), "StandardizationStep", first);
      p == if enableSegmentation then
             Engine.AddStep(Engine.AddStep(p1, "SegmentationStep", SegmentationStep),
                            "ROIExtractionStep", ROIExtractionStep(Roi.DefaultPadding))
           else p1
    requires q == Engine.AddStep(p, "RegistrationStep", RegistrationStep(registrationType))
    ensures q.name == "ComprehensivePreprocessingPipeline" && q.status == Engine.Initialized
    ensures q.errors == [] && !q.continueOnError
    ensures q.slots == SlotsFor(first, registrationType, enableSegmentation)
  {
  }

  /** The names, statuses and implementations of those steps. */
  lemma PreprocessingSlotsShape(first: Step, registrationType: string, enableSegmentation: bool)
    requires first.StandardizationStep?
    ensures var s := SlotsFor(first, registrationType, enableSegmentation);
      && (enableSegmentation ==>
            Engine.Names(s) == ["StandardizationStep", "SegmentationStep", "ROIExtractionStep", "RegistrationStep"])
      && (!enableSegmentation ==> Engine.Names(s) == ["StandardizationStep", "RegistrationStep"])
      && (forall i :: 0 <= i < |s| ==> s[i].status == Engine.Pending && StepName(s[i].impl) == s[i].name)
      && s[0].impl == first
      && s[|s| - 1].impl == RegistrationStep(registrationType)
      && (enableSegmentation ==> s[2].impl == ROIExtractionStep(Roi.DefaultPadding))
  {
    var s := SlotsFor(first, registrationType, enableSegmentation);
    var names := Engine.Names(s);
    if enableSegmentation {
      assert |names| == 4 && names[0] == "StandardizationStep" && names[1] == "SegmentationStep";
      assert names[2] == "ROIExtractionStep" && names[3] == "RegistrationStep";
    } else {
      assert |names| == 2 && names[0] == "StandardizationStep" && names[1] == "RegistrationStep";
    }
  }

  /** The standardization step: the T2W image, when present, is
      standardized by the step's model, which is trained on that image alone
      if it is not trained yet; the ADC image, when present, is standardized
      by a fresh z-score model using its own statistics. Yields the
      (possibly newly trained) model and the results. */
  function Standardize(lib: Library, st: ValidStandardizer, data: Data): (r: (ValidStandardizer, Result<Data>))
    ensures st.trained ==> r.0 == st
    ensures r.1.Ok? ==> r.1.value.Keys <= {"t2w_standardized", "adc_standardized"}
    ensures r.1.Ok? ==> ("t2w_standardized" in r.1.value <==> Present(data, "t2w_image"))
    ensures r.1.Ok? ==> ("adc_standardized" in r.1.value <==> Present(data, "adc_image"))
    ensures r.1.Ok? && Present(data, "t2w_image") ==>
      data["t2w_image"].VImage? && r.0.trained &&
      Standardizers.Transform(r.0, data["t2w_image"].image, lib.sqrt).Ok? &&
      r.1.value["t2w_standardized"] == VImage(Standardizers.Transform(r.0, data["t2w_image"].image, lib.sqrt).value) &&
      (r.0 == st || Ok(r.0) == Train(st, [data["t2w_image"].image], lib.sqrt))
    ensures r.1.Ok? && Present(data, "adc_image") ==>
      data["adc_image"].VImage? &&
      Standardizers.Transform(DefaultZScore(), data["adc_image"].image, lib.sqrt).Ok? &&
      r.1.value["adc_standardized"] == VImage(Standardizers.Transform(DefaultZScore(), data["adc_image"].image, lib.sqrt).value)
    ensures !Present(data, "t2w_image") ==> r.0 == st
    ensures StandardizeSucceeds(lib, st, data) ==> r.1.Ok?
  {
    var t2w := Get(data, "t2w_image", VNone);
    var adc := Get(data, "adc_image", VNone);
    var (model, first) :=
      if t2w == VNone then (st, Ok(map[]))
      else if !t2w.VImage? then (st, Err(ImageExpected))
      else
        var trained := if st.trained then Ok(st) else Train(st, [t2w.image], lib.sqrt);
        if trained.Err? then (st, Err(trained.error))
        else
          var model: ValidStandardizer := trained.value;
          var out := Standardizers.Transform(model, t2w.image, lib.sqrt);
          if out.Err? then (model, Err(out.error))
          else (model, Ok(map["t2w_standardized" := VImage(out.value)]));
    if first.Err? then (model, first)
    else if adc == VNone then (model, first)
    else if !adc.VImage? then (model, Err(ImageExpected))
    else
      var out := Standardizers.Transform(DefaultZScore(), adc.image, lib.sqrt);
      if out.Err? then (model, Err(out.error))
      else (model, Ok(first.value["adc_standardized" := VImage(out.value)]))
  }

  /** When every present image is an image, the T2W model trains (if it
      must) and both transforms succeed, the standardization step succeeds. */
  predicate StandardizeSucceeds(lib: Library, st: ValidStandardizer, data: Data) {
    && (!Present(data, "t2w_image") ||
          (data["t2w_image"].VImage? &&
           var m := if st.trained then Ok(st) else Train(st, [data["t2w_image"].image], lib.sqrt);
           m.Ok? && Standardizers.Transform(m.value, data["t2w_image"].image, lib.sqrt).Ok?))
    && (!Present(data, "adc_image") ||
          (data["adc_image"].VImage? &&
           Standardizers.Transform(DefaultZScore(), data["adc_image"].image, lib.sqrt).Ok?))
  }

  /** Once trained, the step's model is never retrained: a second run over
      any context keeps it, and a successful run on a T2W image leaves it
      trained. */
  lemma StandardizeTrainsOnce(lib: Library, st: ValidStandardizer, a: Data, b: Data)
    ensures var first := Standardize(lib, st, a);
      (first.1.Ok? && Present(a, "t2w_image") ==> first.0.trained) &&
      (first.0.trained ==> Standardize(lib, first.0, b).0 == first.0)
  {
  }

  /** The image segmentation works on: `t2w_standardized` when that key
      exists, even bound to `None`, else `t2w_image`. */
  function SegmentationInput(data: Data): (v: Value)
    ensures "t2w_standardized" in data ==> v == data["t2w_standardized"]
    ensures "t2w_standardized" !in data && "t2w_image" in data ==> v == data["t2w_image"]
    ensures "t2w_standardized" !in data && "t2w_image" !in data ==> v == VNone
  {
    Get(data, "t2w_standardized", Get(data, "t2w_image", VNone))
  }

  /** The segmentation step. */
  function Segment(lib: Library, data: Data): (r: Result<Data>)
    ensures SegmentationInput(data) == VNone ==> r == Err(ValueError("No T2W image available for segmentation"))
    ensures SegmentationInput(data) != VNone ==>
      (r.Ok? <==> lib.segment(SegmentationInput(data)).Ok?)
    ensures r.Ok? ==> r.value == map["prostate_segmentation" := VImage(lib.segment(SegmentationInput(data)).value)]
  {
    var t2w := SegmentationInput(data);
    if t2w == VNone then Err(ValueError("No T2W image available for segmentation"))
    else
      var seg :- lib.segment(t2w);
      Ok(map["prostate_segmentation" := VImage(seg)])
  }

  /** The images the region-of-interest step crops, in this order. */
  const RoiKeys: seq<string> := ["t2w_standardized", "adc_standardized", "t2w_image", "adc_image"]

  /** The crop of one context value by the segmentation: the cropped image
      and the cropped mask. */
  function Crop(tk: Roi.Toolkit, v: Value, seg: Value, padding: int): (r: Result<(Image, Image)>)
    ensures v.VImage? && seg.VImage? ==> r == Roi.ExtractBoundingBox(tk, v.image, seg.image, padding)
    ensures !(v.VImage? && seg.VImage?) ==> r == Err(ImageExpected)
  {
    if v.VImage? && seg.VImage? then Roi.ExtractBoundingBox(tk, v.image, seg.image, padding)
    else Err(ImageExpected)
  }

  /** The cropping loop over `keys`: each present key's crop is stored
      under `<key>_roi`; the mask of the last crop is kept. The first failing
      crop is raised. */
  function RoiLoop(tk: Roi.Toolkit, data: Data, seg: Value, padding: int, keys: seq<string>)
    : (r: Result<(Data, Option<Image>)>)
    decreases |keys|
  {
    if |keys| == 0 then Ok((map[], None))
    else
      var prior :- RoiLoop(tk, data, seg, padding, keys[..|keys| - 1]);
      var key := keys[|keys| - 1];
      if !Present(data, key) then Ok(prior)
      else
        var pair :- Crop(tk, data[key], seg, padding);
        Ok((prior.0[key + "_roi" := VImage(pair.0)], Some(pair.1)))
  }

  /** Key `key` is present and cropping it fails. */
  predicate CropFails(tk: Roi.Toolkit, data: Data, seg: Value, padding: int, key: string) {
    Present(data, key) && Crop(tk, data[key], seg, padding).Err?
  }

  /** The cropping loop fails iff some present key's crop fails, and then
      with the first such failure. */
  lemma RoiLoopFailure(tk: Roi.Toolkit, data: Data, seg: Value, padding: int, keys: seq<string>)
    ensures var r := RoiLoop(tk, data, seg, padding, keys);
      (r.Err? <==> exists i :: 0 <= i < |keys| && CropFails(tk, data, seg, padding, keys[i])) &&
      (r.Err? ==> exists i :: (0 <= i < |keys| && CropFails(tk, data, seg, padding, keys[i]) &&
        r.error == Crop(tk, data[keys[i]], seg, padding).error &&
        forall j :: 0 <= j < i ==> !CropFails(tk, data, seg, padding, keys[j])))
  {
    RoiLoopFails(tk, data, seg, padding, keys);
    if RoiLoop(tk, data, seg, padding, keys).Err? {
      RoiLoopFirstFailure(tk, data, seg, padding, keys);
    }
  }

  /** One more key: an earlier failure is passed on, else this key's crop
      failure is raised, else the loop goes on. */
  lemma RoiLoopStep(tk: Roi.Toolkit, data: Data, seg: Value, padding: int, keys: seq<string>)
    requires |keys| > 0
    ensures var r0 := RoiLoop(tk, data, seg, padding, keys[..|keys| - 1]);
      var r := RoiLoop(tk, data, seg, padding, keys);
      var key := keys[|keys| - 1];
      (r0.Err? ==> r == Err(r0.error)) &&
      (r0.Ok? && CropFails(tk, data, seg, padding, key) ==> r == Err(Crop(tk, data[key], seg, padding).error)) &&
      (r0.Ok? && !CropFails(tk, data, seg, padding, key) ==> r.Ok?)
  {
  }

  lemma {:induction false} RoiLoopFails(tk: Roi.Toolkit, data: Data, seg: Value, padding: int, keys: seq<string>)
    ensures RoiLoop(tk, data, seg, padding, keys).Err? <==>
      exists i :: 0 <= i < |keys| && CropFails(tk, data, seg, padding, keys[i])
    decreases |keys|
  {
    if |keys| > 0 {
      var init, n := keys[..|keys| - 1], |keys| - 1;
      RoiLoopFails(tk, data, seg, padding, init);
      RoiLoopStep(tk, data, seg, padding, keys);
      assert forall i :: 0 <= i < n ==> init[i] == keys[i];
      if RoiLoop(tk, data, seg, padding, init).Err? {
        var i :| 0 <= i < n && CropFails(tk, data, seg, padding, init[i]);
        assert CropFails(tk, data, seg, padding, keys[i]);
      }
    }
  }

  lemma {:induction false} RoiLoopFirstFailure(tk: Roi.Toolkit, data: Data, seg: Value, padding: int, keys: seq<string>)
    requires RoiLoop(tk, data, seg, padding, keys).Err?
    ensures exists i :: (0 <= i < |keys| && CropFails(tk, data, seg, padding, keys[i]) &&
      RoiLoop(tk, data, seg, padding, keys).error == Crop(tk, data[keys[i]], seg, padding).error &&
      forall j :: 0 <= j < i ==> !CropFails(tk, data, seg, padding, keys[j]))
    decreases |keys|, 1
  {
    var init := keys[..|keys| - 1];
    RoiLoopStep(tk, data, seg, padding, keys);
    if RoiLoop(tk, data, seg, padding, init).Err? {
      RoiLoopEarlierFailure(tk, data, seg, padding, keys);
    } else {
      RoiLoopLastFailure(tk, data, seg, padding, keys);
    }
  }

  /** The failure was raised before the last key. */
  lemma {:induction false} RoiLoopEarlierFailure(tk: Roi.Toolkit, data: Data, seg: Value, padding: int, keys: seq<string>)
    requires |keys| > 0 && RoiLoop(tk, data, seg, padding, keys[..|keys| - 1]).Err?
    ensures RoiLoop(tk, data, seg, padding, keys).Err?
    ensures exists i :: (0 <= i < |keys| && CropFails(tk, data, seg, padding, keys[i]) &&
      RoiLoop(tk, data, seg, padding, keys).error == Crop(tk, data[keys[i]], seg, padding).error &&
      forall j :: 0 <= j < i ==> !CropFails(tk, data, seg, padding, keys[j]))
    decreases |keys|, 0
  {
    var init, n := keys[..|keys| - 1], |keys| - 1;
    RoiLoopStep(tk, data, seg, padding, keys);
    var r0 := RoiLoop(tk, data, seg, padding, init);
    RoiLoopFirstFailure(tk, data, seg, padding, init);
    var i :| 0 <= i < n && CropFails(tk, data, seg, padding, init[i]) &&
      r0.error == Crop(tk, data[init[i]], seg, padding).error &&
      forall j :: 0 <= j < i ==> !CropFails(tk, data, seg, padding, init[j]);
    assert keys[i] == init[i];
    forall j | 0 <= j < i ensures !CropFails(tk, data, seg, padding, keys[j]) {
      assert keys[j] == init[j];
    }
  }

  /** The failure was raised by the last key's crop. */
  lemma RoiLoopLastFailure(tk: Roi.Toolkit, data: Data, seg: Value, padding: int, keys: seq<string>)
    requires |keys| > 0 && RoiLoop(tk, data, seg, padding, keys[..|keys| - 1]).Ok?
    requires RoiLoop(tk, data, seg, padding, keys).Err?
    ensures CropFails(tk, data, seg, padding, keys[|keys| - 1])
    ensures RoiLoop(tk, data, seg, padding, keys).error == Crop(tk, data[keys[|keys| - 1]], seg, padding).error
    ensures forall j :: 0 <= j < |keys| - 1 ==> !CropFails(tk, data, seg, padding, keys[j])
  {
    var init, n := keys[..|keys| - 1], |keys| - 1;
    RoiLoopStep(tk, data, seg, padding, keys);
    RoiLoopFails(tk, data, seg, padding, init);
    forall j | 0 <= j < n ensures !CropFails(tk, data, seg, padding, keys[j]) {
      assert keys[j] == init[j];
    }
  }

  /** On success, `<key>_roi` is set exactly for the present keys, to the
      crop of the last key it was computed from; a mask is kept iff some key
      was present, and it is the mask of the last present key's crop. */
  lemma RoiLoopOutputs(tk: Roi.Toolkit, data: Data, seg: Value, padding: int, keys: seq<string>, name: string)
    ensures var r := RoiLoop(tk, data, seg, padding, keys);
      r.Ok? ==> (
        (name in r.value.0 <==> exists i :: 0 <= i < |keys| && Present(data, keys[i]) && name == keys[i] + "_roi") &&
        (r.value.1.Some? <==> exists i :: 0 <= i < |keys| && Present(data, keys[i])) &&
        (r.value.1.Some? ==> exists i :: (0 <= i < |keys| && Present(data, keys[i]) &&
           Crop(tk, data[keys[i]], seg, padding).Ok? && r.value.1.value == Crop(tk, data[keys[i]], seg, padding).value.1 &&
           forall j :: i < j < |keys| ==> !Present(data, keys[j]))))
  {
    if RoiLoop(tk, data, seg, padding, keys).Ok? {
      RoiLoopNames(tk, data, seg, padding, keys, name);
      RoiLoopMaskKept(tk, data, seg, padding, keys);
      RoiLoopMaskLast(tk, data, seg, padding, keys);
      var r := RoiLoop(tk, data, seg, padding, keys).value;
      if r.1.Some? {
        var i :| LastCropped(tk, data, seg, padding, keys, i, r.1.value);
      }
    }
  }

  /** A successful loop over one more key: the earlier keys succeeded, and a
      present last key adds its crop and replaces the mask. */
  lemma RoiLoopOkStep(tk: Roi.Toolkit, data: Data, seg: Value, padding: int, keys: seq<string>)
    requires |keys| > 0 && RoiLoop(tk, data, seg, padding, keys).Ok?
    ensures var r0 := RoiLoop(tk, data, seg, padding, keys[..|keys| - 1]);
      var r := RoiLoop(tk, data, seg, padding, keys).value;
      var key := keys[|keys| - 1];
      r0.Ok? &&
      (!Present(data, key) ==> r == r0.value) &&
      (Present(data, key) ==>
         Crop(tk, data[key], seg, padding).Ok? &&
         r == (r0.value.0[key + "_roi" := VImage(Crop(tk, data[key], seg, padding).value.0)],
               Some(Crop(tk, data[key], seg, padding).value.1)))
  {
  }

  lemma {:induction false} RoiLoopNames(tk: Roi.Toolkit, data: Data, seg: Value, padding: int, keys: seq<string>, name: string)
    requires RoiLoop(tk, data, seg, padding, keys).Ok?
    ensures name in RoiLoop(tk, data, seg, padding, keys).value.0 <==>
      exists i :: 0 <= i < |keys| && Present(data, keys[i]) && name == keys[i] + "_roi"
    decreases |keys|
  {
    if |keys| > 0 {
      var init, n := keys[..|keys| - 1], |keys| - 1;
      RoiLoopOkStep(tk, data, seg, padding, keys);
      RoiLoopNames(tk, data, seg, padding, init, name);
      assert forall i :: 0 <= i < n ==> init[i] == keys[i];
    }
  }

  lemma {:induction false} RoiLoopMaskKept(tk: Roi.Toolkit, data: Data, seg: Value, padding: int, keys: seq<string>)
    requires RoiLoop(tk, data, seg, padding, keys).Ok?
    ensures RoiLoop(tk, data, seg, padding, keys).value.1.Some? <==> exists i :: 0 <= i < |keys| && Present(data, keys[i])
    decreases |keys|
  {
    if |keys| > 0 {
      var init, n := keys[..|keys| - 1], |keys| - 1;
      RoiLoopOkStep(tk, data, seg, padding, keys);
      RoiLoopMaskKept(tk, data, seg, padding, init);
      assert forall i :: 0 <= i < n ==> init[i] == keys[i];
    }
  }

  /** `keys[i]` is present, its crop succeeds with mask `mask`, and no
      later key is present. */
  predicate LastCropped(tk: Roi.Toolkit, data: Data, seg: Value, padding: int, keys: seq<string>, i: int,
                        mask: Image) {
    0 <= i < |keys| && Present(data, keys[i]) &&
    Crop(tk, data[keys[i]], seg, padding).Ok? && mask == Crop(tk, data[keys[i]], seg, padding).value.1 &&
    forall j :: i < j < |keys| ==> !Present(data, keys[j])
  }

  lemma {:induction false} RoiLoopMaskLast(tk: Roi.Toolkit, data: Data, seg: Value, padding: int, keys: seq<string>)
    requires RoiLoop(tk, data, seg, padding, keys).Ok?
    ensures var r := RoiLoop(tk, data, seg, padding, keys).value;
      r.1.Some? ==> exists i :: LastCropped(tk, data, seg, padding, keys, i, r.1.value)
    decreases |keys|
  {
    if |keys| > 0 {
      var init, n := keys[..|keys| - 1], |keys| - 1;
      RoiLoopOkStep(tk, data, seg, padding, keys);
      var r := RoiLoop(tk, data, seg, padding, keys).value;
      if Present(data, keys[n]) {
        assert LastCropped(tk, data, seg, padding, keys, n, r.1.value);
      } else if r.1.Some? {
        RoiLoopMaskLast(tk, data, seg, padding, init);
        var i :| LastCropped(tk, data, seg, padding, init, i, r.1.value);
        LastCroppedExtends(tk, data, seg, padding, keys, i, r.1.value);
      }
    }
  }

  /** A key cropped last before an absent final key is still cropped
      last. */
  lemma LastCroppedExtends(tk: Roi.Toolkit, data: Data, seg: Value, padding: int, keys: seq<string>, i: int,
                           mask: Image)
    requires |keys| > 0 && !Present(data, keys[|keys| - 1])
    requires LastCropped(tk, data, seg, padding, keys[..|keys| - 1], i, mask)
    ensures LastCropped(tk, data, seg, padding, keys, i, mask)
  {
    var init := keys[..|keys| - 1];
    assert keys[i] == init[i];
    forall j | i < j < |keys| ensures !Present(data, keys[j]) {
      if j < |init| { assert keys[j] == init[j]; }
    }
  }

  /** On success, a present key's `<key>_roi` is the cropped image of that
      key, provided no later key is the same. */
  lemma {:induction false} RoiLoopImages(tk: Roi.Toolkit, data: Data, seg: Value, padding: int, keys: seq<string>, i: nat)
    requires i < |keys| && Present(data, keys[i])
    requires forall j :: i < j < |keys| ==> keys[j] != keys[i]
    ensures var r := RoiLoop(tk, data, seg, padding, keys);
      r.Ok? ==> (keys[i] + "_roi" in r.value.0 && Crop(tk, data[keys[i]], seg, padding).Ok? &&
        r.value.0[keys[i] + "_roi"] == VImage(Crop(tk, data[keys[i]], seg, padding).value.0))
    decreases |keys|
  {
    var n := |keys| - 1;
    var init := keys[..n];
    if i < n {
      RoiLoopImages(tk, data, seg, padding, init, i);
      assert init[i] == keys[i];
      if RoiLoop(tk, data, seg, padding, keys).Ok? && Present(data, keys[n]) {
        RoiNameInjective(keys[n], keys[i]);
      }
    }
  }

  lemma RoiNameInjective(a: string, b: string)
    requires a != b
    ensures a + "_roi" != b + "_roi"
  {
    if |a| == |b| {
      assert (a + "_roi")[..|a|] == a && (b + "_roi")[..|b|] == b;
    }
  }

  /** The error of reading `roi_mask` when no image was cropped. */
  const UnboundRoiMask: Error :=
    Error("UnboundLocalError", "cannot access local variable 'roi_mask' where it is not associated with a value")

  /** The region-of-interest step. Without a segmentation the result is
      empty; otherwise each present image is cropped and `roi_mask` is the
      last crop's mask, which does not exist when nothing was cropped. */
  function ExtractRoi(tk: Roi.Toolkit, padding: int, data: Data): (r: Result<Data>)
    ensures Get(data, "prostate_segmentation", VNone) == VNone ==> r == Ok(map[])
    ensures (Get(data, "prostate_segmentation", VNone) != VNone &&
      RoiLoop(tk, data, data["prostate_segmentation"], padding, RoiKeys).Ok?) ==>
      (r.Ok? <==> exists i :: 0 <= i < |RoiKeys| && Present(data, RoiKeys[i]))
    ensures Get(data, "prostate_segmentation", VNone) != VNone && r.Ok? ==> "roi_mask" in r.value
    ensures ((forall i :: 0 <= i < |RoiKeys| ==> !Present(data, RoiKeys[i])) &&
      Get(data, "prostate_segmentation", VNone) != VNone) ==> r == Err(UnboundRoiMask)
  {
    var seg := Get(data, "prostate_segmentation", VNone);
    if seg == VNone then Ok(map[])
    else
      RoiLoopFailure(tk, data, seg, padding, RoiKeys);
      var crops :- RoiLoop(tk, data, seg, padding, RoiKeys);
      RoiLoopOutputs(tk, data, seg, padding, RoiKeys, "");
      if crops.1.None? then Err(UnboundRoiMask)
      else Ok(crops.0["roi_mask" := VImage(crops.1.value)])
  }

  /** The region-of-interest step sets `<key>_roi` for each of the four
      image keys iff that image is present, to the crop of that image. */
  lemma ExtractRoiImages(tk: Roi.Toolkit, padding: int, data: Data, i: nat)
    requires i < |RoiKeys| && Get(data, "prostate_segmentation", VNone) != VNone
    requires ExtractRoi(tk, padding, data).Ok?
    ensures var r, key := ExtractRoi(tk, padding, data).value, RoiKeys[i];
      (key + "_roi" in r <==> Present(data, key)) &&
      (Present(data, key) ==> (Crop(tk, data[key], data["prostate_segmentation"], padding).Ok? &&
        r[key + "_roi"] == VImage(Crop(tk, data[key], data["prostate_segmentation"], padding).value.0)))
  {
    var seg, key := data["prostate_segmentation"], RoiKeys[i];
    assert key + "_roi" != "roi_mask";
    var crops := RoiLoop(tk, data, seg, padding, RoiKeys).value;
    RoiLoopOutputs(tk, data, seg, padding, RoiKeys, key + "_roi");
    if Present(data, key) {
      RoiLoopImages(tk, data, seg, padding, RoiKeys, i);
    } else if key + "_roi" in crops.0 {
      var j :| 0 <= j < |RoiKeys| && Present(data, RoiKeys[j]) && key + "_roi" == RoiKeys[j] + "_roi";
      if RoiKeys[j] != key {
        RoiNameInjective(RoiKeys[j], key);
      }
    }
  }

  /** Besides `roi_mask`, the step's result holds only `<key>_roi` names of
      present images, and `roi_mask` is the mask cropped with the last
      present image. */
  lemma ExtractRoiMask(tk: Roi.Toolkit, padding: int, data: Data, name: string)
    requires Get(data, "prostate_segmentation", VNone) != VNone
    requires ExtractRoi(tk, padding, data).Ok?
    ensures var r, seg := ExtractRoi(tk, padding, data).value, data["prostate_segmentation"];
      (name != "roi_mask" ==>
        (name in r <==> exists i :: 0 <= i < |RoiKeys| && Present(data, RoiKeys[i]) && name == RoiKeys[i] + "_roi")) &&
      exists i :: (0 <= i < |RoiKeys| && Present(data, RoiKeys[i]) &&
        Crop(tk, data[RoiKeys[i]], seg, padding).Ok? &&
        r["roi_mask"] == VImage(Crop(tk, data[RoiKeys[i]], seg, padding).value.1) &&
        forall j :: i < j < |RoiKeys| ==> !Present(data, RoiKeys[j]))
  {
    RoiLoopOutputs(tk, data, data["prostate_segmentation"], padding, RoiKeys, name);
  }

  /** The registration inputs: the first of the ROI, standardized and
      original images whose key exists, even when it is bound to `None`. */
  function FixedInput(data: Data): (v: Value)
    ensures "t2w_standardized_roi" in data ==> v == data["t2w_standardized_roi"]
    ensures "t2w_standardized_roi" !in data && "t2w_standardized" in data ==> v == data["t2w_standardized"]
    ensures "t2w_standardized_roi" !in data && "t2w_standardized" !in data && "t2w_image" in data ==>
      v == data["t2w_image"]
    ensures "t2w_standardized_roi" !in data && "t2w_standardized" !in data && "t2w_image" !in data ==> v == VNone
  {
    Get(data, "t2w_standardized_roi", Get(data, "t2w_standardized", Get(data, "t2w_image", VNone)))
  }

  function MovingInput(data: Data): (v: Value)
    ensures "adc_standardized_roi" in data ==> v == data["adc_standardized_roi"]
    ensures "adc_standardized_roi" !in data && "adc_standardized" in data ==> v == data["adc_standardized"]
    ensures "adc_standardized_roi" !in data && "adc_standardized" !in data && "adc_image" in data ==>
      v == data["adc_image"]
    ensures "adc_standardized_roi" !in data && "adc_standardized" !in data && "adc_image" !in data ==> v == VNone
  {
    Get(data, "adc_standardized_roi", Get(data, "adc_standardized", Get(data, "adc_image", VNone)))
  }

  /** The registration class's constructor as the factory calls it. */
  function Construct(lib: Library, kind: Factory.Kind, kwargs: ()): (r: Result<Factory.Kind>)
    ensures r.Ok? <==> lib.construct(kind).None?
    ensures r.Ok? ==> r.value == kind
  {
    if lib.construct(kind).Some? then Err(lib.construct(kind).value) else Ok(kind)
  }

  /** The registration step. */
  function Register(lib: Library, registrationType: string, data: Data): (r: Result<Data>)
    ensures FixedInput(data) == VNone || MovingInput(data) == VNone ==>
      r == Err(ValueError("Both fixed and moving images required for registration"))
    ensures r.Ok? ==> r.value.Keys == {"registered_adc", "registration_transform", "registration_type"}
    ensures r.Ok? ==> r.value["registration_type"] == VText(registrationType)
    ensures r.Ok? ==> (
      var kind := Factory.CreateRegistration(registrationType, (), (k, u) => Construct(lib, k, u));
      kind.Ok? &&
      var out := lib.register(kind.value, FixedInput(data), MovingInput(data), Get(data, "roi_mask", VNone));
      out.Ok? && r.value["registered_adc"] == VImage(out.value.0) &&
      r.value["registration_transform"] == VTransform(out.value.1))
    ensures (FixedInput(data) != VNone && MovingInput(data) != VNone &&
      Factory.CreateRegistration(registrationType, (), (k, u) => Construct(lib, k, u)).Err?) ==>
      r == Err(Factory.CreateRegistration(registrationType, (), (k, u) => Construct(lib, k, u)).error)
    ensures (FixedInput(data) != VNone && MovingInput(data) != VNone &&
      Factory.CreateRegistration(registrationType, (), (k, u) => Construct(lib, k, u)).Ok?) ==>
      var kind := Factory.CreateRegistration(registrationType, (), (k, u) => Construct(lib, k, u)).value;
      var out := lib.register(kind, FixedInput(data), MovingInput(data), Get(data, "roi_mask", VNone));
      (r.Ok? <==> out.Ok?) && (out.Err? ==> r == Err(out.error))
  {
    var fixed := FixedInput(data);
    var moving := MovingInput(data);
    if fixed == VNone || moving == VNone then
      Err(ValueError("Both fixed and moving images required for registration"))
    else
      var kind :- Factory.CreateRegistration(registrationType, (), (k, u) => Construct(lib, k, u));
      var out :- lib.register(kind, fixed, moving, Get(data, "roi_mask", VNone));
      Ok(map["registered_adc" := VImage(out.0), "registration_transform" := VTransform(out.1),
             "registration_type" := VText(registrationType)])
  }

  /** The registration inputs prefer the cropped images, then the
      standardized ones, then the originals, and the fixed mask is
      `roi_mask`; an unknown registration type fails after the inputs are
      checked. */
  lemma RegisterPrefersRoi(lib: Library, registrationType: string, data: Data)
    requires Present(data, "t2w_standardized_roi") && Present(data, "adc_standardized_roi")
    requires "roi_mask" in data
    ensures Register(lib, registrationType, data).Ok? ==>
      var kind := Factory.CreateRegistration(registrationType, (), (k, u) => Construct(lib, k, u)).value;
      lib.register(kind, data["t2w_standardized_roi"], data["adc_standardized_roi"], data["roi_mask"]).Ok?
    ensures PyStr.Lower(registrationType) !in Factory.RegistrationTypes ==>
      Register(lib, registrationType, data) == Err(ValueError("Unknown registration type: " + registrationType))
  {
  }

  /** A step's `execute` as the engine sees it. */
  function Run(lib: Library, s: Step, data: Data): (r: (Step, Engine.StepOutcome<Value>))
    ensures !s.StandardizationStep? ==> r.0 == s
    ensures s.StandardizationStep? ==> r.0 == s.(standardizer := Standardize(lib, s.standardizer, data).0)
    ensures s.StandardizationStep? ==> r.1 == Engine.FromResult(Standardize(lib, s.standardizer, data).1)
    ensures s.SegmentationStep? ==> r.1 == Engine.FromResult(Segment(lib, data))
    ensures s.ROIExtractionStep? ==> r.1 == Engine.FromResult(ExtractRoi(lib.toolkit, s.padding, data))
    ensures s.RegistrationStep? ==> r.1 == Engine.FromResult(Register(lib, s.registrationType, data))
  {
    var (next, out) := match s
      case StandardizationStep(methodName, st) =>
        var (model, out) := Standardize(lib, st, data);
        (StandardizationStep(methodName, model), out)
      case SegmentationStep => (s, Segment(lib, data))
      case ROIExtractionStep(padding) => (s, ExtractRoi(lib.toolkit, padding, data))
      case RegistrationStep(t) => (s, Register(lib, t, data));
    (next, Engine.FromResult(out))
  }

  /** The steps' behaviour: inputs are always accepted and cleanup does
      nothing. */
  function Behaviour(lib: Library): (b: Engine.Behaviour<Step, Value>)
    ensures forall s, data :: b.validate(s, data) && b.execute(s, data) == Run(lib, s, data) && b.cleanup(s).None?
  {
    Engine.Behaviour((s: Step, data: Data) => true, (s: Step, data: Data) => Run(lib, s, data), (s: Step) => None)
  }
}

=== FILE: pystr.dfy ===
/** The Python string operations the pipeline code relies on, over
    `seq<char>`: `strip`, `strip(chars)`, `split(sep)` on one character,
    `join`, `startswith`/`endswith`, `in` and `lower`. */
module PyStr {

  /** The characters `str.isspace()` accepts (Python's whitespace set). */
  predicate IsSpace(c: char) {
    var n := c as int;
    (0x09 <= n <= 0x0D) || (0x1C <= n <= 0x20) || n == 0x85 || n == 0xA0 || n == 0x1680 ||
    (0x2000 <= n <= 0x200A) || n == 0x2028 || n == 0x2029 || n == 0x202F || n == 0x205F || n == 0x3000
  }

  /** `s.lstrip(chars)` for a character predicate. */
  function StripLeft(s: string, drop: char -> bool): (r: string)
    ensures |r| <= |s| && r == s[|s| - |r|..]
    ensures |r| > 0 ==> !drop(r[0])
    ensures forall i :: 0 <= i < |s| - |r| ==> drop(s[i])
  {
    if |s| == 0 || !drop(s[0]) then s else StripLeft(s[1..], drop)
  }

  /** `s.rstrip(chars)` for a character predicate. */
  function StripRight(s: string, drop: char -> bool): (r: string)
    ensures |r| <= |s| && r == s[..|r|]
    ensures |r| > 0 ==> !drop(r[|r| - 1])
    ensures forall i :: |r| <= i < |s| ==> drop(s[i])
  {
    if |s| == 0 || !drop(s[|s| - 1]) then s else StripRight(s[..|s| - 1], drop)
  }

  /** `s.strip()`: leading and trailing whitespace removed. */
  function Strip(s: string): (r: string)
    ensures |r| == 0 || (!IsSpace(r[0]) && !IsSpace(r[|r| - 1]))
    ensures exists i, j :: 0 <= i <= j <= |s| && r == s[i..j]
  {
    var left := StripLeft(s, IsSpace);
    var r := StripRight(left, IsSpace);
    assert r == s[|s| - |left|..|s| - |left| + |r|];
    r
  }

  /** `s.strip('"')`. */
  function StripQuotes(s: string): (r: string)
    ensures |r| == 0 || (r[0] != '"' && r[|r| - 1] != '"')
  {
    StripRight(StripLeft(s, c => c == '"'), c => c == '"')
  }

  /** A string with no surrounding whitespace is its own `strip()`. */
  lemma StripStripped(s: string)
    requires |s| == 0 || (!IsSpace(s[0]) && !IsSpace(s[|s| - 1]))
    ensures Strip(s) == s
  {
  }

  predicate StartsWith(s: string, prefix: string) {
    |prefix| <= |s| && s[..|prefix|] == prefix
  }

  predicate EndsWith(s: string, suffix: string) {
    |suffix| <= |s| && s[|s| - |suffix|..] == suffix
  }

  /** `s.split(sep)` for a one-character separator: the pieces between
      occurrences of `sep`, empty pieces included. */
  function Split(s: string, sep: char): (r: seq<string>)
    ensures |r| >= 1
    ensures forall k :: 0 <= k < |r| ==> sep !in r[k]
    ensures sep !in s ==> r == [s]
    ensures sep in s ==> |r| >= 2
    decreases |s|
  {
    if sep !in s then [s]
    else
      var i := IndexOf(s, sep);
      [s[..i]] + Split(s[i + 1..], sep)
  }

  /** The position of the first `c` in `s`. */
  function IndexOf(s: string, c: char): (i: nat)
    requires c in s
    ensures i < |s| && s[i] == c && c !in s[..i]
  {
    if s[0] == c then 0 else
      assert c in s[1..] by { var k :| 0 <= k < |s| && s[k] == c; assert s[1..][k - 1] == c; }
      var j := IndexOf(s[1..], c);
      assert s[..j + 1] == [s[0]] + s[1..][..j];
      j + 1
  }

  /** `sep.join(parts)`. */
  function Join(parts: seq<string>, sep: string): (r: string)
    ensures |parts| == 1 ==> r == parts[0]
  {
    if |parts| == 0 then "" else if |parts| == 1 then parts[0] else parts[0] + sep + Join(parts[1..], sep)
  }

  /** Splitting and joining back with the same separator gives the
      original string. */
  lemma {:induction false} JoinSplit(s: string, sep: char)
    ensures Join(Split(s, sep), [sep]) == s
    decreases |s|
  {
    if sep in s {
      var i := IndexOf(s, sep);
      JoinSplit(s[i + 1..], sep);
      assert s == s[..i] + [sep] + s[i + 1..];
    }
  }

  /** Joining pieces free of the separator and splitting again gives back
      the pieces. */
  lemma {:induction false} SplitJoin(parts: seq<string>, sep: char)
    requires |parts| >= 1 && forall k :: 0 <= k < |parts| ==> sep !in parts[k]
    ensures Split(Join(parts, [sep]), sep) == parts
    decreases |parts|
  {
    if |parts| > 1 {
      var tail := parts[1..];
      var rest := Join(tail, [sep]);
      assert Join(parts, [sep]) == parts[0] + [sep] + rest;
      assert sep !in parts[0];
      SplitCons(parts[0], sep, rest);
      assert forall k :: 0 <= k < |tail| ==> sep !in tail[k] by {
        forall k | 0 <= k < |tail| ensures sep !in tail[k] { assert tail[k] == parts[k + 1]; }
      }
      SplitJoin(tail, sep);
      assert parts == [parts[0]] + tail;
    }
  }

  /** Splitting a string that starts with a separator-free piece and a
      separator yields that piece first. */
  lemma SplitCons(a: string, sep: char, rest: string)
    requires sep !in a
    ensures Split(a + [sep] + rest, sep) == [a] + Split(rest, sep)
  {
    var s := a + [sep] + rest;
    assert s[|a|] == sep;
    var i := IndexOf(s, sep);
    assert s[..i] == a && s[i + 1..] == rest;
  }

  /** ASCII `str.lower()`: `A`..`Z` become `a`..`z`. */
  function Lower(s: string): (r: string)
    ensures |r| == |s|
    ensures forall i :: 0 <= i < |s| ==> r[i] == LowerChar(s[i])
  {
    seq(|s|, i requires 0 <= i < |s| => LowerChar(s[i]))
  }

  function LowerChar(c: char): char {
    if 'A' <= c <= 'Z' then (c as int - 'A' as int + 'a' as int) as char else c
  }

  /** Lowering is idempotent. */
  lemma LowerIdempotent(s: string)
    ensures Lower(Lower(s)) == Lower(s)
  {
  }
}

=== FILE: roi.dfy ===
/** Region-of-interest extraction: the padded bounding box of a mask's
    label-1 region, clamped to the image, and the prostate-region record.

    The label statistics that find the bounding box, the cropping itself and
    the threshold-based fallback segmentation are image-toolkit work; they
    are parameters here (see `Toolkit`). A bounding box is given as `d`
    start indices followed by `d` sizes. */
module Roi {
  import opened Wrappers
  import opened Imaging

  /** The image-toolkit calls the extractor makes. */
  datatype Toolkit = Toolkit(
    boundingBox: Image -> Result<seq<int>>,
    regionOfInterest: (Image, seq<int>, seq<int>) -> Result<Image>,
    autoSegment: Image -> Image)

  /** The crop window: `start` and `size` per axis. */
  datatype Window = Window(start: seq<int>, size: seq<int>)

  function Max(a: int, b: int): int { if a >= b then a else b }
  function Min(a: int, b: int): int { if a <= b then a else b }

  /** The box's start indices, `bbox[i]` for `i < d`. */
  function Starts(bbox: seq<int>): (r: seq<int>)
    ensures |r| == |bbox| / 2 && forall i :: 0 <= i < |r| ==> r[i] == bbox[i]
  {
    bbox[..|bbox| / 2]
  }

  /** The box's sizes, `bbox[i + d]` for `i < d`. */
  function Sizes(bbox: seq<int>): (r: seq<int>)
    ensures |r| == |bbox| / 2 && forall i :: 0 <= i < |r| ==> r[i] == bbox[i + |bbox| / 2]
  {
    bbox[|bbox| / 2 .. 2 * (|bbox| / 2)]
  }

  /** The padded window of `extract_bounding_box`: the box is widened by
      `padding` on each side, its start clamped at 0 and its extent at the
      image border. The image must have at least `d` axes. */
  function PadWindow(bbox: seq<int>, imageSize: seq<int>, padding: int): (r: Result<Window>)
    ensures r.Ok? <==> |imageSize| >= |bbox| / 2
    ensures r.Err? ==> r.error.kind == "IndexError"
    ensures r.Ok? ==> |r.value.start| == |r.value.size| == |bbox| / 2
    ensures r.Ok? ==> forall i :: 0 <= i < |r.value.start| ==>
      0 <= r.value.start[i] && r.value.start[i] + r.value.size[i] <= imageSize[i]
    ensures r.Ok? ==> forall i :: 0 <= i < |r.value.start| ==>
      r.value.start[i] == Max(0, bbox[i] - padding) &&
      r.value.size[i] == Min(imageSize[i] - r.value.start[i], bbox[i + |bbox| / 2] + 2 * padding)
  {
    var d := |bbox| / 2;
    var starts, sizes := Starts(bbox), Sizes(bbox);
    if |imageSize| < d then Err(Error("IndexError", "tuple index out of range"))
    else
      var start := seq(d, i requires 0 <= i < d => Max(0, starts[i] - padding));
      var size := seq(d, i requires 0 <= i < d => Min(imageSize[i] - start[i], sizes[i] + 2 * padding));
      Ok(Window(start, size))
  }

  /** A box lies inside an image: non-negative starts and sizes, ending
      within each axis. */
  predicate BoxInside(bbox: seq<int>, imageSize: seq<int>) {
    var starts, sizes := Starts(bbox), Sizes(bbox);
    |imageSize| >= |starts| &&
    forall i :: 0 <= i < |starts| ==> 0 <= starts[i] && 0 <= sizes[i] && starts[i] + sizes[i] <= imageSize[i]
  }

  /** With non-negative padding, the crop of a box inside the image contains
      the box, so nothing of the labelled region is lost. */
  lemma WindowContainsBox(bbox: seq<int>, imageSize: seq<int>, padding: int)
    requires padding >= 0 && BoxInside(bbox, imageSize)
    ensures PadWindow(bbox, imageSize, padding).Ok?
    ensures var w, starts, sizes := PadWindow(bbox, imageSize, padding).value, Starts(bbox), Sizes(bbox);
      forall i :: 0 <= i < |starts| ==>
        w.start[i] <= starts[i] && starts[i] + sizes[i] <= w.start[i] + w.size[i] && w.size[i] >= 0
  {
  }

  /** Away from the image border the crop is exactly the box grown by
      `padding` voxels on every side. */
  lemma InteriorWindowIsPaddedBox(bbox: seq<int>, imageSize: seq<int>, padding: int)
    requires |imageSize| >= |bbox| / 2
    requires forall i :: 0 <= i < |Starts(bbox)| ==>
      Starts(bbox)[i] >= padding && Starts(bbox)[i] + Sizes(bbox)[i] + padding <= imageSize[i]
    ensures var w, starts, sizes := PadWindow(bbox, imageSize, padding).value, Starts(bbox), Sizes(bbox);
      forall i :: 0 <= i < |starts| ==> w.start[i] == starts[i] - padding && w.size[i] == sizes[i] + 2 * padding
  {
  }

  /** Near the low border the start is clamped to 0 but the size stays the
      box's size plus twice the padding, so the window reaches past the
      padded box's far end by the part of the padding that was clamped. */
  lemma BorderWindowOvershoots(bbox: seq<int>, imageSize: seq<int>, padding: int, i: nat)
    requires |imageSize| >= |bbox| / 2 && i < |bbox| / 2
    requires 0 <= bbox[i] < padding && bbox[i + |bbox| / 2] + 2 * padding <= imageSize[i]
    ensures var w := PadWindow(bbox, imageSize, padding).value;
      w.start[i] == 0 && w.size[i] == bbox[i + |bbox| / 2] + 2 * padding &&
      w.start[i] + w.size[i] == (bbox[i] + bbox[i + |bbox| / 2] + padding) + (padding - bbox[i]) &&
      w.start[i] + w.size[i] > bbox[i] + bbox[i + |bbox| / 2] + padding
  {
  }

  /** `extract_bounding_box(image, mask, padding)`: the image and the mask
      are cropped to the same window. */
  function ExtractBoundingBox(tk: Toolkit, image: Image, mask: Image, padding: int): (r: Result<(Image, Image)>)
    ensures r.Ok? ==> (tk.boundingBox(mask).Ok? &&
      PadWindow(tk.boundingBox(mask).value, image.size, padding).Ok? &&
      var w := PadWindow(tk.boundingBox(mask).value, image.size, padding).value;
      Ok(r.value.0) == tk.regionOfInterest(image, w.size, w.start) &&
      Ok(r.value.1) == tk.regionOfInterest(mask, w.size, w.start))
    ensures tk.boundingBox(mask).Err? ==> r == Err(tk.boundingBox(mask).error)
    ensures (tk.boundingBox(mask).Ok? &&
      PadWindow(tk.boundingBox(mask).value, image.size, padding).Ok? &&
      var w := PadWindow(tk.boundingBox(mask).value, image.size, padding).value;
      tk.regionOfInterest(image, w.size, w.start).Ok? && tk.regionOfInterest(mask, w.size, w.start).Ok?) ==> r.Ok?
  {
    var bbox :- tk.boundingBox(mask);
    var w :- PadWindow(bbox, image.size, padding);
    var roiImage :- tk.regionOfInterest(image, w.size, w.start);
    var roiMask :- tk.regionOfInterest(mask, w.size, w.start);
    Ok((roiImage, roiMask))
  }

  /** The default padding of `extract_bounding_box`. */
  const DefaultPadding := 10

  /** `extract_prostate_region(t2w, segmentation)`: without a segmentation
      one is computed from the image; the result has exactly the keys
      `roi_image`, `roi_mask`, `original_image` and `segmentation`, the last
      being the given segmentation when there was one. */
  function ExtractProstateRegion(tk: Toolkit, t2w: Image, segmentation: Option<Image>): (r: Result<map<string, Image>>)
    ensures r.Ok? ==> r.value.Keys == {"roi_image", "roi_mask", "original_image", "segmentation"}
    ensures r.Ok? ==> r.value["original_image"] == t2w
    ensures r.Ok? && segmentation.Some? ==> r.value["segmentation"] == segmentation.value
    ensures r.Ok? && segmentation.None? ==> r.value["segmentation"] == tk.autoSegment(t2w)
    ensures r.Ok? <==> ExtractBoundingBox(tk, t2w, segmentation.GetOr(tk.autoSegment(t2w)), DefaultPadding).Ok?
  {
    var seg := if segmentation.Some? then segmentation.value else tk.autoSegment(t2w);
    var pair :- ExtractBoundingBox(tk, t2w, seg, DefaultPadding);
    Ok(map["roi_image" := pair.0, "roi_mask" := pair.1, "original_image" := t2w, "segmentation" := seg])
  }
}

=== FILE: standardizers.dfy ===
/** The intensity standardizers as values: construction, training,
    transformation, and the save/load lifecycle of their parameters.

    A standardizer is Nyul (landmark matching) or ZScore; each carries the
    shared `trained` flag and `parameters` map of the common base class plus
    its own fields. Methods that mutate the Python object return the new
    value instead. */
module Standardizers {
  import opened Wrappers
  import opened Stats
  import opened Imaging
  import NyulMap
  import opened ZScoreMap

  /** A JSON value as `json.dump` writes it and `json.load` reads it back. */
  datatype Json = JNum(n: Num) | JBool(b: bool) | JList(items: seq<Json>)

  type Params = map<string, Json>

  datatype Standardizer =
    | Nyul(trained: bool, parameters: Params, percentages: seq<real>,
           scaleLow: real, scaleHigh: real, standardLandmarks: Option<seq<real>>)
    | ZScore(trained: bool, parameters: Params, robust: bool,
             globalMean: Option<Num>, globalStd: Option<Num>)

  /** The standard landmarks, when present, line up with the percentages.
      Every standardizer the model builds keeps this. */
  predicate Valid(st: Standardizer) {
    st.Nyul? && st.standardLandmarks.Some? ==> |st.standardLandmarks.value| == |st.percentages|
  }

  /** A standardizer every operation of the model accepts. */
  type ValidStandardizer = st: Standardizer | Valid(st) witness ZScore(false, map[], true, None, None)

  /** `NyulStandardizer(landmarks_percentage, standard_scale)`. */
  function NewNyul(percentages: seq<real>, low: real, high: real): (st: Standardizer)
    ensures st.Nyul? && !st.trained && st.parameters == map[]
    ensures st.standardLandmarks == None && Valid(st)
  {
    Nyul(false, map[], percentages, low, high, None)
  }

  /** `NyulStandardizer()` with landmarks 0, 10, ..., 100 and scale (0, 100). */
  function DefaultNyul(): (st: Standardizer)
    ensures st.Nyul? && !st.trained && st.parameters == map[] && Valid(st)
    ensures |st.percentages| == 11 && st.scaleLow == 0.0 && st.scaleHigh == 100.0
  {
    NyulMap.DefaultPercentagesShape();
    NewNyul(NyulMap.DefaultPercentages, NyulMap.DefaultScaleLow, NyulMap.DefaultScaleHigh)
  }

  /** `ZScoreStandardizer(use_robust_statistics)`. */
  function NewZScore(robust: bool): (st: Standardizer)
    ensures st.ZScore? && !st.trained && st.parameters == map[] && st.robust == robust
    ensures st.globalMean == None && st.globalStd == None && Valid(st)
  {
    ZScore(false, map[], robust, None, None)
  }

  /** `ZScoreStandardizer()`: robust statistics are the default. */
  function DefaultZScore(): (st: Standardizer)
    ensures st.ZScore? && st.robust && !st.trained && st.parameters == map[]
  {
    NewZScore(true)
  }

  /** `float` values as a JSON list. */
  function EncodeReals(xs: seq<real>): (j: Json)
    ensures j.JList? && |j.items| == |xs|
  {
    JList(seq(|xs|, i requires 0 <= i < |xs| => JNum(Finite(xs[i]))))
  }

  /** A JSON list of finite numbers read back as reals. */
  function DecodeReals(j: Json): (r: Option<seq<real>>)
    ensures r.Some? ==> j.JList? && |r.value| == |j.items|
  {
    if j.JList? && forall i :: 0 <= i < |j.items| ==> j.items[i].JNum? && j.items[i].n.Finite? then
      Some(seq(|j.items|, i requires 0 <= i < |j.items| => j.items[i].n.r))
    else None
  }

  lemma RealsRoundTrip(xs: seq<real>)
    ensures DecodeReals(EncodeReals(xs)) == Some(xs)
  {
    var j := EncodeReals(xs);
    assert forall i :: 0 <= i < |j.items| ==> j.items[i] == JNum(Finite(xs[i]));
    assert DecodeReals(j).value == xs;
  }

  /** The error `np.percentile` raises for one image, if any: out-of-range
      percentages first, then an image without positive voxels. */
  function PercentileError(voxels: seq<real>, ps: seq<real>): (e: Option<Error>)
    ensures e.None? <==> NyulMap.ValidPercentages(ps) && |Positives(voxels)| > 0
  {
    if !NyulMap.ValidPercentages(ps) then Some(ValueError("Percentiles must be in the range [0, 100]"))
    else if |Positives(voxels)| == 0 then Some(Error("IndexError", "index -1 is out of bounds for axis 0 with size 0"))
    else None
  }

  /** The first per-image percentile error over a list of images. */
  function FirstPercentileError(images: seq<Image>, ps: seq<real>): (e: Option<Error>)
    ensures e.None? <==> forall k :: 0 <= k < |images| ==> PercentileError(images[k].voxels, ps).None?
  {
    if |images| == 0 then None
    else if PercentileError(images[0].voxels, ps).Some? then PercentileError(images[0].voxels, ps)
    else
      assert forall k :: 1 <= k < |images| ==> images[k] == images[1..][k - 1];
      FirstPercentileError(images[1..], ps)
  }

  /** The voxels of each image. */
  function VoxelLists(images: seq<Image>): (r: seq<seq<real>>)
    ensures |r| == |images| && forall k :: 0 <= k < |r| ==> r[k] == images[k].voxels
  {
    seq(|images|, k requires 0 <= k < |images| => images[k].voxels)
  }

  /** `train(images)`. Nyul: the standard landmarks become the evenly spaced
      targets of the scale, stored with the percentages in `parameters`;
      training on no image or with no landmark raises, as numpy does.
      ZScore: the statistics of the pooled positive voxels are stored. */
  function Train(st: Standardizer, images: seq<Image>, sqrt: Root): (r: Result<Standardizer>)
    requires Valid(st)
    ensures r.Ok? ==> r.value.trained && Valid(r.value)
    ensures r.Ok? && st.Nyul? ==> (r.value.Nyul? &&
      r.value == st.(trained := true, parameters := r.value.parameters,
                     standardLandmarks := r.value.standardLandmarks))
    ensures r.Ok? && st.ZScore? ==> (r.value.ZScore? &&
      r.value == st.(trained := true, parameters := r.value.parameters,
                     globalMean := r.value.globalMean, globalStd := r.value.globalStd))
    ensures st.ZScore? ==> r.Ok?
    ensures st.Nyul? ==> (r.Ok? <==>
      |images| > 0 && |st.percentages| > 0 &&
      forall k :: 0 <= k < |images| ==> PercentileError(images[k].voxels, st.percentages).None?)
  {
    match st
    case Nyul(_, params, ps, low, high, _) =>
      if |images| == 0 then
        Err(TypeError("'numpy.float64' object does not support item assignment"))
      else if FirstPercentileError(images, ps).Some? then
        Err(FirstPercentileError(images, ps).value)
      else if |ps| == 0 then
        Err(Error("IndexError", "index 0 is out of bounds for axis 0 with size 0"))
      else
        var landmarks := NyulMap.TrainedLandmarks(|ps|, low, high);
        Ok(st.(trained := true, standardLandmarks := Some(landmarks),
               parameters := params["standard_landmarks" := EncodeReals(landmarks)]
                                   ["landmarks_percentage" := EncodeReals(ps)]))
    case ZScore(_, params, robust, _, _) =>
      var stats := Statistics(Pool(VoxelLists(images)), robust, sqrt);
      Ok(st.(trained := true, globalMean := Some(stats.0), globalStd := Some(stats.1),
             parameters := params["global_mean" := JNum(stats.0)]
                                 ["global_std" := JNum(stats.1)]
                                 ["use_robust" := JBool(robust)]))
  }

  /** The trained Nyul landmarks are the evenly spaced targets of the scale,
      whatever the training images: two successful trainings of the same
      standardizer agree. */
  lemma NyulLandmarksIgnoreImages(st: Standardizer, a: seq<Image>, b: seq<Image>, sqrt: Root)
    requires st.Nyul? && Valid(st)
    requires Train(st, a, sqrt).Ok? && Train(st, b, sqrt).Ok?
    ensures Train(st, a, sqrt).value == Train(st, b, sqrt).value
    ensures Train(st, a, sqrt).value.standardLandmarks ==
      Some(NyulMap.TrainedLandmarks(|st.percentages|, st.scaleLow, st.scaleHigh))
  {
  }

  /** Training replaces what an earlier training stored. */
  lemma TrainReplaces(st: Standardizer, a: seq<Image>, b: seq<Image>, sqrt: Root)
    requires Valid(st) && Train(st, a, sqrt).Ok?
    ensures Train(Train(st, a, sqrt).value, b, sqrt) == Train(st, b, sqrt)
  {
    if st.Nyul? {
      NyulRetrain(st, Train(st, a, sqrt).value, b, sqrt);
    } else {
      ZScoreRetrain(st, Train(st, a, sqrt).value, b, sqrt);
    }
  }

  lemma NyulRetrain(st: Standardizer, once: Standardizer, b: seq<Image>, sqrt: Root)
    requires st.Nyul? && Valid(st) && Valid(once) && once.Nyul? && |st.percentages| > 0
    requires once == st.(trained := true, parameters := once.parameters, standardLandmarks := once.standardLandmarks)
    requires once.parameters == st.parameters
      ["standard_landmarks" := EncodeReals(NyulMap.TrainedLandmarks(|st.percentages|, st.scaleLow, st.scaleHigh))]
      ["landmarks_percentage" := EncodeReals(st.percentages)]
    ensures Train(once, b, sqrt) == Train(st, b, sqrt)
  {
    var ps := st.percentages;
    if |b| > 0 && FirstPercentileError(b, ps).None? && |ps| > 0 {
      var e1 := EncodeReals(NyulMap.TrainedLandmarks(|ps|, st.scaleLow, st.scaleHigh));
      var e2 := EncodeReals(ps);
      assert once.parameters["standard_landmarks" := e1]["landmarks_percentage" := e2]
          == st.parameters["standard_landmarks" := e1]["landmarks_percentage" := e2];
    }
  }

  lemma ZScoreRetrain(st: Standardizer, once: Standardizer, b: seq<Image>, sqrt: Root)
    requires st.ZScore? && once.ZScore?
    requires once == st.(trained := true, parameters := once.parameters,
                         globalMean := once.globalMean, globalStd := once.globalStd)
    requires exists m, s :: once.parameters == st.parameters
      ["global_mean" := JNum(m)]["global_std" := JNum(s)]["use_robust" := JBool(st.robust)]
    ensures Train(once, b, sqrt) == Train(st, b, sqrt)
  {
    var stats := Statistics(Pool(VoxelLists(b)), st.robust, sqrt);
    var e1, e2, e3 := JNum(stats.0), JNum(stats.1), JBool(st.robust);
    assert once.parameters["global_mean" := e1]["global_std" := e2]["use_robust" := e3]
        == st.parameters["global_mean" := e1]["global_std" := e2]["use_robust" := e3];
  }

  /** The error `transform` raises when a voxel map meets a non-finite
      statistic: numpy would fill the voxel with NaN or infinity, which an
      image over `real` cannot hold. */
  const NonFiniteOutput: Error := Error("NonFinite", "non-finite voxel value")

  predicate AllFinite(z: seq<Num>) {
    forall k :: 0 <= k < |z| ==> z[k].Finite?
  }

  /** The values of a sequence of finite numbers. */
  function FiniteValues(z: seq<Num>): (r: seq<real>)
    requires AllFinite(z)
    ensures |r| == |z| && forall k :: 0 <= k < |z| ==> Finite(r[k]) == z[k]
  {
    seq(|z|, k requires 0 <= k < |z| => z[k].r)
  }

  /** `transform(image)`. Nyul: an untrained model raises, then the image's
      own landmarks are mapped onto the standard ones. ZScore: an untrained
      model standardizes the image by its own statistics, a trained one by
      the stored globals. The image's size and voxel count are kept. */
  function Transform(st: Standardizer, image: Image, sqrt: Root): (r: Result<Image>)
    requires Valid(st)
    ensures r.Ok? ==> r.value.size == image.size && |r.value.voxels| == |image.voxels|
    ensures r.Ok? ==> forall k :: 0 <= k < |image.voxels| && image.voxels[k] == 0.0 ==> r.value.voxels[k] == 0.0
    ensures st.Nyul? && !st.trained ==> r == Err(Error("RuntimeError", "Standardizer must be trained before transform"))
  {
    match st
    case Nyul(trained, _, ps, _, _, landmarks) =>
      if !trained then
        Err(Error("RuntimeError", "Standardizer must be trained before transform"))
      else if PercentileError(image.voxels, ps).Some? then
        Err(PercentileError(image.voxels, ps).value)
      else if landmarks.None? then
        Err(TypeError("'NoneType' object is not subscriptable"))
      else if |ps| == 0 then
        Err(Error("IndexError", "index -1 is out of bounds for axis 0 with size 0"))
      else
        var l := NyulMap.ImageLandmarks(image.voxels, ps);
        Ok(Image(image.size, NyulMap.MapVoxels(image.voxels, l, landmarks.value)))
    case ZScore(trained, _, robust, mean, std) =>
      if trained && (mean.None? || std.None?) then
        Err(TypeError(if mean.None? && |Positives(image.voxels)| > 0
                      then "unsupported operand type(s) for -: 'float' and 'NoneType'"
                      else "unsupported operand type(s) for +: 'NoneType' and 'float'"))
      else
        var stats := if trained then (mean.value, std.value)
                     else Statistics(Positives(image.voxels), robust, sqrt);
        var z := ZVoxels(image.voxels, stats.0, stats.1);
        if !AllFinite(z) then Err(NonFiniteOutput)
        else Ok(Image(image.size, FiniteValues(z)))
  }

  /** A trained Nyul standardizer maps each voxel with the piecewise-linear
      map between the image's landmarks and the standard ones. */
  lemma NyulTransformVoxels(st: Standardizer, image: Image, sqrt: Root)
    requires st.Nyul? && Valid(st) && st.trained && st.standardLandmarks.Some?
    requires |st.percentages| > 0 && PercentileError(image.voxels, st.percentages).None?
    ensures Transform(st, image, sqrt).Ok?
    ensures forall k :: 0 <= k < |image.voxels| ==>
      Transform(st, image, sqrt).value.voxels[k] ==
        NyulMap.MapVoxel(image.voxels[k],
                         NyulMap.ImageLandmarks(image.voxels, st.percentages),
                         st.standardLandmarks.value)
  {
  }

  /** An untrained ZScore standardizer uses the statistics of the image's
      own positive voxels, and never fails. */
  lemma ZScoreUntrainedUsesOwnStatistics(robust: bool, image: Image, sqrt: Root)
    ensures Transform(NewZScore(robust), image, sqrt).Ok?
    ensures forall k :: 0 <= k < |image.voxels| ==>
      Transform(NewZScore(robust), image, sqrt).value.voxels[k] ==
        ZVoxel(image.voxels[k], Statistics(Pool([image.voxels]), robust, sqrt).0,
               Statistics(Pool([image.voxels]), robust, sqrt).1).r
  {
    PoolSingle(image.voxels);
    var stats := Statistics(Positives(image.voxels), robust, sqrt);
    var z := ZVoxels(image.voxels, stats.0, stats.1);
    forall k | 0 <= k < |z| ensures z[k].Finite? {
      if image.voxels[k] > 0.0 {
        assert image.voxels[k] in Positives(image.voxels);
      }
    }
  }

  /** A trained z-score standardizer maps each voxel by the stored global
      center and scale, whatever the image's own statistics. It fails
      exactly when some mapped voxel is not a finite number. */
  lemma ZScoreTrainedUsesGlobals(st: Standardizer, image: Image, sqrt: Root)
    requires st.ZScore? && Valid(st) && st.trained && st.globalMean.Some? && st.globalStd.Some?
    ensures Transform(st, image, sqrt).Ok? <==>
      forall k :: 0 <= k < |image.voxels| ==> ZVoxel(image.voxels[k], st.globalMean.value, st.globalStd.value).Finite?
    ensures Transform(st, image, sqrt).Err? ==> Transform(st, image, sqrt) == Err(NonFiniteOutput)
    ensures Transform(st, image, sqrt).Ok? ==> forall k :: 0 <= k < |image.voxels| ==>
      Transform(st, image, sqrt).value.voxels[k] == ZVoxel(image.voxels[k], st.globalMean.value, st.globalStd.value).r
  {
    var z := ZVoxels(image.voxels, st.globalMean.value, st.globalStd.value);
    assert AllFinite(z) <==>
      forall k :: 0 <= k < |image.voxels| ==> ZVoxel(image.voxels[k], st.globalMean.value, st.globalStd.value).Finite?;
  }

  /** `fit_transform(images)`: train once, then transform every image in
      order. */
  function FitTransform(st: Standardizer, images: seq<Image>, sqrt: Root): (r: Result<(Standardizer, seq<Image>)>)
    requires Valid(st)
    ensures r.Ok? <==> (Train(st, images, sqrt).Ok? &&
      forall k :: 0 <= k < |images| ==> Transform(Train(st, images, sqrt).value, images[k], sqrt).Ok?)
    ensures r.Ok? ==> r.value.0 == Train(st, images, sqrt).value && |r.value.1| == |images|
    ensures r.Ok? ==> forall k :: 0 <= k < |images| ==>
      r.value.1[k] == Transform(r.value.0, images[k], sqrt).value
  {
    var trained :- Train(st, images, sqrt);
    var outs :- TransformAll(trained, images, sqrt);
    Ok((trained, outs))
  }

  /** Transforms the images in order; the first failure is raised. */
  function TransformAll(st: Standardizer, images: seq<Image>, sqrt: Root): (r: Result<seq<Image>>)
    requires Valid(st)
    ensures r.Ok? <==> forall k :: 0 <= k < |images| ==> Transform(st, images[k], sqrt).Ok?
    ensures r.Ok? ==> |r.value| == |images|
    ensures r.Ok? ==> forall k :: 0 <= k < |images| ==> r.value[k] == Transform(st, images[k], sqrt).value
  {
    AllOk(TransformEach(st, images, sqrt))
  }

  /** The result of transforming each image on its own. */
  function TransformEach(st: Standardizer, images: seq<Image>, sqrt: Root): (rs: seq<Result<Image>>)
    requires Valid(st)
    ensures |rs| == |images| && forall k :: 0 <= k < |images| ==> rs[k] == Transform(st, images[k], sqrt)
  {
    seq(|images|, k requires 0 <= k < |images| => Transform(st, images[k], sqrt))
  }

  /** Parameter files by path, as `json.dump` leaves them on disk. */
  type ParamStore = map<string, Params>

  /** `save_parameters(path)`: the parameters are written to `path`; every
      other file stays as it was. */
  function SaveParameters(st: Standardizer, store: ParamStore, path: string): (r: ParamStore)
    ensures path in r && r[path] == st.parameters
    ensures forall p :: p != path ==> (p in r <==> p in store)
    ensures forall p :: p != path && p in store ==> r[p] == store[p]
  {
    store[path := st.parameters]
  }

  /** `load_parameters(path)` as written: `parameters` is replaced wholesale
      and `trained` set, while the subclass fields (landmarks, statistics)
      keep whatever they held. A missing file raises. */
  function LoadParameters(st: Standardizer, store: ParamStore, path: string): (r: Result<Standardizer>)
    requires Valid(st)
    ensures path !in store ==> r.Err? && r.error.kind == "FileNotFoundError"
    ensures path in store ==> r.Ok? && r.value.trained && r.value.parameters == store[path]
    ensures r.Ok? ==> Valid(r.value) && r.value.(trained := st.trained, parameters := st.parameters) == st
  {
    if path !in store then
      Err(Error("FileNotFoundError", "[Errno 2] No such file or directory: '" + path + "'"))
    else
      Ok(st.(parameters := store[path], trained := true))
  }

  /** Saving and loading back reproduces the parameters map. */
  lemma SaveLoadRoundTrip(a: Standardizer, b: Standardizer, store: ParamStore, path: string)
    requires Valid(b)
    ensures LoadParameters(b, SaveParameters(a, store, path), path).Ok?
    ensures LoadParameters(b, SaveParameters(a, store, path), path).value.parameters == a.parameters
  {
  }

  /** A blank Nyul standardizer loaded from the parameters of a trained one
      is marked trained yet cannot transform any image: its standard
      landmarks were never restored. */
  lemma LoadedNyulCannotTransform(a: Standardizer, store: ParamStore, path: string, image: Image, sqrt: Root)
    requires a.Nyul? && Valid(a)
    ensures LoadParameters(DefaultNyul(), SaveParameters(a, store, path), path).Ok?
    ensures LoadParameters(DefaultNyul(), SaveParameters(a, store, path), path).value.trained
    ensures Transform(LoadParameters(DefaultNyul(), SaveParameters(a, store, path), path).value, image, sqrt).Err?
  {
  }

  /** Likewise a loaded blank ZScore standardizer raises on every image. */
  lemma LoadedZScoreCannotTransform(a: Standardizer, robust: bool, store: ParamStore, path: string, image: Image, sqrt: Root)
    requires Valid(a)
    ensures Transform(LoadParameters(NewZScore(robust), SaveParameters(a, store, path), path).value, image, sqrt).Err?
  {
  }

  /** A concrete witness: the default Nyul standardizer trained on a
      one-voxel image transforms it, the loaded copy of its parameters does
      not. */
  lemma LoadParametersDiscrepancy(sqrt: Root)
    ensures var image := Image([1], [5.0]);
      var trained := Train(DefaultNyul(), [image], sqrt);
      trained.Ok? &&
      Transform(trained.value, image, sqrt).Ok? &&
      Transform(LoadParameters(DefaultNyul(), SaveParameters(trained.value, map[], "p.json"), "p.json").value, image, sqrt).Err?
  {
    var image := Image([1], [5.0]);
    assert Positives(image.voxels) == [5.0];
    NyulMap.DefaultPercentagesShape();
  }

  /** `load_parameters` that also restores the subclass fields from the
      stored parameters, so that a loaded model transforms exactly as the
      saved one did. Missing or malformed entries raise. */
  function LoadParametersRestoring(st: Standardizer, store: ParamStore, path: string): (r: Result<Standardizer>)
    requires Valid(st)
    ensures path !in store ==> r.Err?
    ensures r.Ok? ==> Valid(r.value) && r.value.trained && r.value.parameters == store[path]
  {
    var loaded :- LoadParameters(st, store, path);
    var params := loaded.parameters;
    match loaded
    case Nyul(_, _, _, _, _, _) =>
      if "standard_landmarks" !in params then Err(KeyError("standard_landmarks"))
      else if "landmarks_percentage" !in params then Err(KeyError("landmarks_percentage"))
      else
        var landmarks := DecodeReals(params["standard_landmarks"]);
        var ps := DecodeReals(params["landmarks_percentage"]);
        if landmarks.None? || ps.None? || |landmarks.value| != |ps.value| then
          Err(TypeError("malformed Nyul parameters"))
        else
          Ok(loaded.(percentages := ps.value, standardLandmarks := Some(landmarks.value)))
    case ZScore(_, _, _, _, _) =>
      if "global_mean" !in params then Err(KeyError("global_mean"))
      else if "global_std" !in params then Err(KeyError("global_std"))
      else if "use_robust" !in params then Err(KeyError("use_robust"))
      else if !params["global_mean"].JNum? || !params["global_std"].JNum? || !params["use_robust"].JBool? then
        Err(TypeError("malformed z-score parameters"))
      else
        Ok(loaded.(globalMean := Some(params["global_mean"].n), globalStd := Some(params["global_std"].n),
                   robust := params["use_robust"].b))
  }

  /** Round trip of the corrected load: a blank standardizer of the same kind
      loaded from a trained model's saved parameters transforms every image
      exactly as the trained model does. */
  lemma RestoringRoundTrip(blank: Standardizer, images: seq<Image>, store: ParamStore, path: string, image: Image, sqrt: Root)
    requires Valid(blank) && !blank.trained && blank.parameters == map[]
    requires Train(blank, images, sqrt).Ok?
    ensures var a := Train(blank, images, sqrt).value;
      var b := LoadParametersRestoring(blank, SaveParameters(a, store, path), path);
      b.Ok? && Transform(b.value, image, sqrt) == Transform(a, image, sqrt)
  {
    var a := Train(blank, images, sqrt).value;
    var saved := SaveParameters(a, store, path);
    match blank
    case Nyul(_, _, ps, _, _, _) =>
      var landmarks := a.standardLandmarks.value;
      RealsRoundTrip(landmarks);
      RealsRoundTrip(ps);
      assert a.parameters["standard_landmarks"] == EncodeReals(landmarks);
      assert a.parameters["landmarks_percentage"] == EncodeReals(ps);
      var b := LoadParametersRestoring(blank, saved, path);
      assert b.Ok?;
      assert b.value.percentages == ps && b.value.standardLandmarks == a.standardLandmarks;
    case ZScore(_, _, _, _, _) =>
      var b := LoadParametersRestoring(blank, saved, path);
      assert b.Ok?;
      assert b.value == a;
  }
}

=== FILE: stats.dfy ===
/** Order statistics and moments of voxel samples over `real`.

    numpy computes these in floating point; the model computes the same
    quantities exactly. Percentiles and medians are taken of a sample after
    sorting it, as numpy does internally. */
module Stats {

  /** Nondecreasing order. */
  predicate Sorted(s: seq<real>) {
    forall i, j :: 0 <= i < j < |s| ==> s[i] <= s[j]
  }

  /** Inserts `x` into a sorted sequence, keeping it sorted. */
  function Insert(x: real, s: seq<real>): (r: seq<real>)
    requires Sorted(s)
    ensures Sorted(r)
    ensures |r| == |s| + 1
    ensures multiset(r) == multiset(s) + multiset{x}
    ensures forall k :: 0 <= k < |r| ==> r[k] == x || r[k] in s
  {
    if |s| == 0 then [x]
    else if x <= s[0] then [x] + s
    else
      assert s == [s[0]] + s[1..];
      [s[0]] + Insert(x, s[1..])
  }

  /** The sorted permutation of a sample (insertion sort). */
  function Sort(s: seq<real>): (r: seq<real>)
    ensures Sorted(r)
    ensures |r| == |s|
    ensures multiset(r) == multiset(s)
  {
    if |s| == 0 then []
    else
      assert s == [s[0]] + s[1..];
      Insert(s[0], Sort(s[1..]))
  }

  /** The fractional rank `(n - 1) * p / 100` numpy interpolates at. */
  function Rank(n: nat, p: real): (h: real)
    requires n > 0 && 0.0 <= p <= 100.0
    ensures 0.0 <= h <= (n - 1) as real
  {
    var d := (n - 1) as real;
    ScaleMonotone(0.0, p, d);
    ScaleMonotone(p, 100.0, d);
    assert 0.0 <= p * d <= 100.0 * d;
    p * d / 100.0
  }

  lemma RankMonotone(n: nat, p: real, q: real)
    requires n > 0 && 0.0 <= p <= q <= 100.0
    ensures Rank(n, p) <= Rank(n, q)
  {
    ScaleMonotone(p, q, (n - 1) as real);
  }

  /** The sample index just below (or at) the rank. */
  function LowIndex(n: nat, p: real): (lo: nat)
    requires n > 0 && 0.0 <= p <= 100.0
    ensures lo < n
    ensures lo as real <= Rank(n, p) < lo as real + 1.0
  {
    Rank(n, p).Floor
  }

  /** The sample index just above the rank, clamped to the last index. */
  function HighIndex(n: nat, p: real): (hi: nat)
    requires n > 0 && 0.0 <= p <= 100.0
    ensures LowIndex(n, p) <= hi < n
    ensures hi == LowIndex(n, p) || hi == LowIndex(n, p) + 1
    ensures hi == LowIndex(n, p) ==> Rank(n, p) == LowIndex(n, p) as real || LowIndex(n, p) == n - 1
  {
    var lo := LowIndex(n, p);
    if lo + 1 < n then lo + 1 else lo
  }

  /** numpy's default ("linear") percentile `p` of a sorted sample. */
  function Percentile(a: seq<real>, p: real): (r: real)
    requires |a| > 0 && Sorted(a)
    requires 0.0 <= p <= 100.0
    ensures a[LowIndex(|a|, p)] <= r <= a[HighIndex(|a|, p)]
    ensures a[0] <= r <= a[|a| - 1]
  {
    var lo := LowIndex(|a|, p);
    var hi := HighIndex(|a|, p);
    var t := Rank(|a|, p) - lo as real;
    LerpBetween(a[lo], a[hi], t);
    Lerp(a[lo], a[hi], t)
  }

  /** Linear interpolation between `x` and `y` at fraction `t`. */
  function Lerp(x: real, y: real, t: real): real {
    x + t * (y - x)
  }

  lemma LerpBetween(x: real, y: real, t: real)
    requires x <= y && 0.0 <= t <= 1.0
    ensures x <= Lerp(x, y, t) <= y
  {
    ScaleMonotone(0.0, t, y - x);
    ScaleMonotone(t, 1.0, y - x);
  }

  lemma LerpMonotone(x: real, y: real, s: real, t: real)
    requires x <= y && s <= t
    ensures Lerp(x, y, s) <= Lerp(x, y, t)
  {
    ScaleMonotone(s, t, y - x);
  }

  /** The 0th percentile is the minimum and the 100th the maximum. */
  lemma PercentileEnds(a: seq<real>)
    requires |a| > 0 && Sorted(a)
    ensures Percentile(a, 0.0) == a[0]
    ensures Percentile(a, 100.0) == a[|a| - 1]
  {
    assert Rank(|a|, 100.0) == (|a| - 1) as real;
    assert LowIndex(|a|, 100.0) == |a| - 1;
  }

  /** Percentiles grow with the requested percentage. */
  lemma PercentileMonotone(a: seq<real>, p: real, q: real)
    requires |a| > 0 && Sorted(a)
    requires 0.0 <= p <= q <= 100.0
    ensures Percentile(a, p) <= Percentile(a, q)
  {
    var n := |a|;
    RankMonotone(n, p, q);
    var rp, rq := Rank(n, p), Rank(n, q);
    var lp, lq := LowIndex(n, p), LowIndex(n, q);
    assert lp as real <= rp && rq < lq as real + 1.0;
    assert lp as real < lq as real + 1.0;
    assert lp <= lq;
    if lp == lq {
      var hi := HighIndex(n, p);
      assert hi == HighIndex(n, q);
      LerpMonotone(a[lp], a[hi], rp - lp as real, rq - lq as real);
    } else {
      assert HighIndex(n, p) == lp + 1 <= lq;
      assert a[HighIndex(n, p)] <= a[lq];
    }
  }

  lemma ScaleMonotone(x: real, y: real, d: real)
    requires x <= y && 0.0 <= d
    ensures x * d <= y * d
  {
    assert y * d - x * d == (y - x) * d;
  }

  /** The median as numpy defines it: the middle element of an odd-sized
      sorted sample, the mean of the two middle ones of an even-sized one. */
  function Median(a: seq<real>): real
    requires |a| > 0
  {
    if |a| % 2 == 1 then a[|a| / 2] else (a[|a| / 2 - 1] + a[|a| / 2]) / 2.0
  }

  /** The median is the linear 50th percentile. */
  lemma MedianIsPercentile50(a: seq<real>)
    requires |a| > 0 && Sorted(a)
    ensures Median(a) == Percentile(a, 50.0)
  {
    var n := |a|;
    var m := n / 2;
    if n % 2 == 1 {
      assert n == 2 * m + 1;
      assert Rank(n, 50.0) == m as real;
      assert LowIndex(n, 50.0) == m;
    } else {
      assert n == 2 * m && m >= 1;
      assert Rank(n, 50.0) == m as real - 0.5;
      assert LowIndex(n, 50.0) == m - 1;
      assert HighIndex(n, 50.0) == m;
    }
  }

  /** The median of a sorted sample lies between its extremes. */
  lemma MedianBounds(a: seq<real>)
    requires |a| > 0 && Sorted(a)
    ensures a[0] <= Median(a) <= a[|a| - 1]
  {
    MedianIsPercentile50(a);
  }

  /** `array[array > 0]`: the strictly positive voxels, in order. */
  function Positives(s: seq<real>): (r: seq<real>)
    ensures |r| <= |s|
    ensures forall v :: v in r <==> v in s && v > 0.0
  {
    if |s| == 0 then []
    else
      assert s == [s[0]] + s[1..];
      (if s[0] > 0.0 then [s[0]] else []) + Positives(s[1..])
  }

  function Sum(s: seq<real>): real {
    if |s| == 0 then 0.0 else s[0] + Sum(s[1..])
  }

  /** `np.mean` of a non-empty sample. */
  function Mean(s: seq<real>): real
    requires |s| > 0
  {
    Sum(s) / |s| as real
  }

  lemma {:induction false} SumAbove(s: seq<real>, c: real)
    requires forall i :: 0 <= i < |s| ==> s[i] > c
    ensures |s| > 0 ==> Sum(s) > |s| as real * c
    ensures Sum(s) >= |s| as real * c
  {
    if |s| > 0 {
      SumAbove(s[1..], c);
    }
  }

  lemma {:induction false} SumBelow(s: seq<real>, c: real)
    requires forall i :: 0 <= i < |s| ==> s[i] < c
    ensures |s| > 0 ==> Sum(s) < |s| as real * c
    ensures Sum(s) <= |s| as real * c
  {
    if |s| > 0 {
      SumBelow(s[1..], c);
    }
  }

  /** Some sample value lies at or below the mean, and some at or above. */
  lemma MeanBounds(s: seq<real>)
    requires |s| > 0
    ensures exists i :: 0 <= i < |s| && s[i] <= Mean(s)
    ensures exists j :: 0 <= j < |s| && Mean(s) <= s[j]
  {
    var m := Mean(s);
    assert Sum(s) == |s| as real * m;
    if forall i :: 0 <= i < |s| ==> s[i] > m {
      SumAbove(s, m);
      assert false;
    }
    if forall i :: 0 <= i < |s| ==> s[i] < m {
      SumBelow(s, m);
      assert false;
    }
  }

  function Abs(x: real): real {
    if x < 0.0 then -x else x
  }

  /** `np.abs(values - center)`. */
  function AbsDeviations(s: seq<real>, c: real): (r: seq<real>)
    ensures |r| == |s|
    ensures forall i :: 0 <= i < |s| ==> r[i] == Abs(s[i] - c) && r[i] >= 0.0
  {
    seq(|s|, i requires 0 <= i < |s| => Abs(s[i] - c))
  }

  /** `(values - center) ** 2`. */
  function SquaredDeviations(s: seq<real>, c: real): (r: seq<real>)
    ensures |r| == |s|
    ensures forall i :: 0 <= i < |s| ==> r[i] == (s[i] - c) * (s[i] - c)
  {
    seq(|s|, i requires 0 <= i < |s| => (s[i] - c) * (s[i] - c))
  }

  lemma SquareNonNegative(x: real)
    ensures x * x >= 0.0
  {
    if x < 0.0 {
      assert x * x == (-x) * (-x);
    }
  }

  lemma {:induction false} SumNonNegative(s: seq<real>)
    requires forall i :: 0 <= i < |s| ==> s[i] >= 0.0
    ensures Sum(s) >= 0.0
  {
    if |s| > 0 {
      SumNonNegative(s[1..]);
    }
  }

  /** The population variance `np.var` of a non-empty sample. */
  function Variance(s: seq<real>): (v: real)
    requires |s| > 0
    ensures v >= 0.0
  {
    var d := SquaredDeviations(s, Mean(s));
    assert forall i :: 0 <= i < |d| ==> d[i] >= 0.0 by {
      forall i | 0 <= i < |d| ensures d[i] >= 0.0 {
        SquareNonNegative(s[i] - Mean(s));
      }
    }
    SumNonNegative(d);
    Mean(d)
  }
}

=== FILE: wrappers.dfy ===
/** Failure-carrying datatypes shared by every module of the model.

    Python code signals failure by raising; the model returns an `Err`
    carrying the exception's class name and its `str(e)` text instead. */
module Wrappers {

  /** Python's `None` versus a present value. */
  datatype Option<+T> = None | Some(value: T) {
    function GetOr(default: T): T {
      match this
      case Some(v) => v
      case None => default
    }
  }

  /** A raised Python exception: `type(e).__name__` and `str(e)`. */
  datatype Error = Error(kind: string, message: string)

  /** The outcome of a call that may raise. */
  datatype Result<+T> = Ok(value: T) | Err(error: Error) {
    predicate IsFailure() {
      Err?
    }

    function PropagateFailure<U>(): Result<U>
      requires Err?
    {
      Err(error)
    }

    function Extract(): T
      requires Ok?
    {
      value
    }
  }

  /** A loop that keeps each call's result and raises the first failure. */
  function AllOk<T>(rs: seq<Result<T>>): (r: Result<seq<T>>)
    ensures r.Ok? <==> forall k :: 0 <= k < |rs| ==> rs[k].Ok?
    ensures r.Ok? ==> |r.value| == |rs| && forall k :: 0 <= k < |rs| ==> r.value[k] == rs[k].value
    ensures r.Err? ==> exists k :: 0 <= k < |rs| && rs[k] == Err(r.error) && forall j :: 0 <= j < k ==> rs[j].Ok?
  {
    if |rs| == 0 then Ok([])
    else if rs[0].Err? then Err(rs[0].error)
    else
      var rest := AllOk(rs[1..]);
      assert forall k :: 1 <= k < |rs| ==> rs[k] == rs[1..][k - 1];
      if rest.Err? then
        var k :| 0 <= k < |rs| - 1 && rs[1..][k] == Err(rest.error) && forall j :: 0 <= j < k ==> rs[1..][j].Ok?;
        assert rs[k + 1] == Err(rest.error);
        Err(rest.error)
      else Ok([rs[0].value] + rest.value)
  }

  /** The values of the successful results, in order; failures are
      skipped. */
  function OkValues<T>(rs: seq<Result<T>>): (vs: seq<T>)
    ensures |vs| <= |rs|
    ensures (forall k :: 0 <= k < |rs| ==> rs[k].Ok?) ==>
      |vs| == |rs| && forall k :: 0 <= k < |rs| ==> vs[k] == rs[k].value
    ensures (forall k :: 0 <= k < |rs| ==> rs[k].Err?) ==> vs == []
    ensures forall k :: 0 <= k < |vs| ==> Ok(vs[k]) in rs
  {
    if |rs| == 0 then []
    else
      var rest := OkValues(rs[1..]);
      assert forall k :: 1 <= k < |rs| ==> rs[k] == rs[1..][k - 1];
      assert forall k :: 0 <= k < |rest| ==> Ok(rest[k]) in rs by {
        forall k | 0 <= k < |rest| ensures Ok(rest[k]) in rs {
          var j :| 0 <= j < |rs| - 1 && rs[1..][j] == Ok(rest[k]);
          assert rs[j + 1] == Ok(rest[k]);
        }
      }
      if rs[0].Ok? then [rs[0].value] + rest else rest
  }

  /** `str(KeyError(key))` quotes the key. */
  function KeyError(key: string): Error {
    Error("KeyError", "'" + key + "'")
  }

  function ValueError(message: string): Error {
    Error("ValueError", message)
  }

  function TypeError(message: string): Error {
    Error("TypeError", message)
  }
}

=== FILE: zscore.dfy ===
/** The arithmetic of z-score standardization: pooled statistics and the
    per-voxel map. */
module ZScoreMap {
  import opened Stats

  /** The guard added to the scale before dividing. */
  const Epsilon: real := 0.00000001

  /** The factor turning a median absolute deviation into a scale. */
  const MadFactor: real := 1.4826

  /** A floating-point statistic: numpy returns NaN for the median or mean of
      an empty sample, and division by a zero scale is not finite either. */
  datatype Num = Finite(r: real) | NonFinite

  /** A nonnegative square root, as `np.std` applies to the variance. Exact
      square roots are not computable over `real`, so the model receives
      one; only its sign matters to the properties proved here. */
  type Root = f: real -> real | forall x :: 0.0 <= f(x) witness (x: real) => 0.0

  /** The positive voxels of all images, image after image. */
  function Pool(images: seq<seq<real>>): (r: seq<real>)
    ensures forall v :: v in r ==> v > 0.0
    ensures forall k, v :: 0 <= k < |images| && v in images[k] && v > 0.0 ==> v in r
    ensures forall v :: v in r ==> exists k :: 0 <= k < |images| && v in images[k]
  {
    if |images| == 0 then []
    else
      var rest := Pool(images[1..]);
      assert forall k :: 1 <= k < |images| ==> images[k] == images[1..][k - 1];
      Positives(images[0]) + rest
  }

  /** Pooling one image gives exactly its positive voxels. */
  lemma PoolSingle(image: seq<real>)
    ensures Pool([image]) == Positives(image)
  {
    assert [image][1..] == [];
  }

  /** The (center, scale) pair of a sample: the median and 1.4826 times the
      median absolute deviation in robust mode, otherwise the mean and the
      population standard deviation. Both are NaN for an empty sample. */
  function Statistics(values: seq<real>, robust: bool, sqrt: Root): (r: (Num, Num))
    ensures |values| == 0 <==> r.0.NonFinite?
    ensures |values| == 0 <==> r.1.NonFinite?
    ensures r.1.Finite? ==> r.1.r >= 0.0
    ensures r.0.Finite? ==>
      (exists i :: 0 <= i < |values| && values[i] <= r.0.r) &&
      (exists j :: 0 <= j < |values| && r.0.r <= values[j])
  {
    if |values| == 0 then (NonFinite, NonFinite)
    else if robust then
      var sorted := Sort(values);
      var center := Median(sorted);
      var deviations := Sort(AbsDeviations(values, center));
      SortedEndsInSample(values, sorted);
      MedianBounds(sorted);
      NonNegativeSortedMedian(AbsDeviations(values, center), deviations);
      (Finite(center), Finite(Median(deviations) * MadFactor))
    else
      MeanBounds(values);
      (Finite(Mean(values)), Finite(sqrt(Variance(values))))
  }

  lemma SortedEndsInSample(values: seq<real>, sorted: seq<real>)
    requires |values| > 0 && sorted == Sort(values)
    ensures exists i :: 0 <= i < |values| && values[i] == sorted[0]
    ensures exists j :: 0 <= j < |values| && values[j] == sorted[|sorted| - 1]
  {
    assert sorted[0] in multiset(sorted);
    assert sorted[|sorted| - 1] in multiset(sorted);
    assert sorted[0] in values;
    assert sorted[|sorted| - 1] in values;
  }

  lemma NonNegativeSortedMedian(values: seq<real>, sorted: seq<real>)
    requires |values| > 0 && sorted == Sort(values)
    requires forall i :: 0 <= i < |values| ==> values[i] >= 0.0
    ensures Median(sorted) >= 0.0
  {
    SortedEndsInSample(values, sorted);
    MedianBounds(sorted);
  }

  /** The z-score of one voxel: `(v - center) / (scale + 1e-8)` for a
      positive voxel, 0 for any other. */
  function ZVoxel(v: real, center: Num, scale: Num): (r: Num)
    ensures v <= 0.0 ==> r == Finite(0.0)
    ensures v > 0.0 && scale.Finite? && scale.r >= 0.0 && center.Finite? ==> r.Finite?
  {
    if v <= 0.0 then Finite(0.0)
    else if center.NonFinite? || scale.NonFinite? || scale.r + Epsilon == 0.0 then NonFinite
    else Finite((v - center.r) / (scale.r + Epsilon))
  }

  /** The map is undone by multiplying back: positive voxels are recovered
      from their z-scores. */
  lemma ZVoxelInverse(v: real, center: real, scale: real)
    requires v > 0.0 && scale >= 0.0
    ensures ZVoxel(v, Finite(center), Finite(scale)).Finite?
    ensures center + ZVoxel(v, Finite(center), Finite(scale)).r * (scale + Epsilon) == v
  {
  }

  /** With a nonnegative scale the map keeps the order of positive voxels,
      strictly. */
  lemma ZVoxelMonotone(v: real, w: real, center: real, scale: real)
    requires 0.0 < v && 0.0 < w && scale >= 0.0
    ensures v <= w ==> ZVoxel(v, Finite(center), Finite(scale)).r <= ZVoxel(w, Finite(center), Finite(scale)).r
    ensures v < w ==> ZVoxel(v, Finite(center), Finite(scale)).r < ZVoxel(w, Finite(center), Finite(scale)).r
  {
    var d := scale + Epsilon;
    var zv, zw := (v - center) / d, (w - center) / d;
    assert zv * d == v - center && zw * d == w - center;
    if v <= w && zv > zw {
      ScaleMonotone(zw, zv, d);
      assert false;
    }
    if v < w && zv >= zw {
      ScaleMonotone(zw, zv, d);
      assert false;
    }
  }

  /** The map applied to every voxel. */
  function ZVoxels(voxels: seq<real>, center: Num, scale: Num): (r: seq<Num>)
    ensures |r| == |voxels|
    ensures forall k :: 0 <= k < |r| ==> r[k] == ZVoxel(voxels[k], center, scale)
  {
    seq(|voxels|, k requires 0 <= k < |voxels| => ZVoxel(voxels[k], center, scale))
  }
}
